=== FILE: README.md ===
# Portfolio site core, modelled in Dafny

This project models the logic behind a personal portfolio site. The site is a
Next.js front end with a small Python segmentation back end. The model covers:

- the project catalogue page: tag list, search and tag filter, result label;
- the analytics dashboard: count-sorted listings, hourly buckets, top-k
  slices, guarded ratios, flag emoji, fetch outcome;
- the "what's halfway" map: duration formatting, the point list with its
  positional labels, the central-point choice;
- the regex highlighter, which splits a paragraph into plain and highlighted
  segments;
- the snowflake explorer, which snaps a temperature to the nearest available one;
- the media player: clock text, seek, volume and mute, track navigation,
  keyboard shortcuts;
- the k-means canvas: adding and erasing dots, assignment, centroid update,
  recolouring;
- the image-generation form: validation and a five-entry prompt history;
- the chat page: submit, streaming reply revealed one character per tick;
- the code runner: language selection, request, output split into lines,
  the `classNames` helper;
- analytics consent: the hook, its banner and its status indicator;
- the colour theme context;
- the image carousel;
- the blog index;
- the years-spent figure of the profile page;
- the segmentation API's base64 handling and annotation drawing.

Every operation is a pure function or a short method over immutable
datatypes. Browser storage, network responses, clocks, random numbers, the
base64 codec, image libraries and the segmentation model are parameters.

The modules are:

- shared helpers: `Wrappers` (Option/Result), `Text`, `Sorting`, `Sequences`;
- one module per modelled source file: `Catalogue`, `Analytics`, `Halfway`,
  `Highlight`, `Snowflakes`, `MediaPlayer`, `Clustering`, `ImageGeneration`,
  `Chatbot`, `CodeEditor`, `Consent`, `ThemeContext`, `Carousel`, `Blog`,
  `Profile`, `Segmentation`.

## Model

| member | source | states |
|---|---|---|
| Text.Trim | api/segmentation/app.py:62 | the result has no leading or trailing whitespace, is a contiguous cut of the input with only whitespace removed around it, and is empty exactly when the input is all whitespace |
| Text.TrimIdempotent | api/segmentation/app.py:62 | stripping an already stripped string changes nothing |
| Text.JoinSplit | app/projects/code_interpreter/EditorComponent.tsx:65 | joining the lines of a split output with the separator gives back the output |
| Text.SplitJoin | app/projects/code_interpreter/EditorComponent.tsx:65 | splitting a join of separator-free lines gives back the lines |
| Text.ParseNatToString | app/projects/whats_halfway/content.tsx:68-70 | the decimal rendering of a natural number reads back as that number |
| Sorting.SortDesc | api/segmentation/app.py:106 | the result is a permutation of the input in non-increasing key order |
| Sequences.FilterIsSubsequence | app/projects/content.tsx:274 | `Array.filter` keeps the kept elements in their original order |
| Sequences.FilterCount | app/projects/content.tsx:274 | `Array.filter` keeps every passing element exactly as often as it occurs and drops every other element |
| Catalogue.AllTags | app/projects/content.tsx:266 | the tag list is strictly sorted, with no duplicates, and holds exactly the tags of some app |
| Catalogue.StrictlySortedUnique | app/projects/content.tsx:266 | two strictly sorted lists with the same members are equal, so the tag list is determined by the tag set |
| Catalogue.LessTransitive | app/projects/content.tsx:266 | the character-by-character order used for `sort()` is transitive |
| Catalogue.LessTotal | app/projects/content.tsx:266 | the character-by-character order is total on distinct strings |
| Catalogue.Filtered | app/projects/content.tsx:273-283 | an app is shown exactly when it is in the catalogue and passes both the search test and the tag test |
| Catalogue.FilteredIsSubsequence | app/projects/content.tsx:273-283 | the filtered apps appear in catalogue order |
| Catalogue.NoFilterShowsAll | app/projects/content.tsx:277-281 | an empty search with no active tag shows every app |
| Catalogue.SearchIgnoresCase | app/projects/content.tsx:275-280 | a query and its lower-cased form select the same apps |
| Catalogue.SearchNarrows | app/projects/content.tsx:275-280 | typing more characters never brings back an app that the shorter query hid |
| Catalogue.ToggleTag | app/projects/content.tsx:412 | clicking the active chip clears the tag filter; any other chip becomes the active tag |
| Catalogue.ToggleTwice | app/projects/content.tsx:412 | clicking the same chip twice returns to no filter, or to that tag if another tag was active |
| Catalogue.ResultLabel | app/projects/content.tsx:445 | the label is the count's digits followed by " result" for a count of 1 and " results" otherwise, and its digits read back as the count |
| Catalogue.ResultLabelSplit | app/projects/content.tsx:445 | splitting the label on its space gives the count's digits and the word, and the digits read back as the count |
| Analytics.ByCount | app/projects/analytics/content.tsx:202 | a listing is a permutation of the record's entries with the largest count first |
| Analytics.CountriesData | app/projects/analytics/content.tsx:196-203 | with no record the listing is empty; otherwise it is the record's entries, largest count first |
| Analytics.CitiesData | app/projects/analytics/content.tsx:226-233 | the same guarantee for the cities listing |
| Analytics.PagesData | app/projects/analytics/content.tsx:205-212 | the page entries with "/" shown as "Home", largest count first |
| Analytics.ReferrerName | app/projects/analytics/content.tsx:216-220 | "direct" becomes "Direct"; a URL shows its host name, or itself when the host name is empty; a non-URL fails |
| Analytics.RenameReferrers | app/projects/analytics/content.tsx:214-224 | the renaming succeeds exactly when every referrer can be renamed, and then renames each entry in place keeping its count |
| Analytics.ReferrersData | app/projects/analytics/content.tsx:214-224 | a failed renaming fails the listing; otherwise the renamed entries are sorted by count |
| Analytics.HourlyData | app/projects/analytics/content.tsx:187-194 | at most 24 buckets: the last ones of the record, each keeping its count and named by the last five characters of its key |
| Analytics.TopVisitors | app/projects/analytics/content.tsx:260 | at most ten visitors, the first ones of the response in the server's order (all of them when there are fewer than ten), and none without a response |
| Analytics.TopSlicesAreLargest | app/projects/analytics/content.tsx:282-283 | the top countries and top cities hold at most 5 and 8 rows of their count-sorted listings, each counting at least as much as any row left out, all drawn from the listing |
| Analytics.CountryDistribution | app/projects/analytics/content.tsx:261-264 | the distribution total equals the sum over the raw record, so sorting loses no count |
| Analytics.TotalCountByCount | app/projects/analytics/content.tsx:261-264 | sorting a listing by count keeps its total |
| Analytics.AvgViewsPerVisitor | app/projects/analytics/content.tsx:235-237 | absent without statistics; otherwise the average times the visitor count floored at 1 gives the total page views |
| Analytics.VisitorRate | app/projects/analytics/content.tsx:239-272 | needs both responses; the rate times the IP count floored at 1 is 100 times the number of visitors passing the test |
| Analytics.RatesAddUp | app/projects/analytics/content.tsx:239-272 | the bounce rate plus the return rate is the rate of visitors with at least one page view |
| Analytics.BounceReturnPartition | app/projects/analytics/content.tsx:239-272 | single-view and multi-view visitors split the visitors with a view |
| Analytics.AvgSessionMinutes | app/projects/analytics/content.tsx:248-258 | absent without visitors; otherwise the average in minutes, times the IP count floored at 1, gives the total session time |
| Analytics.AvgPagesPerSession | app/projects/analytics/content.tsx:274-280 | defined exactly when visitors are loaded and the IP count is positive; then the average times the IP count is the total page views |
| Analytics.Flag | app/projects/analytics/content.tsx:1019-1026 | no flag for an empty code; otherwise one regional indicator per character of the upper-cased code |
| Analytics.FlagLetters | app/projects/analytics/content.tsx:1019-1026 | letters map to the 26 regional indicators in alphabetical order, and case does not matter |
| Analytics.FetchSettled | app/projects/analytics/content.tsx:150-180 | loading ends; success stores both responses and clears the error, failure clears both and stores the message |
| Halfway.SplitDuration | app/projects/whats_halfway/content.tsx:64-66 | days, hours below 24 and minutes below 60 that add back up to the duration |
| Halfway.SplitDurationUnique | app/projects/whats_halfway/content.tsx:64-66 | that decomposition is the only one |
| Halfway.DurationTokensShape | app/projects/whats_halfway/content.tsx:64-70 | one to three tokens: a day token first exactly when there are whole days, an hour token next exactly when the hours are non-zero, and a minute token last exactly when the minutes are non-zero or there is neither a day nor an hour token |
| Halfway.FormatDuration | app/projects/whats_halfway/content.tsx:63-72 | the text is never empty (so the `'0min'` fallback never applies), a zero duration reads "0min", and splitting the text on spaces gives exactly the duration tokens |
| Halfway.FormatDurationRoundTrip | app/projects/whats_halfway/content.tsx:63-72 | reading the "Xd Yh Zmin" text back gives the number of minutes formatted |
| Halfway.DurationTokensSpaceFree | app/projects/whats_halfway/content.tsx:68-71 | no token contains the joining space, so the joined text splits back into its tokens |
| Halfway.Renumber | app/projects/whats_halfway/content.tsx:391-394 | a point whose label starts with "#" is relabelled by its new position; other points are unchanged |
| Halfway.RenumberIdempotent | app/projects/whats_halfway/content.tsx:391-394 | renumbering twice is renumbering once |
| Halfway.AppendPoint | app/projects/whats_halfway/content.tsx:355-358 | the old points stay in place, and the new last point has the clicked position and either the user's label or its positional "#n" |
| Halfway.DeletePoint | app/projects/whats_halfway/content.tsx:387-395 | an in-range index removes that point and renumbers the rest; an out-of-range one only renumbers |
| Halfway.AppendThenDelete | app/projects/whats_halfway/content.tsx:355-395 | deleting the point just added gives back the renumbered list |
| Halfway.RenamePoint | app/projects/whats_halfway/content.tsx:397-405 | a cancelled prompt changes nothing; otherwise only point i changes, taking the answer or "#i+1" for an empty answer |
| Halfway.Move | app/projects/whats_halfway/content.tsx:410-412 | a permutation that puts the dragged element at the drop index and keeps the others in order |
| Halfway.OnDragEnd | app/projects/whats_halfway/content.tsx:407-418 | a drop outside the list changes nothing; otherwise the moved list is renumbered and the dragged point lands at the drop index |
| Halfway.OnPointsChanged | app/projects/whats_halfway/content.tsx:421-437 | fewer than two points clear every route result and stop loading; otherwise loading starts, and route mode drops the central point |
| Halfway.RowMax | app/projects/whats_halfway/content.tsx:112 | `Math.max(...row)` is an element of the row that no element exceeds |
| Halfway.FirstArgMinIndex | app/projects/whats_halfway/content.tsx:109-117 | the strict `<` update keeps the first index of a smallest value |
| Halfway.CentralChoiceAsWritten | app/projects/whats_halfway/content.tsx:109-118 | the loop as written: the first row with the smallest row maximum selects `candidates[i]` by row index, or nothing past the candidate list |
| Halfway.CentralChoice | app/projects/whats_halfway/content.tsx:92-118 | the candidate with the smallest worst travel time over all points, the first one on ties, the centroid with no rows |
| Halfway.CentralChoiceCounterexample | app/projects/whats_halfway/content.tsx:109-118 | for two points, the loop as written keeps the centroid (worst time 10) while a candidate reaching both in 1 exists |
| Highlight.ResumeAt | app/projects/regex/content.tsx:52-53 | the scan resumes past the match and strictly after its start, so empty matches cannot stall it |
| Highlight.Piece | app/projects/regex/content.tsx:46-51 | the gap before a match, if non-empty, then the match: together they spell the text up to the match's end |
| Highlight.SegmentsFrom | app/projects/regex/content.tsx:45-56 | the segments spell the rest of the text and the highlighted ones are the matches' texts in order |
| Highlight.SegmentsFromPlain | app/projects/regex/content.tsx:45-56 | no plain segment of the loop is empty and no two plain segments are adjacent |
| Highlight.SegmentsFromStarts | app/projects/regex/content.tsx:45-56 | each highlighted segment starts, in the glued text, at its match's index |
| Highlight.HighlightText | app/projects/regex/content.tsx:41-58 | the segments spell the whole text, plain segments are never empty and never adjacent, and there is one highlighted segment per match, in order, starting at the match's index; together these allow one cut only |
| Highlight.Recompute | app/projects/regex/content.tsx:60-72 | a valid pattern shows segments that spell the text, with non-empty, non-adjacent plain segments and the matches highlighted at their indices, the match count and no error; an invalid one shows the paragraph plain, 0 matches and the message |
| Snowflakes.AvailableTemperatures | app/projects/snowflakes/content.tsx:15-19 | each humidity level 1 to 3 has a non-empty list of temperatures, all within the slider's range |
| Snowflakes.ScanClosest | app/projects/snowflakes/content.tsx:27-36 | over a sorted list the scan returns an element at least as close as any other, and the smallest of those at equal distance |
| Snowflakes.ClosestTemperature | app/projects/snowflakes/content.tsx:22-39 | no answer for an empty list; otherwise a listed temperature nearest the target, the lowest on ties, and the target itself when listed |
| Snowflakes.ClosestIsUnique | app/projects/snowflakes/content.tsx:26-36 | a listed temperature that is nearest and lowest among the equally near ones is unique, so the snapping is fully determined |
| Snowflakes.SnapEffect | app/projects/snowflakes/content.tsx:41-55 | the temperature snaps to the nearest available one, the lowest of two equally near ones; the image key changes exactly when the image path changes |
| Snowflakes.ImagePath | app/projects/snowflakes/content.tsx:47 | the photograph's path lies in the snowflake image directory and ends in ".jpg" |
| Snowflakes.ImagePathInjective | app/projects/snowflakes/content.tsx:47 | at one humidity two temperatures share a path exactly when they are equal, so the image key changes exactly when the snapped temperature does |
| Snowflakes.HumidityOfCircle | app/projects/snowflakes/content.tsx:103-106 | the three circles select humidity levels 3, 2, 1 from top to bottom, each one with temperatures available |
| MediaPlayer.Pad | app/projects/media_player/content.tsx:26 | at least two digits, which read back as the number |
| MediaPlayer.Fmt | app/projects/media_player/content.tsx:27 | "mm:ss" with seconds below 60, and minutes and seconds together making up the whole seconds of the time |
| MediaPlayer.FmtRoundTrip | app/projects/media_player/content.tsx:26-27 | the clock text reads back as the whole seconds of the time |
| MediaPlayer.IsVideoUrl | app/projects/media_player/content.tsx:28 | a video URL has at least four characters, and a name ending in ".mp4" or ".MOV" is a video |
| MediaPlayer.IsVideoUrlIgnoresCase | app/projects/media_player/content.tsx:28 | the video test ignores letter case, as the `i` flag promises |
| MediaPlayer.Progress | app/projects/media_player/content.tsx:165 | 0 while the duration is unknown; otherwise the fraction played, between 0 and 1 for an in-range time |
| MediaPlayer.Clamp01 | app/projects/media_player/content.tsx:335-338 | the mouse position is clamped into [0, 1] and kept when already inside |
| MediaPlayer.HandleSeek | app/projects/media_player/content.tsx:168 | seeks to that fraction of the duration, which stays within the track |
| MediaPlayer.HandleVolume | app/projects/media_player/content.tsx:170-174 | the volume is shown and sent to the player, and the player counts as muted exactly at 0 |
| MediaPlayer.ToggleMute | app/projects/media_player/content.tsx:176-188 | muting saves the volume and silences the player; unmuting restores the saved volume, or 0.7 when it was 0 |
| MediaPlayer.MuteUnmute | app/projects/media_player/content.tsx:176-188 | muting then unmuting gives back the volume, or 0.7 if it was 0 |
| MediaPlayer.PrevTrack | app/projects/media_player/content.tsx:190-192 | nothing on the first track, otherwise the previous one |
| MediaPlayer.NextTrack | app/projects/media_player/content.tsx:193-196 | nothing on the last track, otherwise the next one, which is in range |
| MediaPlayer.PrevThenNext | app/projects/media_player/content.tsx:190-196 | going back then forward returns to the same track |
| MediaPlayer.KeyCommand | app/projects/media_player/content.tsx:200-209 | keys are ignored in inputs; space toggles playback; the right arrow seeks to the smaller of 5 s ahead and the end, the left arrow to the larger of 5 s back and the start |
| MediaPlayer.SeekForwardThenBack | app/projects/media_player/content.tsx:206-208 | 5 s forward and then 5 s back returns to the same moment when the step forward does not reach the end |
| MediaPlayer.RowClick | app/projects/media_player/content.tsx:381-387 | clicking the active row toggles playback; any other row plays that track |
| Clustering.AddDot | app/projects/clustering/content.tsx:148-152 | with 30 dots nothing changes; otherwise the dot is appended in the theme's colour, so the cap of 30 holds |
| Clustering.EraseDots | app/projects/clustering/content.tsx:155-162 | exactly the dots farther than 20 from the eraser survive, each as often as it was drawn, in order |
| Clustering.EditsKeepCap | app/projects/clustering/content.tsx:148-162 | adding and erasing never take the canvas past 30 dots |
| Clustering.Reset | app/projects/clustering/content.tsx:201-205 | the canvas and the centroids are emptied |
| Clustering.SliderClusters | app/projects/clustering/content.tsx:399-400 | the number of clusters stays between 2 and 10 |
| Clustering.NearestCentroid | app/projects/clustering/content.tsx:224-235 | the first index of a nearest centroid, by squared distance |
| Clustering.Assign | app/projects/clustering/content.tsx:223-236 | one assignment per dot, each to its first nearest centroid |
| Clustering.MoveCentroid | app/projects/clustering/content.tsx:238-244 | a centroid with no members stays; otherwise it moves to the mean of its members |
| Clustering.Update | app/projects/clustering/content.tsx:237-245 | every centroid is updated independently and keeps its index |
| Clustering.Recolor | app/projects/clustering/content.tsx:248-251 | dots keep their positions and take the colour of their cluster, cycling through ten colours |
| Clustering.Generate | app/projects/clustering/content.tsx:208-253 | nothing without dots; an alert with fewer dots than clusters; otherwise a run of exactly 10 rounds (each assigning every dot to its nearest centroid, then updating) from the centroids seeded by the first shuffled dots, whose last assignment colours the dots and whose last centroids are kept |
| Clustering.RunKeepsShape | app/projects/clustering/content.tsx:221-246 | every round of a run keeps the number of centroids, and every assignment names one of them |
| ImageGeneration.StartGenerate | app/projects/image_generation/content.tsx:39-44 | a blank prompt or token sets the validation message and sends nothing; otherwise loading starts, the error clears and the prompt is sent |
| ImageGeneration.EnabledButtonSends | app/projects/image_generation/content.tsx:260 | whenever the button is enabled, pressing it sends a request |
| ImageGeneration.RecordPrompt | app/projects/image_generation/content.tsx:60-61 | a known prompt leaves the history alone; a new one goes first, followed by at most four earlier ones, with no duplicates |
| ImageGeneration.HistoryBounded | app/projects/image_generation/content.tsx:60-61 | the history never exceeds five prompts |
| ImageGeneration.FinishGenerate | app/projects/image_generation/content.tsx:57-66 | loading ends; success shows the image and records the prompt; failure shows the message |
| Chatbot.Submit | app/projects/chatbot/content.tsx:147-152 | blank input or a running request is ignored; otherwise the trimmed input is sent and the field cleared |
| Chatbot.SendMessage | app/projects/chatbot/content.tsx:96-100 | loading starts and the user's message is appended |
| Chatbot.Settle | app/projects/chatbot/content.tsx:110-144 | loading ends; a reply adds an empty streaming bot message, a failure adds the apology |
| Chatbot.Clear | app/projects/chatbot/content.tsx:249 | the conversation is emptied |
| Chatbot.Step | app/projects/chatbot/content.tsx:124-129 | one character is revealed into the message, or streaming stops at the end; no other message changes |
| Chatbot.TickAsWritten | app/projects/chatbot/content.tsx:120-132 | the tick as written writes into whatever message is last |
| Chatbot.Tick | app/projects/chatbot/content.tsx:120-132 | the tick writes into the bot message that the reply belongs to |
| Chatbot.TicksRevealPrefix | app/projects/chatbot/content.tsx:120-132 | after k ticks the bot message shows the first k more characters of the reply, and nothing else changed |
| Chatbot.TickIgnoresLaterMessages | app/projects/chatbot/content.tsx:120-132 | messages sent while the reply streams are not touched by the intended tick |
| Chatbot.TickAsWrittenCorruptsNewMessage | app/projects/chatbot/content.tsx:120-143 | a message sent mid-stream receives the reply's characters in the code as written |
| Chatbot.TicksAgreeWhenTargetIsLast | app/projects/chatbot/content.tsx:120-132 | with no later message the two ticks agree |
| CodeEditor.Initial | app/projects/code_interpreter/EditorComponent.tsx:25-29 | the first render shows Python with its sample program, idle, no output |
| CodeEditor.OnChange | app/projects/code_interpreter/EditorComponent.tsx:37-41 | an empty or missing value is ignored; any other replaces the source |
| CodeEditor.OnSelect | app/projects/code_interpreter/EditorComponent.tsx:43-46 | the chosen runtime and its sample program replace the current ones |
| CodeEditor.Execute | app/projects/code_interpreter/EditorComponent.tsx:48-58 | loading starts and the request carries the runtime's language, version and the source as its one file |
| CodeEditor.Finish | app/projects/code_interpreter/EditorComponent.tsx:60-73 | success clears the error and shows the output as at least one newline-free line, the lines joining back to it, which is exactly what `split('\n')` gives; failure flags the error and keeps the old output |
| CodeEditor.ClassNamesCons | app/projects/code_interpreter/SelectLanguages.tsx:7-9 | for any names, spaces included: an empty first name is skipped, and a non-empty one stands alone or is followed by one space and the class string of the rest; with no names the string is empty |
| CodeEditor.ClassNames | app/projects/code_interpreter/SelectLanguages.tsx:7-9 | every non-empty class name occurs in the class string |
| CodeEditor.ClassNamesAllEmpty | app/projects/code_interpreter/SelectLanguages.tsx:7-9 | the class string is empty exactly when every name is empty |
| Consent.Mount | hooks/useCookieConsent.ts:6-12 | a hook's first render is not loaded and has consent exactly when a window exists and "true" is stored |
| Consent.MountPage | components/providers.tsx:25-30 | the indicator and the banner each mount their own hook from the same storage, with no reload pending |
| Consent.InitialConsent | hooks/useCookieConsent.ts:6-10 | consent starts granted exactly when a window exists and "true" is stored |
| Consent.Loaded | hooks/useCookieConsent.ts:14-17 | the mount effect marks the hook loaded and keeps its consent |
| Consent.GiveConsent | hooks/useCookieConsent.ts:19-24 | "true" is stored, the calling hook's consent granted and a reload scheduled |
| Consent.DenyConsent | hooks/useCookieConsent.ts:26-29 | "false" is stored while the calling hook's consent is set for the session, with no reload |
| Consent.WithdrawConsent | hooks/useCookieConsent.ts:31-36 | the key is removed, the calling hook's consent revoked and a reload scheduled |
| Consent.ReloadRestoresChoice | hooks/useCookieConsent.ts:6-36 | a hook mounted after a reload has consent only after Allow, not after Deny or a withdrawal |
| Consent.Press | components/cookie_consent.tsx:26-37 | either button hides the banner through the banner's own hook and leaves the indicator's hook alone; only Allow stores "true" and reloads |
| Consent.BannerVisible | components/cookie_consent.tsx:9-11 | the banner shows once its hook is loaded and only without consent |
| Consent.DenyHidesBannerForSession | components/cookie_consent.tsx:9-11 | after Deny the banner is hidden for the session but returns after a reload |
| Consent.GetStatus | components/cookie_status_checker.tsx:14-17 | no status before loading; then success exactly with consent |
| Consent.GetMessage | components/cookie_status_checker.tsx:19-26 | empty before loading; then the enabled or the disabled message matching the consent |
| Consent.Render | components/cookie_status_checker.tsx:38-47 | warning before loading, check with consent, cross without; the title shows on hover once loaded |
| Consent.ExactlyOneIcon | components/cookie_status_checker.tsx:39-45 | exactly one status icon is drawn |
| Consent.CrossIffBannerAfterMount | components/providers.tsx:25-30 | right after a (re)mount the indicator's red cross shows exactly when the banner does |
| Consent.PressLeavesCross | components/providers.tsx:25-30 | while the indicator's hook has no consent, either banner button hides the banner but the red cross stays |
| Consent.DenyDisagreement | components/providers.tsx:25-30 | on a fresh page with nothing stored, Deny leaves the banner hidden, the cross shown and "false" stored |
| ThemeContext.Initial | context/ThemeContext.tsx:15 | the first render is light whatever is stored, with storage untouched and no theme on the document yet |
| ThemeContext.Preferred | context/ThemeContext.tsx:19-21 | dark exactly when "dark" is stored; a stored valid theme is adopted, anything else falls back to light |
| ThemeContext.Mount | context/ThemeContext.tsx:18-24 | the preferred theme is adopted and written to the document; storage is untouched |
| ThemeContext.Toggle | context/ThemeContext.tsx:27-34 | the theme changes, and the new one is stored and written to the document |
| ThemeContext.ToggleTwice | context/ThemeContext.tsx:27-34 | toggling twice restores the theme |
| ThemeContext.ToggleSurvivesReload | context/ThemeContext.tsx:18-34 | a toggled theme is the one the next page load adopts |
| ThemeContext.UseThemeContext | context/ThemeContext.tsx:43-49 | fails with the guard message exactly outside a provider |
| Carousel.Next | components/carousel.tsx:31 | undefined with no images; otherwise the following index, wrapping from the last to the first |
| Carousel.Prev | components/carousel.tsx:23-25 | the previous index, wrapping from the first to the last |
| Carousel.PrevNextInverse | components/carousel.tsx:23-31 | the two buttons undo each other |
| Carousel.ClicksStayInRange | components/carousel.tsx:4-31 | from an index on an image, any sequence of clicks keeps the index on an image |
| Blog.MarkdownFiles | app/blog/page.tsx:13 | exactly the listing's names ending in ".md", in listing order |
| Blog.RemoveFirst | app/blog/page.tsx:23 | `replace` with a string pattern cuts out the first occurrence, if any, and otherwise returns the string unchanged |
| Blog.SlugAsWritten | app/blog/page.tsx:23 | the slug as written is the name with its first ".md" cut out, three characters shorter for a Markdown name, and the name itself when it has no ".md" |
| Blog.SlugAgreesWhenExtensionOnlyAtEnd | app/blog/page.tsx:23 | when ".md" occurs only at the end, the code as written gives the intended slug |
| Blog.SlugAsWrittenCounterexamples | app/blog/page.tsx:23 | "x.mdx.md" gets the slug "xx.md", whose post file is not itself |
| Blog.SlugAsWrittenCollision | app/blog/page.tsx:23 | "a.mdb.md" and "ab.md.md" both get the slug "ab.md" as written |
| Blog.Slug | app/blog/page.tsx:23 | the intended slug is the one whose post file is the listed file |
| Blog.SlugInjective | app/blog/page.tsx:23 | different files get different slugs |
| Blog.ImageOf | app/blog/page.tsx:24 | a missing or empty image falls back to the default, so every post has an image |
| Blog.BlogPostsAsWritten | app/blog/page.tsx:15-27 | the index as written: one post per Markdown file, in order, with its front matter, its image and the slug with the first ".md" cut out |
| Blog.AsWrittenIndexAgrees | app/blog/page.tsx:15-27 | when no listed Markdown name has ".md" before its end, the index as written is the corrected index |
| Blog.AsWrittenIndexCounterexample | app/blog/page.tsx:15-27 | for the listing "x.mdx.md" the index as written links a post page whose file is not listed |
| Blog.BlogPosts | app/blog/page.tsx:15-27 | the corrected index: one post per Markdown file, in order, with its front matter, its image and a slug that leads back to the file |
| Blog.PostsCoverMarkdownFiles | app/blog/page.tsx:13-27 | in the corrected index every Markdown file has a post, and every post opens a listed file |
| Profile.YearsSpentAsWritten | app/profile/content.tsx:70-85 | the year difference, one less exactly when the months are more than six apart in either direction |
| Profile.AsWrittenIgnoresDirection | app/profile/content.tsx:75-77 | k months after the start month and k months before it give the same figure |
| Profile.AsWrittenCounterexamples | app/profile/content.tsx:74-84 | eleven months give -1, 2 years 9 months give 1, and 1 year 6 months give 2 |
| Profile.AsWrittenNotMonotone | app/profile/content.tsx:74-84 | the figure as written can drop as time passes |
| Profile.YearsSpent | app/profile/content.tsx:79 | the whole years elapsed, with a remainder of more than six months counting as a year |
| Profile.YearsSpentMonotone | app/profile/content.tsx:79 | the intended figure never drops as time passes and is never negative after the start |
| Profile.AgreementRegion | app/profile/content.tsx:74-84 | where the code as written and the intended figure agree |
| Segmentation.StripDataUriPrefix | api/segmentation/app.py:57-59 | the PNG data-URI prefix is removed when present, otherwise the string is kept |
| Segmentation.PadToQuantum | api/segmentation/app.py:63-65 | the string is extended with "=" to the next multiple of four, adding fewer than four |
| Segmentation.NormalizeBase64 | api/segmentation/app.py:56-65 | a multiple of four long: the stripped, trimmed payload followed only by padding |
| Segmentation.NormalizeFixpoint | api/segmentation/app.py:56-65 | a trimmed, unprefixed string of length a multiple of four is left as is |
| Segmentation.EncodedPayloadNormalizes | api/segmentation/app.py:57-96 | the data URI the server produces normalises back to its base64 payload |
| Segmentation.LeadingSpaceBlocksPrefix | api/segmentation/app.py:58-62 | with leading whitespace the prefix survives, because it is checked before the strip |
| Segmentation.Base64ToImage | api/segmentation/app.py:54-75 | a payload that fails to decode yields nothing; one that decodes yields whatever the image loader makes of its bytes, the image or nothing |
| Segmentation.DrawOrder | api/segmentation/app.py:106 | annotations are drawn as a permutation in non-increasing area |
| Segmentation.AlphaMask | api/segmentation/app.py:122 | each mask pixel becomes opacity 0.35 when set and 0 otherwise |
| Segmentation.ShowAnns | api/segmentation/app.py:103-122 | nothing for no annotations; otherwise one layer per annotation, largest area first, each with its colour and alpha mask |
| Segmentation.ImageToBase64 | api/segmentation/app.py:77-100 | nothing when rendering fails; otherwise a PNG data URI of the encoded rendering |
| Segmentation.ProcessImage | api/segmentation/app.py:125-141 | the error sentinel exactly when the input does not decode or open; otherwise the converted image is rendered with the masks generated from it, and the answer is nothing exactly when rendering fails, else the PNG data URI of the rendering |

## Left out

- Network requests, browser storage, the DOM, timers and the page reload are
  not run: their results are parameters or flags.
- The segmentation model, OpenCV, PIL, matplotlib and the base64 codec are
  function parameters. The random colours of the masks come from a palette
  parameter.
- Animations, ellipse drawing (covariance and eigenvectors) and everything
  else that only draws are left out.
- Floating-point rounding is left out: `toFixed`, `Math.round`, and the
  exact results of real-number averages. Ratios are exact reals.
- The random shuffle that seeds k-means is a parameter: any permutation of
  the dots.
- Clustering.EraseDots: compares squared distances with 400 instead of
  `Math.sqrt(...) > 20`, which is the same test over the reals.
- Clustering.Generate: requires at least one cluster; the slider never
  offers fewer than two.
- Text.Trim: removes only the ASCII whitespace set (space, tab, line feed,
  vertical tab, form feed, carriage return). Python's `strip()` also removes
  the separators U+001C..U+001F, U+0085 and the Unicode spaces; JavaScript's
  `trim()` also removes U+00A0, U+FEFF and the Unicode spaces.
- Text.ToLower: changes only ASCII letters. JavaScript's case mapping covers
  all of Unicode.
- Text.ToUpper: changes only ASCII letters, so Analytics.Flag upper-cases a
  country code in ASCII only; `toUpperCase` covers all of Unicode.
- Analytics.Flag: one regional indicator per character of an ASCII-upper-cased
  code; non-ASCII letters are not mapped as `toUpperCase` would map them.
- Catalogue.Less: compares whole characters (Unicode code points). JavaScript's
  `sort()` compares UTF-16 code units, which orders characters above U+FFFF
  before U+E000..U+FFFF; the two orders agree on all other characters.
- Halfway.FormatDuration: covers whole minutes only. The fractional minutes
  that `Math.round` handles are not modelled.
- Halfway.CentralChoice: the travel-time table is a parameter, not an OSRM
  request. Reverse geocoding and route geometry are left out.
- MediaPlayer.Fmt: requires a non-negative time. The player never reports a
  negative one.
- Chatbot.Step: reveals one character (a Unicode scalar value) per tick.
  `text[idx++]` indexes UTF-16 code units, so a character above U+FFFF takes
  two ticks in the page and shows a lone surrogate in between.
- Chatbot.TicksRevealPrefix: "the first k characters" counts Unicode scalar
  values, as Chatbot.Step does; the page counts UTF-16 code units, and the
  two counts differ once the reply holds a character above U+FFFF.
- Consent.WithdrawConsent: is called from the privacy page, which holds a
  third hook of its own; Consent.Page holds only the indicator's and the
  banner's hooks.
- Highlight.ResumeAt: past an empty match the model moves on by one
  character (a Unicode scalar value). `regex.lastIndex++` moves one UTF-16
  code unit, and the pattern has no `u` flag, so in the page an empty match
  can land between the two halves of a surrogate pair.
- Highlight.HighlightText: match indices and `text.slice` count UTF-16 code
  units in the page, while the model's text is a sequence of scalar values.
  A match that covers half of a character above U+FFFF (`/./g` over U+1F600
  gives two lone surrogates) has no counterpart in the model, which covers
  only matches that begin and end on character boundaries.
- Highlight.Recompute: inherits Highlight.HighlightText's counting in scalar
  values; the page's segments of a text with characters above U+FFFF can
  split such a character, which the model cannot express.
- Chatbot.Settle: timestamps, the model picker and the user id are left out.
- Analytics.ReferrerName: URL parsing is a parameter that returns the host
  name, or nothing when the string is not a URL.
- Analytics.ByCount: proves that the result is sorted and a permutation.
  The stability of `Array.sort` is not stated.
- Carousel.Next: the `NaN` index of an empty carousel is modelled as `None`.
- Blog.BlogPosts: reading the files and parsing their front matter are a
  function from file name to front matter. This is the corrected index; the
  index as written is Blog.BlogPostsAsWritten.
- Segmentation.ProcessImage: the colour conversion and mask generation are
  total parameters. In the server, `cv2.cvtColor` can raise on an image it
  cannot convert, and that exception is not caught.
- Segmentation.DrawOrder: states a permutation in non-increasing area.
  `sorted(..., reverse=True)` keeps equal areas in input order, as
  Sorting.SortDesc does; DrawOrder's contract does not state it.
- MediaPlayer.RowClick: the current track index is a number. The player's
  `currentTrackIndex` may also be `null` before any track is chosen; that case
  is not modelled.
- Profile.YearsSpentAsWritten: date parsing and the clock are left out.
  Both dates arrive as a year and a zero-based month.
- CodeEditor.Initial: the sample programs are a map parameter that covers
  every offered language. The Monaco editor, toasts and themes are left out.
- Code interpreter page (app/code_interpreter/components/CodeEditor.jsx): not
  modelled; the projects version of the runner is modelled instead.

## Findings

| source | as written | input that shows it | evidently intended | confidence | as-written member | corrected member |
|---|---|---|---|---|---|---|
| app/projects/whats_halfway/content.tsx:109-118 | each row of the travel-time table belongs to a source point, but the loop picks `candidates[i]` by row index | two points, each reaching the centroid in 10 min and every other candidate in 1 min: the centroid is kept; with six or more points the result can be `undefined` | pick the candidate whose worst travel time over all points (its column maximum) is smallest | high; not executed | Halfway.CentralChoiceAsWritten | Halfway.CentralChoice |
| app/projects/chatbot/content.tsx:120-132 | the typewriter writes into whatever message is last, and loading ends right after the interval starts, so a new message can be sent mid-stream | reply "ok" streaming, then the user sends "next": the next tick appends "o" to "next" | reveal the reply into its own bot message | high; not executed | Chatbot.TickAsWritten | Chatbot.Tick |
| app/profile/content.tsx:74-84 | one year is subtracted whenever the months are more than six apart, in either direction | start January 2022, now December 2022: -1 years | whole years elapsed, a remainder of more than six months counting as one more | high; not executed | Profile.YearsSpentAsWritten | Profile.YearsSpent |
| app/blog/page.tsx:23 | `filename.replace('.md', '')` removes the first ".md" anywhere in the name | "x.mdx.md" gets the slug "xx.md", and its page reads "xx.md.md" | remove the trailing extension only | medium; not executed | Blog.BlogPostsAsWritten | Blog.BlogPosts |

=== FILE: analytics.dfy ===
/** The analytics dashboard's data processing
    (app/projects/analytics/content.tsx): the listings derived from the
    statistics records, the top-k slices, the guarded ratios and the flag
    emoji of a country code. The two HTTP requests are not modelled: their
    outcome is a parameter. A record (`Record<string, number>`) is given as
    its entries in enumeration order. Ratios are exact reals; the
    `toFixed` rounding is not modelled, and `None` stands for the literal
    '0' shown when the data is missing. */
module Analytics {
  import opened Wrappers
  import opened Text
  import Sorting

  /** One `[key, count]` pair of a record. */
  datatype Entry = Entry(name: string, count: int)

  datatype Stats = Stats(
    totalPageViews: int,
    uniqueVisitors: int,
    uniqueIps: int,
    hourly: Option<seq<Entry>>,
    countries: Option<seq<Entry>>,
    pages: Option<seq<Entry>>,
    referrers: Option<seq<Entry>>,
    cities: Option<seq<Entry>>)

  /** One visitor row; visit times are milliseconds since the epoch. */
  datatype Visitor = Visitor(pageViews: int, firstVisit: int, lastVisit: int, countryCode: string, country: string)

  datatype VisitorsResponse = VisitorsResponse(visitors: seq<Visitor>, totalUniqueIps: int)

  /** How many hourly buckets, country rows, city rows and visitor rows
      the dashboard shows. */
  const HourlyWindow: nat := 24
  const HourLabelLength: nat := 5
  const TopCountryCount: nat := 5
  const TopCityCount: nat := 8
  const TopVisitorCount: nat := 10

  /** Offset from an ASCII capital to its regional indicator symbol. */
  const RegionalIndicatorOffset: int := 127397

  function CountOf(e: Entry): int {
    e.count
  }

  /** Sum of the counts of a listing. */
  function TotalCount(s: seq<Entry>): int {
    if |s| == 0 then 0 else s[0].count + TotalCount(s[1..])
  }

  // -----------------------------------------------------------------------
  // Count-sorted listings

  /** `Object.entries(...).sort((a, b) => b.value - a.value)`: a permutation
      of the entries, largest count first. */
  function ByCount(entries: seq<Entry>): (r: seq<Entry>)
    ensures multiset(r) == multiset(entries)
    ensures forall i, j :: 0 <= i < j < |r| ==> r[i].count >= r[j].count
  {
    Sorting.SortDesc(entries, CountOf)
  }

  /** A missing record gives an empty listing. */
  function CountriesData(record: Option<seq<Entry>>): (r: seq<Entry>)
    ensures record.None? ==> r == []
    ensures record.Some? ==> multiset(r) == multiset(record.value)
    ensures forall i, j :: 0 <= i < j < |r| ==> r[i].count >= r[j].count
  {
    match record
    case None => []
    case Some(entries) => ByCount(entries)
  }

  /** The cities listing is built exactly like the countries listing. */
  function CitiesData(record: Option<seq<Entry>>): (r: seq<Entry>)
    ensures record.None? ==> r == []
    ensures record.Some? ==> multiset(r) == multiset(record.value)
    ensures forall i, j :: 0 <= i < j < |r| ==> r[i].count >= r[j].count
  {
    CountriesData(record)
  }

  /** The root page is shown as "Home"; every other path as itself. */
  function PageName(page: string): (r: string)
    ensures page == "/" ==> r == "Home"
    ensures page != "/" ==> r == page
  {
    if page == "/" then "Home" else page
  }

  function RenamePage(e: Entry): Entry {
    Entry(PageName(e.name), e.count)
  }

  /** `pagesData`: the page entries, renamed, largest count first. */
  function PagesData(record: Option<seq<Entry>>): (r: seq<Entry>)
    ensures record.None? ==> r == []
    ensures record.Some? ==>
      multiset(r) == multiset(seq(|record.value|, k requires 0 <= k < |record.value| => RenamePage(record.value[k])))
    ensures forall i, j :: 0 <= i < j < |r| ==> r[i].count >= r[j].count
  {
    match record
    case None => []
    case Some(entries) =>
      ByCount(seq(|entries|, k requires 0 <= k < |entries| => RenamePage(entries[k])))
  }

  /** Display name of a referrer: "direct" becomes "Direct"; anything else
      is parsed as a URL and shown by its host name, or as itself when the
      host name is empty. A string that is not a URL makes `new URL` throw,
      which is `None` here. */
  function ReferrerName(referrer: string, hostname: string -> Option<string>): (r: Option<string>)
    ensures referrer == "direct" ==> r == Some("Direct")
    ensures referrer != "direct" ==> (r.None? <==> hostname(referrer).None?)
    ensures referrer != "direct" && r.Some? ==>
      r.value == (if hostname(referrer).value == [] then referrer else hostname(referrer).value)
  {
    if referrer == "direct" then Some("Direct")
    else match hostname(referrer)
      case None => None
      case Some(h) => Some(if h == [] then referrer else h)
  }

  /** Renames every referrer, failing as a whole if one of them fails. */
  function RenameReferrers(entries: seq<Entry>, hostname: string -> Option<string>): (r: Option<seq<Entry>>)
    ensures r.Some? <==> forall k :: 0 <= k < |entries| ==> ReferrerName(entries[k].name, hostname).Some?
    ensures r.Some? ==>
      && |r.value| == |entries|
      && forall k :: 0 <= k < |entries| ==>
        r.value[k] == Entry(ReferrerName(entries[k].name, hostname).value, entries[k].count)
  {
    if |entries| == 0 then Some([])
    else match ReferrerName(entries[0].name, hostname)
      case None => None
      case Some(n) =>
        match RenameReferrers(entries[1..], hostname)
        case None =>
          assert forall k :: 0 <= k < |entries[1..]| ==> entries[1..][k] == entries[k + 1];
          None
        case Some(rest) =>
          assert forall k :: 1 <= k < |entries| ==> entries[k] == entries[1..][k - 1];
          Some([Entry(n, entries[0].count)] + rest)
  }

  /** `referrersData`: `None` when some referrer is not a URL (the render
      throws); otherwise the renamed entries, largest count first. */
  function ReferrersData(record: Option<seq<Entry>>, hostname: string -> Option<string>): (r: Option<seq<Entry>>)
    ensures record.None? ==> r == Some([])
    ensures record.Some? ==> (r.None? <==> RenameReferrers(record.value, hostname).None?)
    ensures record.Some? && r.Some? ==>
      multiset(r.value) == multiset(RenameReferrers(record.value, hostname).value)
    ensures r.Some? ==> forall i, j :: 0 <= i < j < |r.value| ==> r.value[i].count >= r.value[j].count
  {
    match record
    case None => Some([])
    case Some(entries) =>
      match RenameReferrers(entries, hostname)
      case None => None
      case Some(renamed) => Some(ByCount(renamed))
  }

  // -----------------------------------------------------------------------
  // Hourly buckets and top-k slices

  /** `s.slice(-n)`: the last `n` elements, or all of them when fewer. */
  function LastN<T>(s: seq<T>, n: nat): (r: seq<T>)
    ensures |r| == if |s| <= n then |s| else n
    ensures r == s[|s| - |r|..]
  {
    if |s| <= n then s else s[|s| - n..]
  }

  /** `s.slice(0, n)`: the first `n` elements, or all of them when fewer. */
  function TopN<T>(s: seq<T>, n: nat): (r: seq<T>)
    ensures |r| == if |s| <= n then |s| else n
    ensures r == s[..|r|]
  {
    if |s| <= n then s else s[..n]
  }

  /** `b` is the bucket `e` renamed by the last five characters of its
      key (the hh:mm part), with the same count. */
  predicate IsHourBucket(b: Entry, e: Entry) {
    && b.count == e.count
    && EndsWith(e.name, b.name)
    && |b.name| == (if |e.name| <= HourLabelLength then |e.name| else HourLabelLength)
  }

  /** `hourlyData`: the buckets renamed, and only the last 24 kept. */
  function HourlyData(record: Option<seq<Entry>>): (r: seq<Entry>)
    ensures record.None? ==> r == []
    ensures |r| <= HourlyWindow
    ensures record.Some? ==>
      && |r| == (if |record.value| <= HourlyWindow then |record.value| else HourlyWindow)
      && forall k :: 0 <= k < |r| ==> IsHourBucket(r[k], record.value[|record.value| - |r| + k])
  {
    match record
    case None => []
    case Some(es) =>
      var named := HourLabels(es);
      LastBuckets(es, named, HourlyWindow);
      LastN(named, HourlyWindow)
  }

  /** The last `n` buckets are the buckets of the last `n` entries. */
  lemma LastBuckets(es: seq<Entry>, named: seq<Entry>, n: nat)
    requires |named| == |es|
    requires forall k :: 0 <= k < |es| ==> IsHourBucket(named[k], es[k])
    ensures var r := LastN(named, n);
      forall k :: 0 <= k < |r| ==> IsHourBucket(r[k], es[|es| - |r| + k])
  {
    var r := LastN(named, n);
    forall k | 0 <= k < |r| ensures IsHourBucket(r[k], es[|es| - |r| + k]) {
      assert r[k] == named[|es| - |r| + k];
    }
  }

  /** Each bucket renamed by the last five characters of its key. */
  function HourLabels(es: seq<Entry>): (r: seq<Entry>)
    ensures |r| == |es|
    ensures forall k :: 0 <= k < |es| ==> IsHourBucket(r[k], es[k])
  {
    seq(|es|, k requires 0 <= k < |es| => Entry(LastN(es[k].name, HourLabelLength), es[k].count))
  }

  /** The top countries and top cities are the largest of their
      listings: at most 5 and 8 rows, each counting at least as much as
      any row left out, and all taken from the record. */
  lemma TopSlicesAreLargest(countries: Option<seq<Entry>>, cities: Option<seq<Entry>>)
    ensures var s := CountriesData(countries); var t := TopN(s, TopCountryCount);
      && |t| <= 5
      && (forall i, j :: 0 <= i < |t| <= j < |s| ==> t[i].count >= s[j].count)
      && multiset(t) <= multiset(s)
    ensures var s := CitiesData(cities); var t := TopN(s, TopCityCount);
      && |t| <= 8
      && (forall i, j :: 0 <= i < |t| <= j < |s| ==> t[i].count >= s[j].count)
      && multiset(t) <= multiset(s)
  {
    TopIsLargest(CountriesData(countries), TopCountryCount);
    TopIsLargest(CitiesData(cities), TopCityCount);
  }

  lemma TopIsLargest(s: seq<Entry>, n: nat)
    requires forall i, j :: 0 <= i < j < |s| ==> s[i].count >= s[j].count
    ensures var t := TopN(s, n);
      && (forall i, j :: 0 <= i < |t| <= j < |s| ==> t[i].count >= s[j].count)
      && multiset(t) <= multiset(s)
  {
    var t := TopN(s, n);
    assert s == t + s[|t|..];
    forall i, j | 0 <= i < |t| <= j < |s| ensures t[i].count >= s[j].count {
      assert t[i] == s[i];
    }
  }

  /** `visitors?.visitors.slice(0, 10) || []`: the first ten visitors of
      the response in the order the server sent them, nothing without a
      response. */
  function TopVisitors(visitors: Option<VisitorsResponse>): (r: seq<Visitor>)
    ensures |r| <= TopVisitorCount
    ensures visitors.None? ==> r == []
    ensures visitors.Some? ==>
      && |r| <= |visitors.value.visitors| && r == visitors.value.visitors[..|r|]
      && (|r| == TopVisitorCount || r == visitors.value.visitors)
  {
    match visitors
    case None => []
    case Some(v) => TopN(v.visitors, TopVisitorCount)
  }

  // -----------------------------------------------------------------------
  // Country distribution

  /** Inserting into a sorted listing adds the entry's count to the total. */
  lemma {:induction false} TotalCountInsert(x: Entry, s: seq<Entry>)
    requires Sorting.SortedDesc(s, CountOf)
    ensures TotalCount(Sorting.Insert(x, s, CountOf)) == x.count + TotalCount(s)
  {
    if |s| == 0 || CountOf(x) >= CountOf(s[0]) {
      assert ([x] + s)[1..] == s;
    } else {
      var tail := Sorting.Insert(x, s[1..], CountOf);
      TotalCountInsert(x, s[1..]);
      assert ([s[0]] + tail)[1..] == tail;
    }
  }

  /** Sorting by count keeps the total count. */
  lemma {:induction false} TotalCountByCount(s: seq<Entry>)
    ensures TotalCount(ByCount(s)) == TotalCount(s)
  {
    if |s| > 0 {
      TotalCountByCount(s[1..]);
      TotalCountInsert(s[0], Sorting.SortDesc(s[1..], CountOf));
    }
  }

  /** `countryDistribution`: the sum of the counts of the country listing,
      which is the sum over the raw record. */
  function CountryDistribution(record: Option<seq<Entry>>): (r: int)
    ensures record.None? ==> r == 0
    ensures record.Some? ==> r == TotalCount(record.value)
  {
    match record
    case None => TotalCount(CountriesData(record))
    case Some(es) =>
      TotalCountByCount(es);
      TotalCount(CountriesData(record))
  }

  // -----------------------------------------------------------------------
  // Ratios

  function Max1(x: int): (r: int)
    ensures r >= 1
    ensures r >= x
    ensures x >= 1 ==> r == x
  {
    if x >= 1 then x else 1
  }

  /** Number of visitors whose page-view count satisfies the test. */
  function CountWhere(vs: seq<Visitor>, test: int -> bool): (r: nat)
    ensures r <= |vs|
  {
    if |vs| == 0 then 0
    else (if test(vs[0].pageViews) then 1 else 0) + CountWhere(vs[1..], test)
  }

  predicate IsBounce(views: int) {
    views == 1
  }

  predicate IsReturn(views: int) {
    views > 1
  }

  predicate HasViews(views: int) {
    views >= 1
  }

  /** Bounces and returns split the visitors with at least one view. */
  lemma {:induction false} BounceReturnPartition(vs: seq<Visitor>)
    ensures CountWhere(vs, IsBounce) + CountWhere(vs, IsReturn) == CountWhere(vs, HasViews)
  {
    if |vs| > 0 {
      BounceReturnPartition(vs[1..]);
    }
  }

  /** Average views per visitor; the visitor count is floored at 1. */
  function AvgViewsPerVisitor(stats: Option<Stats>): (r: Option<real>)
    ensures r.None? <==> stats.None?
    ensures stats.Some? ==>
      r.value * (Max1(stats.value.uniqueVisitors) as real) == stats.value.totalPageViews as real
  {
    match stats
    case None => None
    case Some(s) => Some(s.totalPageViews as real / Max1(s.uniqueVisitors) as real)
  }

  /** `count / Math.max(ips, 1) * 100`: a percentage whose denominator is
      floored at 1. */
  function Percent(count: nat, ips: int): (r: real)
    ensures r * (Max1(ips) as real) == (count as real) * 100.0
  {
    count as real / Max1(ips) as real * 100.0
  }

  /** Percentage of unique IPs whose visitor passes `test`; it needs both
      responses. */
  function VisitorRate(stats: Option<Stats>, visitors: Option<VisitorsResponse>, test: int -> bool): (r: Option<real>)
    ensures r.None? <==> stats.None? || visitors.None?
    ensures r.Some? ==>
      r.value * (Max1(stats.value.uniqueIps) as real) == (CountWhere(visitors.value.visitors, test) as real) * 100.0
  {
    if stats.Some? && visitors.Some? then
      Some(Percent(CountWhere(visitors.value.visitors, test), stats.value.uniqueIps))
    else None
  }

  function BounceRate(stats: Option<Stats>, visitors: Option<VisitorsResponse>): Option<real> {
    VisitorRate(stats, visitors, IsBounce)
  }

  function ReturnVisitorsRate(stats: Option<Stats>, visitors: Option<VisitorsResponse>): Option<real> {
    VisitorRate(stats, visitors, IsReturn)
  }

  /** Percentages over the same denominator add up. */
  lemma PercentAdds(a: nat, b: nat, ips: int)
    ensures Percent(a, ips) + Percent(b, ips) == Percent(a + b, ips)
  {
    var d := Max1(ips) as real;
    var pa := Percent(a, ips);
    var pb := Percent(b, ips);
    var pab := Percent(a + b, ips);
    assert (pa + pb) * d == pa * d + pb * d;
    CancelPositive(pa + pb, pab, d);
  }

  /** Bounce rate and return rate add up to the share of IPs whose visitor
      viewed at least one page. */
  lemma RatesAddUp(stats: Option<Stats>, visitors: Option<VisitorsResponse>)
    requires stats.Some? && visitors.Some?
    ensures BounceRate(stats, visitors).value + ReturnVisitorsRate(stats, visitors).value
      == VisitorRate(stats, visitors, HasViews).value
  {
    var vs := visitors.value.visitors;
    BounceReturnPartition(vs);
    PercentAdds(CountWhere(vs, IsBounce), CountWhere(vs, IsReturn), stats.value.uniqueIps);
  }

  lemma CancelPositive(x: real, y: real, d: real)
    requires d > 0.0 && x * d == y * d
    ensures x == y
  {
    assert (x - y) * d == 0.0;
  }

  function SumSessionMillis(vs: seq<Visitor>): int {
    if |vs| == 0 then 0 else (vs[0].lastVisit - vs[0].firstVisit) + SumSessionMillis(vs[1..])
  }

  function SumPageViews(vs: seq<Visitor>): int {
    if |vs| == 0 then 0 else vs[0].pageViews + SumPageViews(vs[1..])
  }

  /** Average session length in minutes over the unique IPs (floored at 1). */
  function AvgSessionMinutes(visitors: Option<VisitorsResponse>): (r: Option<real>)
    ensures r.None? <==> visitors.None?
    ensures r.Some? ==>
      r.value * (Max1(visitors.value.totalUniqueIps) as real) * 60000.0
        == SumSessionMillis(visitors.value.visitors) as real
  {
    match visitors
    case None => None
    case Some(v) => Some(SumSessionMillis(v.visitors) as real / Max1(v.totalUniqueIps) as real / 60000.0)
  }

  /** Pages per session: shown as '0' when there is no response or no IP at
      all, so it never divides by zero. */
  function AvgPagesPerSession(visitors: Option<VisitorsResponse>): (r: Option<real>)
    ensures r.Some? <==> visitors.Some? && visitors.value.totalUniqueIps > 0
    ensures r.Some? ==>
      r.value * (visitors.value.totalUniqueIps as real) == SumPageViews(visitors.value.visitors) as real
  {
    if visitors.Some? && visitors.value.totalUniqueIps > 0 then
      Some(SumPageViews(visitors.value.visitors) as real / visitors.value.totalUniqueIps as real)
    else None
  }

  // -----------------------------------------------------------------------
  // Country flags

  /** Code point of the regional indicator for one UTF-16 unit of the
      upper-cased country code. */
  function FlagCodePoint(c: char): int {
    UpperChar(c) as int + RegionalIndicatorOffset
  }

  /** The flag shown next to a visitor: nothing for an empty country code,
      otherwise one regional indicator per letter. */
  function Flag(countryCode: string): (r: Option<seq<int>>)
    ensures r.None? <==> countryCode == []
    ensures r.Some? ==>
      && |r.value| == |countryCode|
      && forall k :: 0 <= k < |countryCode| ==> r.value[k] == FlagCodePoint(countryCode[k])
  {
    if countryCode == [] then None
    else
      var upper := ToUpper(countryCode);
      Some(seq(|upper|, k requires 0 <= k < |upper| => upper[k] as int + RegionalIndicatorOffset))
  }

  /** Capital letters land on the 26 regional indicator symbols
      U+1F1E6..U+1F1FF in alphabetical order, and a lower-case letter gets
      the same symbol as its capital. */
  lemma FlagLetters(c: char)
    requires 'A' <= c <= 'Z' || 'a' <= c <= 'z'
    ensures 0x1F1E6 <= FlagCodePoint(c) <= 0x1F1FF
    ensures 'A' <= c <= 'Z' ==> FlagCodePoint(c) == 0x1F1E6 + (c as int - 'A' as int)
    ensures 'a' <= c <= 'z' ==> FlagCodePoint(c) == FlagCodePoint((c as int - 32) as char)
  {
  }

  // -----------------------------------------------------------------------
  // Fetching

  datatype Dashboard = Dashboard(
    loading: bool,
    stats: Option<Stats>,
    visitors: Option<VisitorsResponse>,
    error: Option<string>)

  /** `fetchData` once both requests have settled: success stores both
      responses and clears the error; any failure stores its message and
      clears both responses. Loading ends either way. */
  function FetchSettled(d: Dashboard, outcome: Result<(Stats, VisitorsResponse), string>): (r: Dashboard)
    ensures !r.loading
    ensures outcome.Success? ==>
      r.stats == Some(outcome.value.0) && r.visitors == Some(outcome.value.1) && r.error.None?
    ensures outcome.Failure? ==>
      r.stats.None? && r.visitors.None? && r.error == Some(outcome.error)
  {
    match outcome
    case Success((s, v)) => Dashboard(false, Some(s), Some(v), None)
    case Failure(msg) => Dashboard(false, None, None, Some(msg))
  }
}

=== FILE: blog.dfy ===
/** The blog index (app/blog/page.tsx): the Markdown files of the posts
    directory become posts, each with a slug, the URL segment under which
    the post page (app/blog/[slug]/page.tsx) reads `<slug>.md` back.
    Listing the directory and reading the files are not modelled: the
    listing is a parameter and the front matter of each file is a function
    of its name.

    As written, the slug is `filename.replace('.md', '')`, which removes
    the FIRST occurrence of ".md", wherever it is. For a name such as
    "x.mdx.md" this gives "xx.md", and the post page then looks for
    "xx.md.md". `SlugAsWritten` models the code; `Slug` removes the
    trailing extension, the evident intent, and the index uses it. */
module Blog {
  import opened Wrappers
  import opened Text
  import opened Sequences

  const Extension: string := ".md"
  const DefaultImage: string := "/default-image.png"

  predicate IsMarkdown(filename: string) {
    EndsWith(filename, Extension)
  }

  /** The file the post page reads for a slug. */
  function PostFile(slug: string): string {
    slug + Extension
  }

  /** The first position at or after `from` where `p` occurs in `s`. */
  function IndexFrom(s: string, p: string, from: nat): (r: Option<nat>)
    ensures r.Some? ==> from <= r.value && OccursAt(s, p, r.value)
    ensures r.Some? ==> forall j :: from <= j < r.value ==> !OccursAt(s, p, j)
    ensures r.None? ==> forall j :: from <= j ==> !OccursAt(s, p, j)
    decreases |s| - from
  {
    if from + |p| > |s| then None
    else if s[from..from + |p|] == p then Some(from)
    else IndexFrom(s, p, from + 1)
  }

  /** `String.prototype.replace` with a string pattern and an empty
      replacement: the first occurrence is cut out, if there is one. */
  function RemoveFirst(s: string, p: string): (r: string)
    ensures (forall j :: !OccursAt(s, p, j)) ==> r == s
    ensures (exists j :: OccursAt(s, p, j)) ==> |r| == |s| - |p|
    ensures forall i :: OccursAt(s, p, i) && (forall j :: 0 <= j < i ==> !OccursAt(s, p, j)) ==>
      r == s[..i] + s[i + |p|..]
  {
    match IndexFrom(s, p, 0)
    case None => s
    case Some(i) => s[..i] + s[i + |p|..]
  }

  /** The slug as written: the first ".md" of the name is cut out, so a
      Markdown name always loses three characters, but not necessarily its
      trailing ones; a name without ".md" is its own slug. */
  function SlugAsWritten(filename: string): (slug: string)
    ensures IsMarkdown(filename) ==> |slug| == |filename| - |Extension|
    ensures forall i :: OccursAt(filename, Extension, i) && (forall j :: 0 <= j < i ==> !OccursAt(filename, Extension, j)) ==>
      slug == filename[..i] + filename[i + |Extension|..]
    ensures (forall j :: !OccursAt(filename, Extension, j)) ==> slug == filename
  {
    if IsMarkdown(filename) then
      assert OccursAt(filename, Extension, |filename| - |Extension|);
      RemoveFirst(filename, Extension)
    else RemoveFirst(filename, Extension)
  }

  /** The slug as intended: the name without its trailing extension. */
  function Slug(filename: string): (slug: string)
    requires IsMarkdown(filename)
    ensures PostFile(slug) == filename
    ensures |slug| == |filename| - |Extension|
  {
    filename[..|filename| - |Extension|]
  }

  /** Different files get different slugs, so no two posts share a URL. */
  lemma SlugInjective(a: string, b: string)
    requires IsMarkdown(a) && IsMarkdown(b) && a != b
    ensures Slug(a) != Slug(b)
  {
    assert PostFile(Slug(a)) == a && PostFile(Slug(b)) == b;
  }

  /** When the extension occurs only at the end of the name, the code as
      written gives the intended slug. */
  lemma SlugAgreesWhenExtensionOnlyAtEnd(filename: string)
    requires IsMarkdown(filename)
    requires forall j :: 0 <= j < |filename| - |Extension| ==> !OccursAt(filename, Extension, j)
    ensures SlugAsWritten(filename) == Slug(filename)
  {
    var i := |filename| - |Extension|;
    assert OccursAt(filename, Extension, i);
    assert filename[i + |Extension|..] == [];
  }

  /** The input that shows the discrepancy: "x.mdx.md" gets the slug
      "xx.md", whose post page reads "xx.md.md". */
  lemma SlugAsWrittenCounterexamples()
    ensures SlugAsWritten("x.mdx.md") == "xx.md"
    ensures PostFile(SlugAsWritten("x.mdx.md")) != "x.mdx.md"
    ensures Slug("x.mdx.md") == "x.mdx"
  {
    var s := "x.mdx.md";
    assert OccursAt(s, Extension, 1);
    forall j | 0 <= j < 1 ensures !OccursAt(s, Extension, j) {
      assert s[0..3][0] == 'x' != Extension[0];
    }
    assert s[..1] + s[4..] == "xx.md";
    assert PostFile("xx.md") == "xx.md.md";
  }

  /** Two different files, "a.mdb.md" and "ab.md.md", both get the slug
      "ab.md" as written, so one post page shadows the other. */
  lemma SlugAsWrittenCollision()
    ensures SlugAsWritten("a.mdb.md") == SlugAsWritten("ab.md.md") == "ab.md"
  {
    var a := "a.mdb.md";
    assert OccursAt(a, Extension, 1);
    forall j | 0 <= j < 1 ensures !OccursAt(a, Extension, j) {
      assert a[0..3][0] == 'a' != Extension[0];
    }
    assert a[..1] + a[4..] == "ab.md";
    var b := "ab.md.md";
    assert OccursAt(b, Extension, 2);
    forall j | 0 <= j < 2 ensures !OccursAt(b, Extension, j) {
      assert b[j..j + 3][0] == b[j] != Extension[0];
    }
    assert b[..2] + b[5..] == "ab.md";
  }

  // -----------------------------------------------------------------------
  // The index

  /** The front matter fields the index reads; `image` is absent when the
      front matter has none. */
  datatype FrontMatter = FrontMatter(title: string, description: string, image: Option<string>, date: string)

  datatype Post = Post(title: string, description: string, slug: string, image: string, date: string)

  /** `data.image || '/default-image.png'`: a missing or empty image falls
      back to the default. */
  function ImageOf(fm: FrontMatter): (img: string)
    ensures fm.image.None? || fm.image == Some([]) ==> img == DefaultImage
    ensures fm.image.Some? && fm.image.value != [] ==> img == fm.image.value
    ensures img != []
  {
    match fm.image
    case Some(i) => if i != [] then i else DefaultImage
    case None => DefaultImage
  }

  /** The Markdown files of the listing, in listing order. */
  function MarkdownFiles(filenames: seq<string>): (r: seq<string>)
    ensures forall k :: 0 <= k < |r| ==> IsMarkdown(r[k]) && r[k] in filenames
    ensures forall k :: 0 <= k < |filenames| && IsMarkdown(filenames[k]) ==> filenames[k] in r
    ensures IsSubsequence(r, filenames)
  {
    FilterIsSubsequence(filenames, IsMarkdown);
    Filter(filenames, IsMarkdown)
  }

  /** The posts of the index with the intended slug: one per Markdown
      file, in order, each with its front matter, a slug that leads back to
      its file, and an image. */
  function BlogPosts(filenames: seq<string>, frontMatter: string -> FrontMatter): (posts: seq<Post>)
    ensures |posts| == |MarkdownFiles(filenames)|
    ensures forall k :: 0 <= k < |posts| ==>
      var f := MarkdownFiles(filenames)[k];
      && PostFile(posts[k].slug) == f
      && posts[k].title == frontMatter(f).title
      && posts[k].description == frontMatter(f).description
      && posts[k].date == frontMatter(f).date
      && posts[k].image == ImageOf(frontMatter(f))
  {
    var files := MarkdownFiles(filenames);
    seq(|files|, k requires 0 <= k < |files| =>
      var fm := frontMatter(files[k]);
      Post(fm.title, fm.description, Slug(files[k]), ImageOf(fm), fm.date))
  }

  /** The index as written: the same posts, but each slug is the file
      name with its first ".md" cut out. */
  function BlogPostsAsWritten(filenames: seq<string>, frontMatter: string -> FrontMatter): (posts: seq<Post>)
    ensures |posts| == |MarkdownFiles(filenames)|
    ensures forall k :: 0 <= k < |posts| ==>
      var f := MarkdownFiles(filenames)[k];
      && posts[k].slug == SlugAsWritten(f)
      && |posts[k].slug| == |f| - |Extension|
      && posts[k].title == frontMatter(f).title
      && posts[k].description == frontMatter(f).description
      && posts[k].date == frontMatter(f).date
      && posts[k].image == ImageOf(frontMatter(f))
  {
    var files := MarkdownFiles(filenames);
    seq(|files|, k requires 0 <= k < |files| =>
      var fm := frontMatter(files[k]);
      Post(fm.title, fm.description, SlugAsWritten(files[k]), ImageOf(fm), fm.date))
  }

  /** When no Markdown file of the listing has ".md" before its end, the
      index as written is the intended one, so its posts lead back to their
      files. */
  lemma AsWrittenIndexAgrees(filenames: seq<string>, frontMatter: string -> FrontMatter)
    requires forall f :: f in filenames && IsMarkdown(f) ==>
      forall j :: 0 <= j < |f| - |Extension| ==> !OccursAt(f, Extension, j)
    ensures BlogPostsAsWritten(filenames, frontMatter) == BlogPosts(filenames, frontMatter)
  {
    var files := MarkdownFiles(filenames);
    var a := BlogPostsAsWritten(filenames, frontMatter);
    var b := BlogPosts(filenames, frontMatter);
    forall k | 0 <= k < |a| ensures a[k] == b[k] {
      SlugAgreesWhenExtensionOnlyAtEnd(files[k]);
    }
  }

  /** The listing ["x.mdx.md"] shows the index as written linking a post
      page that reads a file the listing does not have. */
  lemma AsWrittenIndexCounterexample(frontMatter: string -> FrontMatter)
    ensures |BlogPostsAsWritten(["x.mdx.md"], frontMatter)| == 1
    ensures PostFile(BlogPostsAsWritten(["x.mdx.md"], frontMatter)[0].slug) !in ["x.mdx.md"]
  {
    var listing := ["x.mdx.md"];
    assert IsMarkdown(listing[0]);
    assert MarkdownFiles(listing) == listing;
    SlugAsWrittenCounterexamples();
  }

  /** Every post page of the index opens a file of the listing, and every
      Markdown file of the listing has a post. */
  lemma PostsCoverMarkdownFiles(filenames: seq<string>, frontMatter: string -> FrontMatter, f: string)
    requires f in filenames && IsMarkdown(f)
    ensures exists k :: 0 <= k < |BlogPosts(filenames, frontMatter)| && PostFile(BlogPosts(filenames, frontMatter)[k].slug) == f
    ensures forall k :: 0 <= k < |BlogPosts(filenames, frontMatter)| ==> PostFile(BlogPosts(filenames, frontMatter)[k].slug) in filenames
  {
    var files := MarkdownFiles(filenames);
    var posts := BlogPosts(filenames, frontMatter);
    var i :| 0 <= i < |filenames| && filenames[i] == f;
    assert f in files;
    var k :| 0 <= k < |files| && files[k] == f;
    assert PostFile(posts[k].slug) == f;
  }
}

=== FILE: carousel.dfy ===
/** The image carousel (components/carousel.tsx): an index into the list
    of images that starts at 0 and wraps around in both directions. `n` is
    the number of images. With no images at all, next divides by zero
    (JavaScript gives `NaN`), modelled as `None`. */
module Carousel {
  import opened Wrappers

  /** The ▶ button: `(prev + 1) % images.length`. The index never becomes
      negative, so JavaScript's `%` agrees with Dafny's here. */
  function Next(i: nat, n: nat): (r: Option<nat>)
    ensures r.None? <==> n == 0
    ensures i < n ==> r.Some? && r.value < n
    ensures i + 1 < n ==> r == Some(i + 1)
    ensures n > 0 && i == n - 1 ==> r == Some(0)
  {
    if n == 0 then None else Some((i + 1) % n)
  }

  /** The ◀ button: the first image goes to the last, any other index
      back by one. With no images this gives -1. */
  function Prev(i: nat, n: nat): (r: int)
    ensures i == 0 ==> r == n - 1
    ensures i > 0 ==> r == i - 1
    ensures 0 < n && i < n ==> 0 <= r < n
  {
    if i == 0 then n - 1 else i - 1
  }

  /** Previous after next, and next after previous, return to the start. */
  lemma PrevNextInverse(i: nat, n: nat)
    requires i < n
    ensures Prev(Next(i, n).value, n) == i
    ensures Next(Prev(i, n) as nat, n) == Some(i)
  {
  }

  datatype Move = Back | Forward

  /** The index after a sequence of clicks, or `None` once an index leaves
      the range. */
  function Clicks(i: nat, n: nat, moves: seq<Move>): (r: Option<nat>)
    decreases |moves|
  {
    if |moves| == 0 then Some(i)
    else
      match moves[0]
      case Forward =>
        (match Next(i, n)
         case Some(j) => Clicks(j, n, moves[1..])
         case None => None)
      case Back =>
        var j := Prev(i, n);
        if 0 <= j then Clicks(j as nat, n, moves[1..]) else None
  }

  /** From the first image of a non-empty carousel, every sequence of
      clicks keeps the index on an image. */
  lemma {:induction false} ClicksStayInRange(i: nat, n: nat, moves: seq<Move>)
    requires i < n
    ensures Clicks(i, n, moves).Some? && Clicks(i, n, moves).value < n
    decreases |moves|
  {
    if |moves| > 0 {
      match moves[0]
      case Forward => ClicksStayInRange(Next(i, n).value, n, moves[1..]);
      case Back => ClicksStayInRange(Prev(i, n) as nat, n, moves[1..]);
    }
  }
}

=== FILE: catalogue.dfy ===
/** The project catalogue (app/projects/content.tsx): the list of apps, the
    sorted set of all their tags, and the search-and-tag filter behind the
    grid and its result count. An app without a `tags` array behaves
    exactly like one with an empty array in every expression that reads
    it, so tags are modelled as a (possibly empty) sequence. */
module Catalogue {
  import opened Wrappers
  import opened Text
  import opened Sequences

  datatype App = App(title: string, description: string, tags: seq<string>)

  // -----------------------------------------------------------------------
  // Lexicographic order of strings (the default comparison of `sort()`)

  /** `a` sorts strictly before `b`: a proper prefix comes first, otherwise
      the first differing character decides. */
  predicate Less(a: string, b: string) {
    if |a| == 0 then |b| > 0
    else if |b| == 0 then false
    else if a[0] != b[0] then a[0] < b[0]
    else Less(a[1..], b[1..])
  }

  lemma {:induction false} LessIrreflexive(a: string)
    ensures !Less(a, a)
  {
    if |a| > 0 {
      LessIrreflexive(a[1..]);
    }
  }

  lemma {:induction false} LessTransitive(a: string, b: string, c: string)
    requires Less(a, b) && Less(b, c)
    ensures Less(a, c)
  {
    if |a| > 0 && a[0] == b[0] && b[0] == c[0] {
      LessTransitive(a[1..], b[1..], c[1..]);
    }
  }

  lemma {:induction false} LessTotal(a: string, b: string)
    requires a != b
    ensures Less(a, b) || Less(b, a)
  {
    if |a| > 0 && |b| > 0 && a[0] == b[0] {
      assert a == [a[0]] + a[1..] && b == [b[0]] + b[1..];
      LessTotal(a[1..], b[1..]);
    }
  }

  /** Strictly ascending: sorted and free of duplicates. */
  predicate StrictlySorted(s: seq<string>) {
    forall i, j :: 0 <= i < j < |s| ==> Less(s[i], s[j])
  }

  /** Adds `x` to a strictly sorted list, keeping it strictly sorted; an
      element already present is not added twice. */
  function InsertTag(x: string, s: seq<string>): (r: seq<string>)
    requires StrictlySorted(s)
    ensures StrictlySorted(r)
    ensures forall y :: y in r <==> y == x || y in s
  {
    if |s| == 0 then [x]
    else if x == s[0] then s
    else if Less(x, s[0]) then
      assert forall j :: 0 <= j < |s| ==> Less(x, s[j]) by {
        forall j | 0 <= j < |s| ensures Less(x, s[j]) {
          if j > 0 {
            LessTransitive(x, s[0], s[j]);
          }
        }
      }
      [x] + s
    else
      LessTotal(x, s[0]);
      var tail := InsertTag(x, s[1..]);
      assert s == [s[0]] + s[1..];
      assert forall k :: 0 <= k < |tail| ==> Less(s[0], tail[k]) by {
        forall k | 0 <= k < |tail| ensures Less(s[0], tail[k]) {
          assert tail[k] in tail;
          if tail[k] != x {
            var j :| 0 <= j < |s[1..]| && s[1..][j] == tail[k];
            assert s[j + 1] == tail[k];
          }
        }
      }
      [s[0]] + tail
  }

  /** Every tag of every app, in the order `flatMap` lists them. */
  function AllTagOccurrences(apps: seq<App>): (r: seq<string>)
    ensures forall t :: t in r <==> exists i :: 0 <= i < |apps| && t in apps[i].tags
  {
    if |apps| == 0 then []
    else
      var rest := AllTagOccurrences(apps[1..]);
      assert forall t :: (exists i :: 1 <= i < |apps| && t in apps[i].tags) ==> t in rest by {
        forall t | exists i :: 1 <= i < |apps| && t in apps[i].tags
          ensures t in rest
        {
          var i :| 1 <= i < |apps| && t in apps[i].tags;
          assert apps[1..][i - 1] == apps[i];
        }
      }
      apps[0].tags + rest
  }

  /** `Array.from(new Set(...)).sort()` over a list of strings. */
  function SortedSet(s: seq<string>): (r: seq<string>)
    ensures StrictlySorted(r)
    ensures forall y :: y in r <==> y in s
  {
    if |s| == 0 then []
    else
      assert s == [s[0]] + s[1..];
      InsertTag(s[0], SortedSet(s[1..]))
  }

  /** `ALL_TAGS`: every tag used by some app, once each, in ascending
      order, and nothing else. */
  function AllTags(apps: seq<App>): (r: seq<string>)
    ensures StrictlySorted(r)
    ensures forall t :: t in r <==> exists i :: 0 <= i < |apps| && t in apps[i].tags
  {
    SortedSet(AllTagOccurrences(apps))
  }

  lemma {:induction false} LessAsymmetric(a: string, b: string)
    requires Less(a, b)
    ensures !Less(b, a)
  {
    if |a| > 0 && |b| > 0 && a[0] == b[0] {
      LessAsymmetric(a[1..], b[1..]);
    }
  }

  /** The first element of a strictly sorted list sorts before every other. */
  lemma HeadIsLeast(s: seq<string>, y: string)
    requires StrictlySorted(s) && y in s
    ensures y == s[0] || Less(s[0], y)
  {
    var j :| 0 <= j < |s| && s[j] == y;
  }

  /** A strictly sorted list is determined by its elements, so `AllTags`
      is the one ascending, duplicate-free listing of the tags. */
  lemma {:induction false} StrictlySortedUnique(a: seq<string>, b: seq<string>)
    requires StrictlySorted(a) && StrictlySorted(b)
    requires forall y :: y in a <==> y in b
    ensures a == b
  {
    if |a| > 0 {
      assert a[0] in b;
    }
    if |b| > 0 {
      assert b[0] in a;
    }
    if |a| > 0 && |b| > 0 {
      HeadIsLeast(b, a[0]);
      HeadIsLeast(a, b[0]);
      if Less(b[0], a[0]) {
        LessAsymmetric(b[0], a[0]);
      }
      assert a[0] == b[0];
      forall y ensures y in a[1..] <==> y in b[1..] {
        LessIrreflexive(y);
        if y in a[1..] {
          var j :| 0 <= j < |a[1..]| && a[1..][j] == y;
          assert Less(a[0], a[j + 1]);
          assert y in b;
          assert b == [b[0]] + b[1..];
        }
        if y in b[1..] {
          var j :| 0 <= j < |b[1..]| && b[1..][j] == y;
          assert Less(b[0], b[j + 1]);
          assert y in a;
          assert a == [a[0]] + a[1..];
        }
      }
      StrictlySortedUnique(a[1..], b[1..]);
      assert a == [a[0]] + a[1..] && b == [b[0]] + b[1..];
    }
  }

  // -----------------------------------------------------------------------
  // Filtering

  /** Some tag of the list contains `q`, compared in lower case. */
  predicate SomeTagContains(tags: seq<string>, q: string) {
    exists k :: 0 <= k < |tags| && Contains(ToLower(tags[k]), q)
  }

  /** The search half of the filter: an empty query matches everything;
      otherwise the lower-cased query must occur in the lower-cased title,
      description or one of the tags. */
  predicate MatchesSearch(app: App, search: string) {
    var q := ToLower(search);
    q == []
    || Contains(ToLower(app.title), q)
    || Contains(ToLower(app.description), q)
    || SomeTagContains(app.tags, q)
  }

  /** The tag half: no active tag (or an empty one) matches everything;
      otherwise the app must carry exactly that tag. */
  predicate MatchesTag(app: App, activeTag: Option<string>) {
    activeTag.None? || activeTag.value == [] || activeTag.value in app.tags
  }

  predicate Keeps(app: App, search: string, activeTag: Option<string>) {
    MatchesSearch(app, search) && MatchesTag(app, activeTag)
  }

  /** `filtered`: the apps that pass both halves of the filter. */
  function Filtered(apps: seq<App>, search: string, activeTag: Option<string>): (r: seq<App>)
    ensures forall a :: a in r <==> a in apps && Keeps(a, search, activeTag)
    ensures |r| <= |apps|
  {
    Filter(apps, a => Keeps(a, search, activeTag))
  }

  /** The filter keeps the catalogue order. */
  lemma FilteredIsSubsequence(apps: seq<App>, search: string, activeTag: Option<string>)
    ensures IsSubsequence(Filtered(apps, search, activeTag), apps)
  {
    FilterIsSubsequence(apps, a => Keeps(a, search, activeTag));
  }

  /** With an empty search and no active tag the whole catalogue shows. */
  lemma NoFilterShowsAll(apps: seq<App>)
    ensures Filtered(apps, "", None) == apps
  {
    FilterAll(apps, a => Keeps(a, "", None));
  }

  lemma LowerCharIdempotent(c: char)
    ensures LowerChar(LowerChar(c)) == LowerChar(c)
  {
  }

  lemma ToLowerConcat(a: string, b: string)
    ensures ToLower(a + b) == ToLower(a) + ToLower(b)
  {
    assert forall k :: 0 <= k < |a + b| ==> ToLower(a + b)[k] == (ToLower(a) + ToLower(b))[k];
  }

  /** The search ignores case: searching for the lower-cased query gives
      the same answer. */
  lemma SearchIgnoresCase(app: App, search: string)
    ensures MatchesSearch(app, ToLower(search)) == MatchesSearch(app, search)
  {
    forall k | 0 <= k < |search| ensures ToLower(ToLower(search))[k] == ToLower(search)[k] {
      LowerCharIdempotent(search[k]);
    }
    assert ToLower(ToLower(search)) == ToLower(search);
  }

  lemma ContainsPrefix(s: string, q: string, more: string)
    requires Contains(s, q + more)
    ensures Contains(s, q)
  {
    var i :| 0 <= i <= |s| - |q + more| && OccursAt(s, q + more, i);
    assert s[i..i + |q|] == (q + more)[..|q|];
    assert OccursAt(s, q, i);
  }

  /** Typing more characters can only narrow the results: an app that
      matches a query also matches every prefix of it. */
  lemma SearchNarrows(app: App, q: string, more: string)
    requires MatchesSearch(app, q + more)
    ensures MatchesSearch(app, q)
  {
    ToLowerConcat(q, more);
    var lq := ToLower(q);
    var full := ToLower(q + more);
    if lq != [] {
      assert |full| >= |lq|;
      if Contains(ToLower(app.title), full) {
        ContainsPrefix(ToLower(app.title), lq, ToLower(more));
      } else if Contains(ToLower(app.description), full) {
        ContainsPrefix(ToLower(app.description), lq, ToLower(more));
      } else {
        var k :| 0 <= k < |app.tags| && Contains(ToLower(app.tags[k]), full);
        ContainsPrefix(ToLower(app.tags[k]), lq, ToLower(more));
      }
    }
  }

  /** A chip click: clicking the active tag clears the filter, clicking
      any other tag makes it the active one. */
  function ToggleTag(activeTag: Option<string>, tag: string): (r: Option<string>)
    ensures activeTag == Some(tag) ==> r.None?
    ensures activeTag != Some(tag) ==> r == Some(tag)
  {
    if activeTag == Some(tag) then None else Some(tag)
  }

  /** Clicking the same chip twice undoes the first click when no tag or
      that same tag was active; after another tag was active it clears the
      filter instead. */
  lemma ToggleTwice(activeTag: Option<string>, tag: string)
    ensures activeTag.None? || activeTag == Some(tag) ==>
      ToggleTag(ToggleTag(activeTag, tag), tag) == activeTag
    ensures activeTag.Some? && activeTag.value != tag ==>
      ToggleTag(ToggleTag(activeTag, tag), tag).None?
  {
  }

  /** The result count line: the count, then "result", pluralised unless
      the count is exactly 1. */
  function ResultLabel(n: nat): (r: string)
    ensures StartsWith(r, NatToString(n))
    ensures EndsWith(r, "s") <==> n != 1
    ensures ParseNat(r[..|NatToString(n)|]) == n
    ensures r[|NatToString(n)|..] == (if n == 1 then " result" else " results")
  {
    var digits := NatToString(n);
    var r := digits + " result" + (if n != 1 then "s" else "");
    assert r[..|digits|] == digits;
    ParseNatToString(n);
    assert n == 1 ==> r == "1 result";
    r
  }

  /** Splitting the result count line on its space gives back the count's
      digits and the word, which reads back as the count. */
  lemma ResultLabelSplit(n: nat)
    ensures Split(ResultLabel(n), ' ') == [NatToString(n), if n == 1 then "result" else "results"]
    ensures ParseNat(Split(ResultLabel(n), ' ')[0]) == n
  {
    var digits := NatToString(n);
    var word := if n == 1 then "result" else "results";
    assert ResultLabel(n) == digits + " " + word;
    assert [digits, word][1..] == [word];
    assert Join([digits, word], " ") == digits + " " + word;
    SplitJoin([digits, word], ' ');
    ParseNatToString(n);
  }
}

=== FILE: chatbot.dfy ===
/** The chat page (app/projects/chatbot/content.tsx): submitting a
    message, the user and bot messages appended around the request, the
    typewriter effect that reveals the reply one character per tick, and
    clearing. The request and the timer are not modelled: the reply (or
    its failure) is a parameter, and each timer tick is one call of a tick
    function. Timestamps, the model picker and the user id are left out.

    The tick as written always writes into the LAST message. Because the
    loading flag is cleared as soon as the timer is set up, a second
    message can be sent while a reply is still streaming; it becomes the
    last message and the rest of the reply is appended to it. `TickAsWritten`
    models the code as it is; `Tick` writes into the bot message the
    stream created, and the rest of the model uses it. */
module Chatbot {
  import opened Wrappers
  import opened Text

  const Apology: string := "Sorry, something went wrong. Please try again."

  datatype Role = User | Bot
  datatype Message = Message(text: string, role: Role, streaming: bool)

  datatype Chat = Chat(messages: seq<Message>, input: string, loading: bool)

  /** `handleSubmit`: ignored when the trimmed input is empty or a request
      is in flight; otherwise the trimmed text is sent and the input is
      cleared. */
  function Submit(c: Chat): (r: (Chat, Option<string>))
    ensures Trim(c.input) == [] || c.loading ==> r == (c, None)
    ensures Trim(c.input) != [] && !c.loading ==>
      r.0 == c.(input := []) && r.1 == Some(Trim(c.input)) && IsTrimmed(r.1.value) && r.1.value != []
  {
    if Trim(c.input) == [] || c.loading then (c, None)
    else (c.(input := []), Some(Trim(c.input)))
  }

  /** Start of `handleStream`: loading begins and the user's message is
      appended before the request goes out. */
  function SendMessage(c: Chat, userInput: string): (r: Chat)
    ensures r.loading
    ensures r.messages == c.messages + [Message(userInput, User, false)]
    ensures r.input == c.input
  {
    Chat(c.messages + [Message(userInput, User, false)], c.input, true)
  }

  /** A reply being revealed: its full text, how much of it is shown, and
      which message receives it. */
  datatype Stream = Stream(text: string, shown: nat, target: nat)

  /** The request settled: on success an empty streaming bot message is
      appended and a stream starts for it (`None` text counts as ""); on
      failure the apology is appended. Loading ends either way, while the
      reply is still to be revealed. */
  function Settle(c: Chat, reply: Result<Option<string>, ()>): (r: (Chat, Option<Stream>))
    ensures !r.0.loading && r.0.input == c.input
    ensures reply.Success? ==>
      && r.0.messages == c.messages + [Message([], Bot, true)]
      && r.1 == Some(Stream(reply.value.GetOr([]), 0, |c.messages|))
    ensures reply.Failure? ==>
      r.0.messages == c.messages + [Message(Apology, Bot, false)] && r.1.None?
  {
    match reply
    case Success(text) =>
      (Chat(c.messages + [Message([], Bot, true)], c.input, false), Some(Stream(text.GetOr([]), 0, |c.messages|)))
    case Failure(_) =>
      (Chat(c.messages + [Message(Apology, Bot, false)], c.input, false), None)
  }

  /** The clear button. */
  function Clear(c: Chat): (r: Chat)
    ensures r.messages == []
    ensures r.input == c.input && r.loading == c.loading
  {
    c.(messages := [])
  }

  /** One step of the typewriter on message `i`: the next character is
      appended, or, when the whole reply is shown, streaming ends and the
      timer stops (`false`). */
  function Step(msgs: seq<Message>, i: nat, s: Stream): (r: (seq<Message>, Stream, bool))
    requires i < |msgs| && s.shown <= |s.text|
    ensures |r.0| == |msgs| && r.1.shown <= |s.text|
    ensures forall k :: 0 <= k < |msgs| && k != i ==> r.0[k] == msgs[k]
    ensures s.shown < |s.text| ==>
      && r.0[i] == msgs[i].(text := msgs[i].text + [s.text[s.shown]])
      && r.1 == s.(shown := s.shown + 1) && r.2
    ensures s.shown == |s.text| ==>
      r.0[i] == msgs[i].(streaming := false) && r.1 == s && !r.2
  {
    if s.shown < |s.text| then
      (msgs[i := msgs[i].(text := msgs[i].text + [s.text[s.shown]])], s.(shown := s.shown + 1), true)
    else
      (msgs[i := msgs[i].(streaming := false)], s, false)
  }

  /** The tick as written: it writes into whatever message is last, and
      throws (`None`) when the list has been cleared. */
  function TickAsWritten(msgs: seq<Message>, s: Stream): (r: Option<(seq<Message>, Stream, bool)>)
    requires s.shown <= |s.text|
    ensures r.None? <==> msgs == []
    ensures r.Some? ==> r.value == Step(msgs, |msgs| - 1, s)
  {
    if msgs == [] then None else Some(Step(msgs, |msgs| - 1, s))
  }

  /** The tick as intended: it writes into the bot message the stream
      created; when that message is gone (the list was cleared) the timer
      stops and nothing changes. */
  function Tick(msgs: seq<Message>, s: Stream): (r: (seq<Message>, Stream, bool))
    requires s.shown <= |s.text|
    ensures s.target >= |msgs| ==> r == (msgs, s, false)
    ensures s.target < |msgs| ==> r == Step(msgs, s.target, s)
    ensures |r.0| == |msgs| && r.1.shown <= |s.text| && r.1.target == s.target
  {
    if s.target < |msgs| then Step(msgs, s.target, s) else (msgs, s, false)
  }

  /** `k` ticks in a row. */
  function Ticks(msgs: seq<Message>, s: Stream, k: nat): (r: (seq<Message>, Stream))
    requires s.shown <= |s.text|
    ensures |r.0| == |msgs| && r.1.target == s.target && r.1.shown <= |s.text|
    decreases k
  {
    if k == 0 then (msgs, s)
    else
      var t := Tick(msgs, s);
      Ticks(t.0, t.1, k - 1)
  }

  /** Messages sent while the reply streams do not disturb it: a tick on a
      longer list leaves the extra messages alone and does to the first
      ones what it would have done without them. */
  lemma TickIgnoresLaterMessages(msgs: seq<Message>, extra: seq<Message>, s: Stream)
    requires s.shown <= |s.text| && s.target < |msgs|
    ensures Tick(msgs + extra, s).0 == Tick(msgs, s).0 + extra
    ensures Tick(msgs + extra, s).1 == Tick(msgs, s).1
  {
    var a := Tick(msgs + extra, s).0;
    var b := Tick(msgs, s).0 + extra;
    assert forall k :: 0 <= k < |a| ==> a[k] == b[k];
  }

  /** After `k` ticks from the start of a stream (k at most the reply's
      length), its bot message shows exactly the first `k` characters and
      every other message is untouched. */
  lemma {:induction false} TicksRevealPrefix(msgs: seq<Message>, s: Stream, k: nat)
    requires s.shown <= |s.text| && s.target < |msgs|
    requires s.shown + k <= |s.text|
    requires msgs[s.target].text == s.text[..s.shown]
    ensures Ticks(msgs, s, k).0[s.target].text == s.text[..s.shown + k]
    ensures Ticks(msgs, s, k).1.shown == s.shown + k
    ensures forall j :: 0 <= j < |msgs| && j != s.target ==> Ticks(msgs, s, k).0[j] == msgs[j]
    decreases k
  {
    if k > 0 {
      var t := Tick(msgs, s);
      assert t.0[s.target].text == s.text[..s.shown] + [s.text[s.shown]];
      assert s.text[..s.shown + 1] == s.text[..s.shown] + [s.text[s.shown]];
      TicksRevealPrefix(t.0, t.1, k - 1);
    }
  }

  /** The failure the as-written tick shows: a reply "ok" is streaming into
      the bot message at index 1 when the user sends "next". The first tick
      appends 'o' to the user's new message and leaves the bot message
      empty, while the intended tick writes into the bot message. */
  lemma TickAsWrittenCorruptsNewMessage()
    ensures var msgs := [Message("hi", User, false), Message([], Bot, true), Message("next", User, false)];
      var s := Stream("ok", 0, 1);
      && TickAsWritten(msgs, s).value.0[2] == Message("nexto", User, false)
      && TickAsWritten(msgs, s).value.0[1] == Message([], Bot, true)
      && Tick(msgs, s).0[1] == Message("o", Bot, true)
      && Tick(msgs, s).0[2] == Message("next", User, false)
  {
    var msgs := [Message("hi", User, false), Message([], Bot, true), Message("next", User, false)];
    var s := Stream("ok", 0, 1);
    assert "next" + ['o'] == "nexto";
    assert [] + ['o'] == "o";
  }

  /** Without other messages the two ticks agree: the bot message the
      stream created is the last one. */
  lemma TicksAgreeWhenTargetIsLast(msgs: seq<Message>, s: Stream)
    requires s.shown <= |s.text| && s.target == |msgs| - 1 && |msgs| > 0
    ensures TickAsWritten(msgs, s) == Some(Tick(msgs, s))
  {
  }
}

=== FILE: clustering.dfy ===
/** The k-means canvas (app/projects/clustering/content.tsx): placing and
    erasing dots, resetting, and the assignment, update and recolouring
    steps of `handleGenerate`. The random shuffle that picks the initial
    centroids is a parameter; the covariance ellipses and the drawing are
    not modelled. Coordinates are exact reals. */
module Clustering {
  import opened Sequences

  const MaxDots: nat := 30
  const EraserRadius: real := 20.0
  const MaxIterations: nat := 10

  /** The slider's bounds on the number of clusters. */
  const MinClusters: nat := 2
  const MaxClusters: nat := 10

  const ClusterColors: seq<string> := [
    "#e6194B", "#3cb44b", "#ffe119", "#4363d8", "#f58231",
    "#911eb4", "#46f0f0", "#f032e6", "#bcf60c", "#fabebe"
  ]

  datatype Dot = Dot(x: real, y: real, color: string)
  datatype Centroid = Centroid(x: real, y: real, cluster: nat)

  /** The dots and the centroids on the canvas. Ellipses are drawn from
      these and are not modelled. */
  datatype Canvas = Canvas(dots: seq<Dot>, centroids: seq<Centroid>)

  /** Colour of a fresh dot: white on the dark theme, black otherwise. */
  function DotColor(dark: bool): string {
    if dark then "white" else "black"
  }

  /** `addDot`: a no-op once the canvas holds 30 dots; otherwise the new
      dot goes at the end. */
  function AddDot(dots: seq<Dot>, x: real, y: real, dark: bool): (r: seq<Dot>)
    ensures |dots| >= MaxDots ==> r == dots
    ensures |dots| < MaxDots ==> r == dots + [Dot(x, y, DotColor(dark))]
    ensures |dots| <= MaxDots ==> |r| <= MaxDots
  {
    if |dots| >= MaxDots then dots else dots + [Dot(x, y, DotColor(dark))]
  }

  function SquaredDistance(px: real, py: real, qx: real, qy: real): (d: real)
    ensures d >= 0.0
  {
    (px - qx) * (px - qx) + (py - qy) * (py - qy)
  }

  /** A dot survives the eraser at (x, y) when its distance is more than the
      radius; both sides are non-negative, so the test is made on squares. */
  predicate OutsideEraser(d: Dot, x: real, y: real) {
    SquaredDistance(d.x, d.y, x, y) > EraserRadius * EraserRadius
  }

  /** `eraseDots`: keeps exactly the dots outside the eraser, each as often
      as it was drawn, in order. */
  function EraseDots(dots: seq<Dot>, x: real, y: real): (r: seq<Dot>)
    ensures forall k :: 0 <= k < |r| ==> OutsideEraser(r[k], x, y) && r[k] in dots
    ensures forall k :: 0 <= k < |dots| && OutsideEraser(dots[k], x, y) ==> dots[k] in r
    ensures forall d :: multiset(r)[d] == if OutsideEraser(d, x, y) then multiset(dots)[d] else 0
    ensures IsSubsequence(r, dots)
  {
    FilterIsSubsequence(dots, d => OutsideEraser(d, x, y));
    FilterCount(dots, d => OutsideEraser(d, x, y));
    Filter(dots, d => OutsideEraser(d, x, y))
  }

  /** Adding then erasing never breaks the cap of 30 dots. */
  lemma EditsKeepCap(dots: seq<Dot>, x: real, y: real, dark: bool, ex: real, ey: real)
    requires |dots| <= MaxDots
    ensures |EraseDots(AddDot(dots, x, y, dark), ex, ey)| <= MaxDots
  {
  }

  /** `handleReset`: the canvas is emptied. */
  function Reset(c: Canvas): (r: Canvas)
    ensures r.dots == [] && r.centroids == []
  {
    Canvas([], [])
  }

  /** The slider keeps the number of clusters between 2 and 10. */
  function SliderClusters(v: int): (k: nat)
    ensures MinClusters <= k <= MaxClusters
    ensures MinClusters <= v <= MaxClusters ==> k == v
  {
    if v < MinClusters then MinClusters else if v > MaxClusters then MaxClusters else v
  }

  // -----------------------------------------------------------------------
  // Assignment step

  function DistTo(d: Dot, c: Centroid): real {
    SquaredDistance(d.x, d.y, c.x, c.y)
  }

  /** `k` is the first index of a nearest centroid: none is nearer, and
      every earlier one is strictly farther. */
  predicate IsNearest(d: Dot, cs: seq<Centroid>, k: nat) {
    && k < |cs|
    && (forall i :: 0 <= i < |cs| ==> DistTo(d, cs[k]) <= DistTo(d, cs[i]))
    && (forall i :: 0 <= i < k ==> DistTo(d, cs[i]) > DistTo(d, cs[k]))
  }

  /** The inner `forEach`: a centroid replaces the current one only when
      strictly nearer, so ties go to the lowest index. With no centroid at
      all the dot stays in cluster 0. */
  method NearestCentroid(d: Dot, cs: seq<Centroid>) returns (k: nat)
    ensures |cs| == 0 ==> k == 0
    ensures |cs| > 0 ==> IsNearest(d, cs, k)
  {
    k := 0;
    if |cs| == 0 {
      return;
    }
    var minDist := DistTo(d, cs[0]);
    var i := 1;
    while i < |cs|
      invariant 1 <= i <= |cs|
      invariant k < i && minDist == DistTo(d, cs[k])
      invariant forall j :: 0 <= j < i ==> minDist <= DistTo(d, cs[j])
      invariant forall j :: 0 <= j < k ==> DistTo(d, cs[j]) > minDist
    {
      var dist := DistTo(d, cs[i]);
      if dist < minDist {
        minDist := dist;
        k := i;
      }
      i := i + 1;
    }
  }

  /** `dots.map(...)` of the assignment step. */
  method Assign(dots: seq<Dot>, cs: seq<Centroid>) returns (a: seq<nat>)
    requires |cs| > 0
    ensures |a| == |dots|
    ensures forall k :: 0 <= k < |dots| ==> IsNearest(dots[k], cs, a[k])
  {
    a := [];
    var k := 0;
    while k < |dots|
      invariant 0 <= k <= |dots|
      invariant |a| == k
      invariant forall j :: 0 <= j < k ==> IsNearest(dots[j], cs, a[j])
    {
      var n := NearestCentroid(dots[k], cs);
      a := a + [n];
      k := k + 1;
    }
  }

  // -----------------------------------------------------------------------
  // Update step

  /** Number of dots assigned to cluster `i`, and the sums of their
      coordinates. */
  function Members(dots: seq<Dot>, a: seq<nat>, i: nat): (n: nat)
    requires |a| == |dots|
    ensures n <= |dots|
  {
    if |dots| == 0 then 0
    else (if a[0] == i then 1 else 0) + Members(dots[1..], a[1..], i)
  }

  function SumX(dots: seq<Dot>, a: seq<nat>, i: nat): real
    requires |a| == |dots|
  {
    if |dots| == 0 then 0.0
    else (if a[0] == i then dots[0].x else 0.0) + SumX(dots[1..], a[1..], i)
  }

  function SumY(dots: seq<Dot>, a: seq<nat>, i: nat): real
    requires |a| == |dots|
  {
    if |dots| == 0 then 0.0
    else (if a[0] == i then dots[0].y else 0.0) + SumY(dots[1..], a[1..], i)
  }

  /** One centroid after the update: unchanged when no dot is assigned to
      it, otherwise at the mean position of its dots. */
  function MoveCentroid(c: Centroid, i: nat, dots: seq<Dot>, a: seq<nat>): (r: Centroid)
    requires |a| == |dots|
    ensures Members(dots, a, i) == 0 ==> r == c
    ensures Members(dots, a, i) > 0 ==>
      && r.cluster == i
      && r.x * (Members(dots, a, i) as real) == SumX(dots, a, i)
      && r.y * (Members(dots, a, i) as real) == SumY(dots, a, i)
  {
    var n := Members(dots, a, i);
    if n == 0 then c
    else Centroid(SumX(dots, a, i) / n as real, SumY(dots, a, i) / n as real, i)
  }

  function Update(cs: seq<Centroid>, dots: seq<Dot>, a: seq<nat>): (r: seq<Centroid>)
    requires |a| == |dots|
    ensures |r| == |cs|
    ensures forall i :: 0 <= i < |cs| ==> r[i] == MoveCentroid(cs[i], i, dots, a)
  {
    seq(|cs|, i requires 0 <= i < |cs| => MoveCentroid(cs[i], i, dots, a))
  }

  // -----------------------------------------------------------------------
  // `handleGenerate`

  /** Colour of cluster `a`, cycling through the ten colours. */
  function ClusterColor(a: nat): (c: string)
    ensures c in ClusterColors
  {
    ClusterColors[a % |ClusterColors|]
  }

  /** The recolouring: positions and count kept, each dot coloured by its
      cluster. */
  function Recolor(dots: seq<Dot>, a: seq<nat>): (r: seq<Dot>)
    requires |a| == |dots|
    ensures |r| == |dots|
    ensures forall k :: 0 <= k < |dots| ==>
      r[k].x == dots[k].x && r[k].y == dots[k].y && r[k].color == ClusterColor(a[k])
  {
    seq(|dots|, k requires 0 <= k < |dots| => Dot(dots[k].x, dots[k].y, ClusterColor(a[k])))
  }

  /** The centroids seeded by the first `clusters` dots of the shuffled
      copy, numbered in order. */
  function Seed(shuffled: seq<Dot>, clusters: nat): (cs: seq<Centroid>)
    requires clusters <= |shuffled|
    ensures |cs| == clusters
    ensures forall i :: 0 <= i < clusters ==> cs[i] == Centroid(shuffled[i].x, shuffled[i].y, i)
  {
    seq(clusters, i requires 0 <= i < clusters => Centroid(shuffled[i].x, shuffled[i].y, i))
  }

  /** One round of the loop: `a` puts every dot at its nearest centroid of
      `cs`, and `next` is `cs` updated for `a`. */
  predicate IsRound(cs: seq<Centroid>, dots: seq<Dot>, a: seq<nat>, next: seq<Centroid>) {
    && |a| == |dots|
    && (forall k :: 0 <= k < |dots| ==> IsNearest(dots[k], cs, a[k]))
    && next == Update(cs, dots, a)
  }

  /** A run of rounds from `seed`: `trace` holds the centroids before the
      first round and after each round, `rounds` the assignment of each
      round. */
  predicate IsRun(seed: seq<Centroid>, dots: seq<Dot>, trace: seq<seq<Centroid>>, rounds: seq<seq<nat>>) {
    && |trace| == |rounds| + 1
    && trace[0] == seed
    && (forall i :: 0 <= i < |rounds| ==> IsRound(trace[i], dots, rounds[i], trace[i + 1]))
  }

  /** Every round of a run keeps the number of centroids, and every
      assignment of a run names one of them. */
  lemma {:induction false} RunKeepsShape(seed: seq<Centroid>, dots: seq<Dot>, trace: seq<seq<Centroid>>, rounds: seq<seq<nat>>)
    requires IsRun(seed, dots, trace, rounds)
    ensures forall i :: 0 <= i < |trace| ==> |trace[i]| == |seed|
    ensures forall i, k :: 0 <= i < |rounds| && 0 <= k < |rounds[i]| ==> rounds[i][k] < |seed|
    decreases |rounds|
  {
    if |rounds| > 0 {
      var n := |rounds| - 1;
      assert IsRun(seed, dots, trace[..n + 1], rounds[..n]) by {
        forall i | 0 <= i < n ensures IsRound(trace[..n + 1][i], dots, rounds[..n][i], trace[..n + 1][i + 1]) {
          assert IsRound(trace[i], dots, rounds[i], trace[i + 1]);
        }
      }
      RunKeepsShape(seed, dots, trace[..n + 1], rounds[..n]);
      assert |trace[n]| == |seed| by { assert trace[..n + 1][n] == trace[n]; }
      assert IsRound(trace[n], dots, rounds[n], trace[n + 1]);
      forall i | 0 <= i < |trace| ensures |trace[i]| == |seed| {
        if i <= n {
          assert trace[..n + 1][i] == trace[i];
        }
      }
      forall i, k | 0 <= i < |rounds| && 0 <= k < |rounds[i]| ensures rounds[i][k] < |seed| {
        if i < n {
          assert rounds[..n][i] == rounds[i];
        } else {
          assert |rounds[n]| == |dots|;
          assert IsNearest(dots[k], trace[n], rounds[n][k]);
        }
      }
    }
  }

  /** The outcome of pressing Generate. */
  datatype Outcome = Unchanged | NotEnoughDots | Clustered(canvas: Canvas, assignment: seq<nat>)

  /** `handleGenerate`: nothing happens without dots; with fewer dots than
      clusters it only warns. Otherwise the first `clusters` dots of the
      shuffled copy seed the centroids, ten rounds of assignment and update
      run, and the dots are recoloured by their last assignment, which puts
      each dot at its nearest centroid of the last round's input. */
  method Generate(c: Canvas, clusters: nat, shuffled: seq<Dot>) returns (r: Outcome)
    requires multiset(shuffled) == multiset(c.dots)
    requires clusters >= 1
    ensures |c.dots| == 0 ==> r == Unchanged
    ensures 0 < |c.dots| < clusters ==> r == NotEnoughDots
    ensures |c.dots| >= clusters && |c.dots| > 0 ==> r.Clustered?
    ensures r.Clustered? ==>
      && |r.canvas.centroids| == clusters
      && |r.assignment| == |c.dots|
      && (forall k :: 0 <= k < |c.dots| ==> r.assignment[k] < clusters)
      && r.canvas.dots == Recolor(c.dots, r.assignment)
    ensures r.Clustered? ==>
      && clusters <= |shuffled|
      && exists trace, rounds ::
        && IsRun(Seed(shuffled, clusters), c.dots, trace, rounds)
        && |rounds| == MaxIterations
        && r.assignment == rounds[MaxIterations - 1]
        && r.canvas.centroids == trace[MaxIterations]
  {
    if |c.dots| == 0 {
      return Unchanged;
    }
    if |c.dots| < clusters {
      return NotEnoughDots;
    }
    assert |shuffled| == |c.dots| by {
      assert |multiset(shuffled)| == |multiset(c.dots)|;
    }
    var cs := Seed(shuffled, clusters);
    var a: seq<nat> := seq(|c.dots|, k => 0);
    var trace := [cs];
    var rounds: seq<seq<nat>> := [];
    var iter := 0;
    while iter < MaxIterations
      invariant iter <= MaxIterations
      invariant |cs| == clusters
      invariant |a| == |c.dots|
      invariant forall k :: 0 <= k < |a| ==> a[k] < clusters
      invariant |rounds| == iter
      invariant IsRun(Seed(shuffled, clusters), c.dots, trace, rounds)
      invariant cs == trace[iter]
      invariant iter > 0 ==> a == rounds[iter - 1]
    {
      a := Assign(c.dots, cs);
      var next := Update(cs, c.dots, a);
      assert IsRound(cs, c.dots, a, next);
      trace := trace + [next];
      rounds := rounds + [a];
      cs := next;
      iter := iter + 1;
    }
    r := Clustered(Canvas(Recolor(c.dots, a), cs), a);
    assert IsRun(Seed(shuffled, clusters), c.dots, trace, rounds);
  }
}

=== FILE: code_editor.dfy ===
/** The code runner (app/projects/code_interpreter/EditorComponent.tsx and
    SelectLanguages.tsx): the language options, the editor's state
    transitions, the request to the execution service and the handling of
    its answer, and the `classNames` helper. The sample programs are a
    parameter (`snippets`, keyed by language); the HTTP request, the Monaco
    editor and the toasts are not modelled. */
module CodeEditor {
  import opened Wrappers
  import opened Text
  import opened Sequences

  datatype LanguageOption = LanguageOption(language: string, version: string, displayName: string)

  /** The runtimes offered, in menu order. */
  const LanguageOptions: seq<LanguageOption> := [
    LanguageOption("python", "3.10.0", "Python"),
    LanguageOption("javascript", "18.15.0", "JavaScript"),
    LanguageOption("typescript", "5.0.3", "TypeScript"),
    LanguageOption("php", "8.2.3", "PHP"),
    LanguageOption("ruby", "3.0.1", "Ruby"),
    LanguageOption("rust", "1.68.2", "Rust"),
    LanguageOption("csharp", "6.12.0", "C#"),
    LanguageOption("cpp", "10.2.0", "C++"),
    LanguageOption("go", "1.16.2", "Go"),
    LanguageOption("java", "15.0.2", "Java"),
    LanguageOption("c", "10.2.0", "C")
  ]

  /** Every offered language has a sample program. */
  predicate SnippetsComplete(snippets: map<string, string>) {
    forall k :: 0 <= k < |LanguageOptions| ==> LanguageOptions[k].language in snippets
  }

  datatype Editor = Editor(
    option: LanguageOption,
    source: string,
    loading: bool,
    output: seq<string>,
    err: bool)

  /** The first render: Python, with its sample program. */
  function Initial(snippets: map<string, string>): (e: Editor)
    requires SnippetsComplete(snippets)
    ensures e.option == LanguageOptions[0] && e.option.language == "python"
    ensures e.source == snippets["python"]
    ensures !e.loading && e.output == [] && !e.err
  {
    assert LanguageOptions[0].language == "python";
    Editor(LanguageOptions[0], snippets["python"], false, [], false)
  }

  /** `handleOnchange`: an empty or missing value is ignored. */
  function OnChange(e: Editor, value: Option<string>): (r: Editor)
    ensures value.None? || value == Some([]) ==> r == e
    ensures value.Some? && value.value != [] ==> r == e.(source := value.value)
  {
    match value
    case Some(v) => if v != [] then e.(source := v) else e
    case None => e
  }

  /** `onSelect`: the chosen runtime and its sample program replace the
      current ones. */
  function OnSelect(e: Editor, o: LanguageOption, snippets: map<string, string>): (r: Editor)
    requires o in LanguageOptions && SnippetsComplete(snippets)
    ensures r.option == o && r.source == snippets[o.language]
    ensures r.loading == e.loading && r.output == e.output && r.err == e.err
  {
    e.(option := o, source := snippets[o.language])
  }

  datatype Request = Request(language: string, version: string, files: seq<string>)

  /** Start of `executeCode`: loading begins and the request carries the
      runtime and a single file with the current source. */
  function Execute(e: Editor): (r: (Editor, Request))
    ensures r.0 == e.(loading := true)
    ensures r.1.language == e.option.language && r.1.version == e.option.version
    ensures r.1.files == [e.source]
  {
    (e.(loading := true), Request(e.option.language, e.option.version, [e.source]))
  }

  /** End of `executeCode`: success shows the program's output split into
      lines and clears the error; failure sets the error and keeps the old
      output. Loading ends either way. */
  function Finish(e: Editor, outcome: Result<string, ()>): (r: Editor)
    ensures !r.loading && r.option == e.option && r.source == e.source
    ensures outcome.Success? ==> !r.err && Join(r.output, "\n") == outcome.value
    ensures outcome.Success? ==> |r.output| >= 1
    ensures outcome.Success? ==> forall i, k :: 0 <= i < |r.output| && 0 <= k < |r.output[i]| ==> r.output[i][k] != '\n'
    ensures outcome.Failure? ==> r.err && r.output == e.output
  {
    match outcome
    case Success(text) =>
      JoinSplit(text, '\n');
      e.(loading := false, output := Split(text, '\n'), err := false)
    case Failure(_) => e.(loading := false, err := true)
  }

  // -----------------------------------------------------------------------
  // `classNames`

  predicate NonEmpty(s: string) {
    s != []
  }

  /** `classes.filter(Boolean).join(' ')`: every non-empty class name
      appears in the result. */
  function ClassNames(classes: seq<string>): (r: string)
    ensures forall k :: 0 <= k < |classes| && classes[k] != [] ==> Contains(r, classes[k])
  {
    var kept := Filter(classes, NonEmpty);
    forall k | 0 <= k < |classes| && classes[k] != []
      ensures Contains(Join(kept, " "), classes[k])
    {
      var i :| 0 <= i < |kept| && kept[i] == classes[k];
      JoinContainsPart(kept, " ", i);
    }
    Join(kept, " ")
  }

  /** The class list is empty exactly when every class name is empty. */
  lemma ClassNamesAllEmpty(classes: seq<string>)
    ensures ClassNames(classes) == [] <==> forall k :: 0 <= k < |classes| ==> classes[k] == []
  {
    if forall k :: 0 <= k < |classes| ==> classes[k] == [] {
      FilterNone(classes, NonEmpty);
    } else {
      var k :| 0 <= k < |classes| && classes[k] != [];
      var i :| 0 <= i <= |ClassNames(classes)| - |classes[k]| && OccursAt(ClassNames(classes), classes[k], i);
    }
  }

  /** No class names give an empty class string. */
  lemma ClassNamesNil()
    ensures ClassNames([]) == []
  {
  }

  /** `classNames` one name at a time: an empty name is skipped, the first
      non-empty name stands alone or is followed by a single space and the
      class string of the rest. With ClassNamesNil this determines the
      result for every list, names with spaces included. */
  lemma {:induction false} ClassNamesCons(c: string, rest: seq<string>)
    ensures ClassNames([c] + rest) ==
      if c == [] then ClassNames(rest)
      else if ClassNames(rest) == [] then c
      else c + " " + ClassNames(rest)
  {
    var kept := Filter(rest, NonEmpty);
    FilterCons(c, rest, NonEmpty);
    if c != [] {
      JoinCons(c, kept, " ");
      if |kept| > 0 {
        JoinFirst(kept, " ");
      }
    } else {
      assert Filter([c] + rest, NonEmpty) == kept;
    }
  }


  /** A single class comes back unchanged. */
  lemma ClassNamesSingle(c: string)
    ensures ClassNames([c]) == c
  {
    assert [c][1..] == [];
  }

  /** When no class contains a space, splitting the result on spaces gives
      back exactly the non-empty classes, in their order. */
  lemma ClassNamesSplit(classes: seq<string>, k: nat)
    requires k < |classes| && classes[k] != []
    requires forall i, j :: 0 <= i < |classes| && 0 <= j < |classes[i]| ==> classes[i][j] != ' '
    ensures Split(ClassNames(classes), ' ') == Filter(classes, NonEmpty)
    ensures IsSubsequence(Filter(classes, NonEmpty), classes)
  {
    var kept := Filter(classes, NonEmpty);
    assert classes[k] in kept;
    forall i, j | 0 <= i < |kept| && 0 <= j < |kept[i]| ensures kept[i][j] != ' ' {
      var m :| 0 <= m < |classes| && classes[m] == kept[i];
    }
    SplitJoin(kept, ' ');
    FilterIsSubsequence(classes, NonEmpty);
  }
}

=== FILE: consent.dfy ===
/** Analytics consent (hooks/useCookieConsent.ts) and the two components
    that read it: the banner (components/cookie_consent.tsx) and the status
    indicator (components/cookie_status_checker.tsx). Each component calls
    the hook itself, so each holds its own `hasConsent` and `isLoaded`; what
    they share is local storage, which holds a single key and is modelled
    as the optional value of that key, and the page reload that give and
    withdraw schedule, which is a flag. A reload mounts every hook afresh
    from the storage. */
module Consent {
  import opened Wrappers

  const ConsentKey: string := "analytics_consent"
  const EnabledMessage: string := "Analytics enabled - Your data helps improve the site."
  const DisabledMessage: string := "Analytics disabled - No tracking data is being collected."

  /** One call of the hook: its own `hasConsent` and `isLoaded`. */
  datatype Hook = Hook(hasConsent: bool, isLoaded: bool)

  /** What every call of the hook shares: the stored value of
      `analytics_consent`, and whether a reload has been scheduled. */
  datatype Shared = Shared(stored: Option<string>, reloadScheduled: bool)

  /** What an action of the hook sees and changes: the calling hook's own
      state and the shared state. */
  datatype ConsentState = ConsentState(hook: Hook, shared: Shared)

  /** The page as laid out by components/providers.tsx: the indicator and
      the banner, each with its own hook, over one storage. */
  datatype Page = Page(indicator: Hook, banner: Hook, shared: Shared)

  /** The lazy initialiser of `hasConsent`: false without a window,
      otherwise whether the stored value is exactly "true". */
  function InitialConsent(hasWindow: bool, stored: Option<string>): (b: bool)
    ensures b <==> hasWindow && stored == Some("true")
    ensures stored == Some("false") || stored.None? ==> !b
  {
    if !hasWindow then false
    else match stored
      case Some(v) => v == "true"
      case None => false
  }

  /** The first render of one hook: consent from the storage, not loaded yet. */
  function Mount(hasWindow: bool, stored: Option<string>): (h: Hook)
    ensures !h.isLoaded
    ensures h.hasConsent <==> hasWindow && stored == Some("true")
  {
    Hook(InitialConsent(hasWindow, stored), false)
  }

  /** The mount effect: loaded from then on, consent unchanged. */
  function Loaded(h: Hook): (r: Hook)
    ensures r.isLoaded
    ensures r.hasConsent == h.hasConsent
  {
    h.(isLoaded := true)
  }

  /** `giveConsent`: "true" is stored, the calling hook's consent is granted
      and a reload is scheduled. */
  function GiveConsent(s: ConsentState): (r: ConsentState)
    ensures r.shared.stored == Some("true") && r.hook.hasConsent && r.shared.reloadScheduled
    ensures r.hook.isLoaded == s.hook.isLoaded
  {
    ConsentState(s.hook.(hasConsent := true), Shared(Some("true"), true))
  }

  /** `denyConsent`: "false" is stored, yet the calling hook's `hasConsent`
      becomes true for the rest of the session (this is what hides the
      banner); no reload. */
  function DenyConsent(s: ConsentState): (r: ConsentState)
    ensures r.shared.stored == Some("false") && r.hook.hasConsent
    ensures r.shared.reloadScheduled == s.shared.reloadScheduled && r.hook.isLoaded == s.hook.isLoaded
  {
    ConsentState(s.hook.(hasConsent := true), s.shared.(stored := Some("false")))
  }

  /** `withdrawConsent`: the key is removed, the calling hook's consent is
      revoked and a reload is scheduled. */
  function WithdrawConsent(s: ConsentState): (r: ConsentState)
    ensures r.shared.stored.None? && !r.hook.hasConsent && r.shared.reloadScheduled
    ensures r.hook.isLoaded == s.hook.isLoaded
  {
    ConsentState(s.hook.(hasConsent := false), Shared(None, true))
  }

  /** The first render of the page: both hooks read the same storage. */
  function MountPage(stored: Option<string>): (p: Page)
    ensures p.indicator == p.banner == Mount(true, stored)
    ensures p.shared == Shared(stored, false)
  {
    Page(Mount(true, stored), Mount(true, stored), Shared(stored, false))
  }

  /** Both mount effects have run. */
  function LoadedPage(p: Page): (r: Page)
    ensures r.indicator == Loaded(p.indicator) && r.banner == Loaded(p.banner)
    ensures r.shared == p.shared
  {
    Page(Loaded(p.indicator), Loaded(p.banner), p.shared)
  }

  /** A reload remounts the page from what is in storage. */
  function Reload(p: Page): (r: Page)
    ensures r == MountPage(p.shared.stored)
  {
    MountPage(p.shared.stored)
  }

  /** After a reload, each hook's consent is what was last stored: granted
      after Allow, not granted after Deny (although Deny set it for the
      calling hook's session) or after a withdrawal. */
  lemma ReloadRestoresChoice(s: ConsentState)
    ensures Mount(true, GiveConsent(s).shared.stored).hasConsent
    ensures !Mount(true, DenyConsent(s).shared.stored).hasConsent && DenyConsent(s).hook.hasConsent
    ensures !Mount(true, WithdrawConsent(s).shared.stored).hasConsent
  {
  }

  /** The banner's render guard: shown exactly when its hook is loaded and
      has no consent (yet). */
  predicate BannerVisible(h: Hook) {
    h.isLoaded && !h.hasConsent
  }

  datatype Button = Deny | Allow

  /** The banner's buttons: Deny calls `denyConsent`, Allow calls
      `giveConsent`, both through the banner's own hook. Either one hides
      the banner; only Allow stores "true" and only Allow reloads; the
      indicator's hook is not touched. */
  function Press(p: Page, b: Button): (r: Page)
    ensures !BannerVisible(r.banner)
    ensures r.indicator == p.indicator
    ensures r.shared.stored == Some("true") <==> b == Allow
    ensures b == Deny ==> r.shared.stored == Some("false") && r.shared.reloadScheduled == p.shared.reloadScheduled
    ensures b == Allow ==> r.shared.reloadScheduled
  {
    var s := ConsentState(p.banner, p.shared);
    var t := match b
      case Deny => DenyConsent(s)
      case Allow => GiveConsent(s);
    Page(p.indicator, t.hook, t.shared)
  }

  /** A visitor who denies sees no banner for the rest of the session but
      sees it again once the page is reloaded and mounted; one who allows
      does not. */
  lemma DenyHidesBannerForSession(p: Page)
    requires p.banner.isLoaded
    ensures !BannerVisible(Press(p, Deny).banner)
    ensures BannerVisible(LoadedPage(Reload(Press(p, Deny))).banner)
    ensures !BannerVisible(LoadedPage(Reload(Press(p, Allow))).banner)
  {
  }

  // -----------------------------------------------------------------------
  // Status indicator

  /** The two statuses, `'success'` and `'error'`. */
  datatype Status = StatusSuccess | StatusError

  /** `getStatus`. */
  function GetStatus(h: Hook): (r: Option<Status>)
    ensures r.None? <==> !h.isLoaded
    ensures r == Some(StatusSuccess) <==> h.isLoaded && h.hasConsent
    ensures r == Some(StatusError) <==> h.isLoaded && !h.hasConsent
  {
    if !h.isLoaded then None
    else if h.hasConsent then Some(StatusSuccess) else Some(StatusError)
  }

  /** `getMessage`. */
  function GetMessage(h: Hook): (m: string)
    ensures m == [] <==> !h.isLoaded
    ensures h.isLoaded ==> (m == EnabledMessage <==> h.hasConsent)
    ensures h.isLoaded ==> (m == DisabledMessage <==> !h.hasConsent)
  {
    if !h.isLoaded then []
    else if h.hasConsent then EnabledMessage else DisabledMessage
  }

  /** What the indicator draws besides the cookie icon. */
  datatype Indicator = Indicator(check: bool, cross: bool, warning: bool, title: Option<string>)

  function Render(h: Hook, hover: bool): (r: Indicator)
    ensures r.warning <==> !h.isLoaded
    ensures r.check <==> h.isLoaded && h.hasConsent
    ensures r.cross <==> h.isLoaded && !h.hasConsent
    ensures r.title.Some? <==> hover && h.isLoaded
    ensures r.title.Some? ==> r.title.value == GetMessage(h)
  {
    var status := GetStatus(h);
    var message := GetMessage(h);
    Indicator(
      status == Some(StatusSuccess),
      status == Some(StatusError),
      !h.isLoaded,
      if hover && message != [] then Some(message) else None)
  }

  /** Exactly one of the three status icons is drawn at any time. */
  lemma ExactlyOneIcon(h: Hook, hover: bool)
    ensures var i := Render(h, hover);
      (if i.check then 1 else 0) + (if i.cross then 1 else 0) + (if i.warning then 1 else 0) == 1
  {
  }

  /** Right after a (re)mount the two hooks agree: the indicator's red cross
      shows exactly when the banner does. */
  lemma CrossIffBannerAfterMount(stored: Option<string>, hover: bool)
    ensures var p := LoadedPage(MountPage(stored));
      Render(p.indicator, hover).cross <==> BannerVisible(p.banner)
  {
  }

  /** The two hooks drift apart within a session: pressing Deny hides the
      banner, but the indicator's own hook still has no consent, so the red
      cross stays until the next reload; after Allow it stays too, until
      the scheduled reload. */
  lemma PressLeavesCross(p: Page, b: Button, hover: bool)
    requires p.indicator.isLoaded && !p.indicator.hasConsent
    ensures !BannerVisible(Press(p, b).banner)
    ensures Render(Press(p, b).indicator, hover).cross
  {
  }

  /** From a fresh page with nothing stored, Deny leaves the banner hidden
      and the cross shown at the same time. */
  lemma DenyDisagreement(hover: bool)
    ensures var p := Press(LoadedPage(MountPage(None)), Deny);
      !BannerVisible(p.banner) && Render(p.indicator, hover).cross
      && p.shared.stored == Some("false")
  {
  }
}

=== FILE: halfway.dfy ===
/** The "What's Halfway" tool (app/projects/whats_halfway/content.tsx):
    the editable list of points with positional `#n` labels, the d/h/min
    duration text, the choice of a central meeting point from a travel-time
    table, and the reset when fewer than two points remain. Geocoding and
    routing requests are outside the model; their answers are inputs. */
module Halfway {
  import opened Wrappers
  import opened Text

  datatype LatLng = LatLng(lat: real, lng: real)

  /** One point of the list: `name` is its label and `place` the
      reverse-geocoded place name. */
  datatype Point = Point(pos: LatLng, name: string, place: Option<string>)

  // -----------------------------------------------------------------------
  // Durations

  const MinutesPerDay: nat := 1440
  const MinutesPerHour: nat := 60

  datatype DurationParts = DurationParts(days: nat, hours: nat, mins: nat)

  /** Days, hours and minutes of a whole number of minutes. */
  function SplitDuration(m: nat): (p: DurationParts)
    ensures p.days * MinutesPerDay + p.hours * MinutesPerHour + p.mins == m
    ensures p.hours < 24 && p.mins < 60
  {
    DurationParts(m / MinutesPerDay, (m % MinutesPerDay) / MinutesPerHour, m % MinutesPerHour)
  }

  /** The decomposition is the only one with hours below 24 and minutes
      below 60. */
  lemma SplitDurationUnique(m: nat, p: DurationParts)
    requires p.days * MinutesPerDay + p.hours * MinutesPerHour + p.mins == m
    requires p.hours < 24 && p.mins < 60
    ensures SplitDuration(m) == p
  {
    var q := SplitDuration(m);
    assert p.hours * 60 + p.mins < 1440;
    assert q.hours * 60 + q.mins < 1440;
    assert p.days == q.days;
    assert p.hours * 60 + p.mins == q.hours * 60 + q.mins;
    assert p.hours == q.hours;
  }

  /** The pieces of the duration text: a day part and an hour part when
      non-zero, and a minute part when the minutes are non-zero or when
      there is neither a day nor an hour part. */
  function DurationTokens(m: nat): (ts: seq<string>)
    ensures 1 <= |ts| <= 3
  {
    PartTokens(SplitDuration(m))
  }

  /** The tokens of a day, hour and minute count. */
  function PartTokens(p: DurationParts): (ts: seq<string>)
    ensures 1 <= |ts| <= 3
  {
    OptionalToken(p.days != 0, p.days, "d")
    + OptionalToken(p.hours != 0, p.hours, "h")
    + OptionalToken(p.mins != 0 || (p.days == 0 && p.hours == 0), p.mins, "min")
  }

  /** Which tokens appear, and where: the day token first exactly when
      there are whole days, the hour token next exactly when the hours are
      non-zero, and the minute token last exactly when the minutes are
      non-zero or there is neither a day nor an hour token. */
  lemma DurationTokensShape(m: nat)
    ensures var p := SplitDuration(m);
      var ts := DurationTokens(m);
      var minutesShown := p.mins != 0 || (p.days == 0 && p.hours == 0);
      && |ts| == (if p.days != 0 then 1 else 0) + (if p.hours != 0 then 1 else 0) + (if minutesShown then 1 else 0)
      && (p.days != 0 ==> ts[0] == NatToString(p.days) + "d")
      && (p.hours != 0 ==> ts[if p.days != 0 then 1 else 0] == NatToString(p.hours) + "h")
      && (minutesShown ==> ts[|ts| - 1] == NatToString(p.mins) + "min")
  {
    var p := SplitDuration(m);
    var minutesShown := p.mins != 0 || (p.days == 0 && p.hours == 0);
    var x, y, z := OptionalToken(p.days != 0, p.days, "d"), OptionalToken(p.hours != 0, p.hours, "h"),
      OptionalToken(minutesShown, p.mins, "min");
    assert DurationTokens(m) == x + y + z;
  }

  /** The token for `n` units when `present` holds, otherwise nothing. */
  function OptionalToken(present: bool, n: nat, unit: string): (ts: seq<string>)
    ensures |ts| == if present then 1 else 0
    ensures present ==> ts[0] == NatToString(n) + unit
  {
    if present then [NatToString(n) + unit] else []
  }

  /** `formatDuration` for a whole number of minutes: the duration tokens
      separated by single spaces. The text is never empty, so the `'0min'`
      fallback never applies; zero minutes read "0min". */
  function FormatDuration(m: nat): (r: string)
    ensures r != []
    ensures m == 0 ==> r == "0min"
    ensures Split(r, ' ') == DurationTokens(m)
  {
    var ts := DurationTokens(m);
    DurationTokensSpaceFree(m);
    SplitJoin(ts, ' ');
    JoinFirstNonEmpty(ts, " ");
    Join(ts, " ")
  }

  lemma JoinFirstNonEmpty(ts: seq<string>, sep: string)
    requires |ts| >= 1 && ts[0] != []
    ensures Join(ts, sep) != []
  {
  }

  /** Value of one duration token ("3d", "4h", "15min"), in minutes. */
  function TokenMinutes(t: string): Option<nat> {
    if EndsWith(t, "min") && AllDigits(t[..|t| - 3]) then Some(ParseNat(t[..|t| - 3]))
    else if EndsWith(t, "h") && AllDigits(t[..|t| - 1]) then Some(ParseNat(t[..|t| - 1]) * MinutesPerHour)
    else if EndsWith(t, "d") && AllDigits(t[..|t| - 1]) then Some(ParseNat(t[..|t| - 1]) * MinutesPerDay)
    else None
  }

  predicate AllDigits(s: string) {
    forall k :: 0 <= k < |s| ==> IsDigit(s[k])
  }

  /** The sum of the values of the items, or `None` when one has none. */
  function SumBy<T>(ts: seq<T>, value: T -> Option<nat>): Option<nat> {
    if |ts| == 0 then Some(0)
    else
      var t := value(ts[0]);
      var rest := SumBy(ts[1..], value);
      if t.Some? && rest.Some? then Some(t.value + rest.value) else None
  }

  function SumTokens(ts: seq<string>): Option<nat> {
    SumBy(ts, TokenMinutes)
  }

  /** Reads a duration text back into minutes: the reference reading of
      `FormatDuration`. */
  function ParseDuration(s: string): Option<nat> {
    SumTokens(Split(s, ' '))
  }

  lemma TokenRoundTrip(n: nat, unit: string, scale: nat)
    requires unit == "d" || unit == "h" || unit == "min"
    requires scale == (if unit == "d" then MinutesPerDay else if unit == "h" then MinutesPerHour else 1)
    ensures TokenMinutes(NatToString(n) + unit) == Some(n * scale)
  {
    var d := NatToString(n);
    var t := d + unit;
    ParseNatToString(n);
    assert t[..|d|] == d;
    if unit == "min" {
      assert EndsWith(t, "min");
    } else if unit == "h" {
      assert !EndsWith(t, "min") by { assert t[|t| - 1] == 'h'; }
      assert EndsWith(t, "h");
    } else {
      assert !EndsWith(t, "min") by { assert t[|t| - 1] == 'd'; }
      assert !EndsWith(t, "h") by { assert t[|t| - 1] == 'd'; }
      assert EndsWith(t, "d");
    }
  }

  lemma {:induction false} SumAppend<T>(xs: seq<T>, ys: seq<T>, value: T -> Option<nat>)
    requires SumBy(xs, value).Some? && SumBy(ys, value).Some?
    ensures SumBy(xs + ys, value) == Some(SumBy(xs, value).value + SumBy(ys, value).value)
  {
    if |xs| > 0 {
      assert (xs + ys)[0] == xs[0];
      assert (xs + ys)[1..] == xs[1..] + ys;
      SumAppend(xs[1..], ys, value);
    } else {
      assert xs + ys == ys;
    }
  }

  /** Every duration token is digits followed by a unit, so none holds a
      space. */
  lemma DurationTokensSpaceFree(m: nat)
    ensures forall i, k :: 0 <= i < |DurationTokens(m)| && 0 <= k < |DurationTokens(m)[i]| ==>
      DurationTokens(m)[i][k] != ' '
  {
    var p := SplitDuration(m);
    var ts := DurationTokens(m);
    forall i, k | 0 <= i < |ts| && 0 <= k < |ts[i]| ensures ts[i][k] != ' ' {
      assert ts[i] == NatToString(p.days) + "d" || ts[i] == NatToString(p.hours) + "h"
        || ts[i] == NatToString(p.mins) + "min";
      NumeralTokenHasNoSpace(p, ts[i], k);
    }
  }

  /** The token values add up to the duration. */
  lemma DurationTokensSum(m: nat)
    ensures SumTokens(DurationTokens(m)) == Some(m)
  {
    PartTokensSum(SplitDuration(m));
  }

  lemma PartTokensSum(p: DurationParts)
    ensures SumTokens(PartTokens(p)) == Some(p.days * MinutesPerDay + p.hours * MinutesPerHour + p.mins)
  {
    var present := p.mins != 0 || (p.days == 0 && p.hours == 0);
    OptionalTokenSum(p.days != 0, p.days, "d", MinutesPerDay);
    OptionalTokenSum(p.hours != 0, p.hours, "h", MinutesPerHour);
    OptionalTokenSum(present, p.mins, "min", 1);
    var x, y, z := OptionalToken(p.days != 0, p.days, "d"), OptionalToken(p.hours != 0, p.hours, "h"),
      OptionalToken(present, p.mins, "min");
    SumThree(x, y, z, TokenMinutes, p.days * MinutesPerDay, p.hours * MinutesPerHour, p.mins * 1);
  }

  lemma SumThree<T>(x: seq<T>, y: seq<T>, z: seq<T>, value: T -> Option<nat>, a: nat, b: nat, c: nat)
    requires SumBy(x, value) == Some(a) && SumBy(y, value) == Some(b) && SumBy(z, value) == Some(c)
    ensures SumBy(x + y + z, value) == Some(a + b + c)
  {
    SumAppend(x, y, value);
    SumAppend(x + y, z, value);
  }

  /** A token that is present when `present` holds, and whose absence only
      leaves out a zero. */
  lemma OptionalTokenSum(present: bool, n: nat, unit: string, scale: nat)
    requires unit == "d" || unit == "h" || unit == "min"
    requires scale == (if unit == "d" then MinutesPerDay else if unit == "h" then MinutesPerHour else 1)
    requires present || n == 0
    ensures SumTokens(OptionalToken(present, n, unit)) == Some(n * scale)
  {
    if present {
      TokenRoundTrip(n, unit, scale);
      var ts := OptionalToken(present, n, unit);
      assert SumTokens(ts[1..]) == Some(0);
    }
  }

  /** Reading the duration text back gives the number of minutes: the
      text loses nothing. */
  lemma FormatDurationRoundTrip(m: nat)
    ensures ParseDuration(FormatDuration(m)) == Some(m)
  {
    DurationTokensSum(m);
  }

  lemma NumeralTokenHasNoSpace(p: DurationParts, t: string, k: int)
    requires t == NatToString(p.days) + "d" || t == NatToString(p.hours) + "h" || t == NatToString(p.mins) + "min"
    requires 0 <= k < |t|
    ensures t[k] != ' '
  {
  }

  // -----------------------------------------------------------------------
  // Point list editing

  /** The positional label of the point at index `j`. */
  function PositionLabel(j: nat): (r: string)
    ensures StartsWith(r, "#")
    ensures r[1..] == NatToString(j + 1)
  {
    "#" + NatToString(j + 1)
  }

  /** Only labels that start with '#' are positional. */
  predicate IsPositional(l: string) {
    StartsWith(l, "#")
  }

  /** Gives every positional label the number of its new position and
      leaves every other field alone. */
  function Renumber(pts: seq<Point>): (r: seq<Point>)
    ensures |r| == |pts|
    ensures forall j :: 0 <= j < |pts| ==>
      r[j].pos == pts[j].pos && r[j].place == pts[j].place
      && r[j].name == (if IsPositional(pts[j].name) then PositionLabel(j) else pts[j].name)
  {
    seq(|pts|, j requires 0 <= j < |pts| =>
      pts[j].(name := if IsPositional(pts[j].name) then PositionLabel(j) else pts[j].name))
  }

  /** Appends a point at the end. A missing or empty user label becomes
      the label of the new last position. */
  function AppendPoint(pts: seq<Point>, at: LatLng, userLabel: string, place: Option<string>): (r: seq<Point>)
    ensures |r| == |pts| + 1
    ensures r[..|pts|] == pts
    ensures r[|pts|].pos == at && r[|pts|].place == place
    ensures r[|pts|].name == (if userLabel == [] then PositionLabel(|pts|) else userLabel)
  {
    pts + [Point(at, if userLabel == [] then PositionLabel(|pts|) else userLabel, place)]
  }

  /** The list without the element at index `i` (unchanged when `i` is not
      an index of the list). */
  function RemoveAt<T>(s: seq<T>, i: int): (r: seq<T>)
    ensures 0 <= i < |s| ==>
      && |r| == |s| - 1
      && (forall j :: 0 <= j < |r| ==> r[j] == s[if j < i then j else j + 1])
    ensures !(0 <= i < |s|) ==> r == s
  {
    if 0 <= i < |s| then s[..i] + s[i + 1..] else s
  }

  /** `deletePoint(i)`: the other points stay in order, and positional
      labels are renumbered by their new position. */
  function DeletePoint(pts: seq<Point>, i: int): (r: seq<Point>)
    ensures 0 <= i < |pts| ==> |r| == |pts| - 1
    ensures !(0 <= i < |pts|) ==> |r| == |pts|
    ensures forall j :: 0 <= j < |r| ==>
      var old_ := pts[if 0 <= i <= j then j + 1 else j];
      r[j].pos == old_.pos && r[j].place == old_.place
      && r[j].name == (if IsPositional(old_.name) then PositionLabel(j) else old_.name)
  {
    Renumber(RemoveAt(pts, i))
  }

  /** `renamePoint(i)`: a cancelled prompt leaves the list as it is; an
      empty answer restores the positional label of entry `i`; no other
      entry changes. */
  function RenamePoint(pts: seq<Point>, i: int, answer: Option<string>): (r: seq<Point>)
    ensures answer.None? ==> r == pts
    ensures |r| == |pts|
    ensures forall j :: 0 <= j < |pts| && j != i ==> r[j] == pts[j]
    ensures answer.Some? && 0 <= i < |pts| ==>
      r[i] == pts[i].(name := if answer.value == [] then PositionLabel(i) else answer.value)
  {
    match answer
    case None => pts
    case Some(l) =>
      seq(|pts|, j requires 0 <= j < |pts| =>
        if j == i then pts[j].(name := if l == [] then PositionLabel(j) else l) else pts[j])
  }

  /** Moves the element at `src` to index `dst`, shifting the ones in
      between; the others keep their relative order. */
  function Move<T>(s: seq<T>, src: nat, dst: nat): (r: seq<T>)
    requires src < |s| && dst < |s|
    ensures |r| == |s|
    ensures r[dst] == s[src]
    ensures multiset(r) == multiset(s)
    ensures RemoveAt(r, dst) == RemoveAt(s, src)
  {
    var x := s[src];
    var rest := s[..src] + s[src + 1..];
    assert s == s[..src] + [x] + s[src + 1..];
    assert multiset(s) == multiset(rest) + multiset{x};
    var r := rest[..dst] + [x] + rest[dst..];
    assert rest == rest[..dst] + rest[dst..];
    assert r[..dst] == rest[..dst];
    assert r[dst + 1..] == rest[dst..];
    r
  }

  /** `onDragEnd`: no destination leaves the list alone; otherwise the
      dragged point lands at the destination index, the result is a
      permutation of the points up to labels, and positional labels follow
      the new positions. */
  function OnDragEnd(pts: seq<Point>, src: nat, dst: Option<nat>): (r: seq<Point>)
    requires src < |pts|
    requires dst.Some? ==> dst.value < |pts|
    ensures dst.None? ==> r == pts
    ensures dst.Some? ==> r == Renumber(Move(pts, src, dst.value))
    ensures dst.Some? ==> r[dst.value].pos == pts[src].pos && r[dst.value].place == pts[src].place
  {
    match dst
    case None => pts
    case Some(d) => Renumber(Move(pts, src, d))
  }

  /** Appending and then deleting the new last point gives back the list
      after renumbering: the two edits undo each other. */
  lemma AppendThenDelete(pts: seq<Point>, at: LatLng, userLabel: string, place: Option<string>)
    ensures DeletePoint(AppendPoint(pts, at, userLabel, place), |pts|) == Renumber(pts)
  {
    var a := AppendPoint(pts, at, userLabel, place);
    assert RemoveAt(a, |pts|) == pts;
  }

  /** Renumbering is idempotent: labels that are already positional keep
      their text. */
  lemma RenumberIdempotent(pts: seq<Point>)
    ensures Renumber(Renumber(pts)) == Renumber(pts)
  {
    var r := Renumber(pts);
    forall j | 0 <= j < |pts| ensures Renumber(r)[j] == r[j] {
      if IsPositional(pts[j].name) {
        assert IsPositional(PositionLabel(j));
      }
    }
  }

  // -----------------------------------------------------------------------
  // Reset when fewer than two points remain

  datatype Mode = HalfwayMode | RouteMode

  /** The route-related state recomputed when the points or mode change. */
  datatype RouteState = RouteState(
    central: Option<Point>,
    routesToCentral: seq<real>,
    routeGeometry: Option<seq<LatLng>>,
    totalDuration: Option<real>,
    totalDistance: Option<real>,
    legs: seq<real>,
    loading: bool)

  /** The synchronous part of the recompute effect: with fewer than two
      points every result is cleared and nothing is loading; otherwise a
      load starts, and route mode drops the central point and its routes. */
  function OnPointsChanged(st: RouteState, pts: seq<Point>, mode: Mode): (r: RouteState)
    ensures |pts| < 2 ==>
      && r.central.None? && r.routesToCentral == [] && r.routeGeometry.None?
      && r.totalDuration.None? && r.totalDistance.None? && r.legs == [] && !r.loading
    ensures |pts| >= 2 ==>
      && r.loading
      && r.routeGeometry == st.routeGeometry && r.totalDuration == st.totalDuration
      && r.totalDistance == st.totalDistance && r.legs == st.legs
    ensures |pts| >= 2 && mode == RouteMode ==> r.central.None? && r.routesToCentral == []
    ensures |pts| >= 2 && mode == HalfwayMode ==> r.central == st.central && r.routesToCentral == st.routesToCentral
  {
    if |pts| < 2 then RouteState(None, [], None, None, None, [], false)
    else if mode == RouteMode then st.(loading := true, central := None, routesToCentral := [])
    else st.(loading := true)
  }

  // -----------------------------------------------------------------------
  // Choosing the central point

  /** Largest entry of a non-empty row (`Math.max(...row)`). */
  function RowMax(row: seq<nat>): (m: nat)
    requires |row| > 0
    ensures m in row
    ensures forall k :: 0 <= k < |row| ==> row[k] <= m
  {
    if |row| == 1 then row[0]
    else
      var rest := RowMax(row[1..]);
      assert rest in row;
      if row[0] >= rest then row[0] else rest
  }

  /** An entry no smaller than any other is the row's largest. */
  lemma RowMaxAt(row: seq<nat>, k: nat)
    requires k < |row|
    requires forall j :: 0 <= j < |row| ==> row[j] <= row[k]
    ensures RowMax(row) == row[k]
  {
    var m := RowMax(row);
    var i :| 0 <= i < |row| && row[i] == m;
  }

  /** `k` is the first index holding the smallest value of `vals`. */
  predicate IsFirstArgMin(vals: seq<nat>, k: nat) {
    k < |vals|
    && (forall j :: 0 <= j < |vals| ==> vals[k] <= vals[j])
    && (forall j :: 0 <= j < k ==> vals[j] > vals[k])
  }

  /** A travel-time table as the routing service returns it: one row per
      source point, one column per candidate. */
  predicate IsTable(durations: seq<seq<nat>>, columns: nat) {
    forall i :: 0 <= i < |durations| ==> |durations[i]| == columns
  }

  function RowMaxes(durations: seq<seq<nat>>, columns: nat): (r: seq<nat>)
    requires columns > 0 && IsTable(durations, columns)
    ensures |r| == |durations|
    ensures forall i :: 0 <= i < |r| ==> r[i] == RowMax(durations[i])
  {
    seq(|durations|, i requires 0 <= i < |durations| => RowMax(durations[i]))
  }

  /** Column `j` of the table: every point's travel time to candidate `j`. */
  function Column(durations: seq<seq<nat>>, columns: nat, j: nat): (c: seq<nat>)
    requires j < columns && IsTable(durations, columns)
    ensures |c| == |durations|
    ensures forall i :: 0 <= i < |durations| ==> c[i] == durations[i][j]
  {
    seq(|durations|, i requires 0 <= i < |durations| => durations[i][j])
  }

  /** The worst travel time to candidate `j` over all source points. */
  function ColumnMax(durations: seq<seq<nat>>, columns: nat, j: nat): (m: nat)
    requires j < columns && IsTable(durations, columns)
    ensures forall i :: 0 <= i < |durations| ==> durations[i][j] <= m
    ensures |durations| > 0 ==> m in Column(durations, columns, j)
  {
    if |durations| == 0 then 0 else RowMax(Column(durations, columns, j))
  }

  function ColumnMaxes(durations: seq<seq<nat>>, columns: nat): (r: seq<nat>)
    requires IsTable(durations, columns)
    ensures |r| == columns
    ensures forall j :: 0 <= j < columns ==> r[j] == ColumnMax(durations, columns, j)
  {
    seq(columns, j requires 0 <= j < columns => ColumnMax(durations, columns, j))
  }

  /** Index of the first smallest value: the scan keeps the current best
      and replaces it only on a strictly smaller value, as
      `findCentralPoint`'s loop does with `minMax`. */
  method FirstArgMinIndex(vals: seq<nat>) returns (k: nat)
    requires |vals| > 0
    ensures IsFirstArgMin(vals, k)
  {
    k := 0;
    var i := 1;
    while i < |vals|
      invariant 1 <= i <= |vals|
      invariant IsFirstArgMin(vals[..i], k)
    {
      if vals[i] < vals[k] {
        k := i;
      }
      i := i + 1;
    }
    assert vals[..i] == vals;
  }

  /** The selection loop of `findCentralPoint` as written: row `i` of the
      table belongs to source point `i`, yet a row with a strictly smaller
      maximum selects `candidates[i]`. The first row with the smallest row
      maximum wins; with no rows the centroid is kept, and a row index past
      the candidate list yields `None` (JavaScript's `undefined`). */
  method CentralChoiceAsWritten(durations: seq<seq<nat>>, candidates: seq<LatLng>, centroid: LatLng)
    returns (best: Option<LatLng>)
    requires |candidates| > 0 && IsTable(durations, |candidates|)
    ensures |durations| == 0 ==> best == Some(centroid)
    ensures |durations| > 0 ==> exists k: nat ::
      && IsFirstArgMin(RowMaxes(durations, |candidates|), k)
      && best == (if k < |candidates| then Some(candidates[k]) else None)
  {
    if |durations| == 0 {
      return Some(centroid);
    }
    var k := FirstArgMinIndex(RowMaxes(durations, |candidates|));
    best := if k < |candidates| then Some(candidates[k]) else None;
  }

  /** The evidently intended selection: the candidate whose worst travel
      time over all points (its column maximum) is smallest, the first such
      candidate on ties, and the centroid when there are no points. */
  method CentralChoice(durations: seq<seq<nat>>, candidates: seq<LatLng>, centroid: LatLng)
    returns (best: LatLng)
    requires |candidates| > 0 && IsTable(durations, |candidates|)
    ensures |durations| == 0 ==> best == centroid
    ensures |durations| > 0 ==> exists k: nat ::
      IsFirstArgMin(ColumnMaxes(durations, |candidates|), k) && best == candidates[k]
  {
    if |durations| == 0 {
      return centroid;
    }
    var k := FirstArgMinIndex(ColumnMaxes(durations, |candidates|));
    best := candidates[k];
  }

  /** The example table: two points, each reaching the centroid (column 0)
      in 10 minutes and every other candidate in 1 minute. */
  const ExampleTable: seq<seq<nat>> := [[10, 1, 1, 1, 1], [10, 1, 1, 1, 1]]

  const ExampleCandidates: seq<LatLng> :=
    [LatLng(0.0, 0.0), LatLng(0.05, 0.0), LatLng(-0.05, 0.0), LatLng(0.0, 0.05), LatLng(0.0, -0.05)]

  lemma ExampleRowMaxes()
    ensures IsTable(ExampleTable, 5)
    ensures RowMaxes(ExampleTable, 5) == [10, 10]
  {
    ExampleRowMax();
    var r := RowMaxes(ExampleTable, 5);
    assert r[0] == RowMax([10, 1, 1, 1, 1]);
    assert r[1] == RowMax([10, 1, 1, 1, 1]);
  }

  lemma ExampleRowMax()
    ensures RowMax([10, 1, 1, 1, 1]) == 10
  {
    RowMaxAt([10, 1, 1, 1, 1], 0);
  }

  lemma ExampleColumnMaxes()
    ensures IsTable(ExampleTable, 5)
    ensures ColumnMaxes(ExampleTable, 5)[0] == 10
    ensures ColumnMaxes(ExampleTable, 5)[1] == 1
  {
    assert Column(ExampleTable, 5, 0) == [10, 10];
    RowMaxAt([10, 10], 0);
    assert Column(ExampleTable, 5, 1) == [1, 1];
    RowMaxAt([1, 1], 0);
  }

  /** With the example table the loop as written keeps the centroid, whose
      worst travel time is 10, while candidate 1 reaches everyone in 1. */
  method CentralChoiceCounterexample()
    returns (asWritten: Option<LatLng>, intended: LatLng)
    ensures asWritten == Some(ExampleCandidates[0])
    ensures intended == ExampleCandidates[1]
  {
    ExampleRowMaxes();
    ExampleColumnMaxes();
    asWritten := CentralChoiceAsWritten(ExampleTable, ExampleCandidates, ExampleCandidates[0]);
    assert IsFirstArgMin([10, 10], 0);
    assert forall k: nat :: IsFirstArgMin([10, 10], k) ==> k == 0;
    intended := CentralChoice(ExampleTable, ExampleCandidates, ExampleCandidates[0]);
    var worst := ColumnMaxes(ExampleTable, 5);
    assert forall k: nat :: IsFirstArgMin(worst, k) ==> k == 1 by {
      forall k: nat | IsFirstArgMin(worst, k) ensures k == 1 {
        assert worst[k] <= worst[1];
      }
    }
  }
}

=== FILE: highlight.dfy ===
/** The regex highlighter (app/projects/regex/content.tsx). The regular
    expression engine is not modelled: its matches arrive as an ascending
    list, and a pattern that does not compile arrives as an error message.
    What is modelled is how `highlightText` cuts the text into highlighted
    and plain segments, and what the effect stores. */
module Highlight {
  import opened Wrappers

  datatype Segment = Segment(text: string, highlight: bool)

  /** One match reported by `RegExp.exec`: where it starts and how long it is. */
  datatype Match = Match(index: nat, length: nat)

  /** Where a global search resumes after `m`: at the end of the match, or
      one past an empty match (the loop bumps `lastIndex` itself), so every
      step makes progress. */
  function ResumeAt(m: Match): (r: nat)
    ensures r > m.index
    ensures r >= m.index + m.length
  {
    if m.length == 0 then m.index + 1 else m.index + m.length
  }

  /** The matches a global search over `text` can report: each lies inside
      the text and starts no earlier than the search resumed. */
  predicate IsMatchList(ms: seq<Match>, text: string) {
    (forall k :: 0 <= k < |ms| ==> ms[k].index + ms[k].length <= |text|)
    && (forall i, j :: 0 <= i < |ms| && 0 <= j < |ms| && j == i + 1 ==> ms[j].index >= ResumeAt(ms[i]))
  }

  function MatchText(text: string, m: Match): string
    requires m.index + m.length <= |text|
  {
    text[m.index..m.index + m.length]
  }

  /** The text of every segment, in order, glued together. */
  function Concat(segs: seq<Segment>): string {
    if |segs| == 0 then [] else segs[0].text + Concat(segs[1..])
  }

  /** Texts of the highlighted segments, in order. */
  function HighlightedTexts(segs: seq<Segment>): seq<string> {
    if |segs| == 0 then []
    else (if segs[0].highlight then [segs[0].text] else []) + HighlightedTexts(segs[1..])
  }

  /** Texts of the matches, in order. */
  function MatchTexts(text: string, ms: seq<Match>): (r: seq<string>)
    requires forall k :: 0 <= k < |ms| ==> ms[k].index + ms[k].length <= |text|
    ensures |r| == |ms|
  {
    if |ms| == 0 then [] else [MatchText(text, ms[0])] + MatchTexts(text, ms[1..])
  }

  predicate PlainSegmentsNonEmpty(segs: seq<Segment>) {
    forall k :: 0 <= k < |segs| && !segs[k].highlight ==> segs[k].text != []
  }

  /** Where each highlighted segment starts in the glued text, counting
      from offset `at`. */
  function HighlightStarts(segs: seq<Segment>, at: int): seq<int> {
    if |segs| == 0 then []
    else (if segs[0].highlight then [at] else []) + HighlightStarts(segs[1..], at + |segs[0].text|)
  }

  /** Where the matches start, in order. */
  function MatchIndices(ms: seq<Match>): (r: seq<int>)
    ensures |r| == |ms|
    ensures forall k :: 0 <= k < |ms| ==> r[k] == ms[k].index
  {
    if |ms| == 0 then [] else [ms[0].index] + MatchIndices(ms[1..])
  }

  /** No two plain segments follow each other: a gap is never cut in two. */
  predicate NoAdjacentPlain(segs: seq<Segment>) {
    forall i, j :: 0 <= i < |segs| && 0 <= j < |segs| && j == i + 1 ==> segs[i].highlight || segs[j].highlight
  }

  lemma ConcatAppend(a: seq<Segment>, b: seq<Segment>)
    ensures Concat(a + b) == Concat(a) + Concat(b)
  {
    if |a| > 0 {
      assert (a + b)[1..] == a[1..] + b;
    } else {
      assert a + b == b;
    }
  }

  lemma HighlightedAppend(a: seq<Segment>, b: seq<Segment>)
    ensures HighlightedTexts(a + b) == HighlightedTexts(a) + HighlightedTexts(b)
  {
    if |a| > 0 {
      assert (a + b)[1..] == a[1..] + b;
    } else {
      assert a + b == b;
    }
  }

  lemma PlainAppend(a: seq<Segment>, b: seq<Segment>)
    requires PlainSegmentsNonEmpty(a) && PlainSegmentsNonEmpty(b)
    ensures PlainSegmentsNonEmpty(a + b)
  {
    forall k | 0 <= k < |a + b| && !(a + b)[k].highlight
      ensures (a + b)[k].text != []
    {
      if k >= |a| {
        assert (a + b)[k] == b[k - |a|];
      }
    }
  }

  lemma {:induction false} StartsAppend(a: seq<Segment>, b: seq<Segment>, at: int)
    ensures HighlightStarts(a + b, at) == HighlightStarts(a, at) + HighlightStarts(b, at + |Concat(a)|)
    decreases |a|
  {
    if |a| > 0 {
      var head: seq<int> := if a[0].highlight then [at] else [];
      assert (a + b)[0] == a[0];
      assert (a + b)[1..] == a[1..] + b;
      StartsAppend(a[1..], b, at + |a[0].text|);
      assert Concat(a) == a[0].text + Concat(a[1..]);
      assert HighlightStarts(a + b, at) == head + HighlightStarts(a[1..] + b, at + |a[0].text|);
      assert HighlightStarts(a, at) == head + HighlightStarts(a[1..], at + |a[0].text|);
    } else {
      assert a + b == b;
    }
  }

  lemma AdjacentAppend(a: seq<Segment>, b: seq<Segment>)
    requires NoAdjacentPlain(a) && NoAdjacentPlain(b)
    requires |a| > 0 ==> a[|a| - 1].highlight
    ensures NoAdjacentPlain(a + b)
  {
    forall k, j | 0 <= k < |a + b| && 0 <= j < |a + b| && j == k + 1
      ensures (a + b)[k].highlight || (a + b)[j].highlight
    {
      if k >= |a| {
        assert (a + b)[k] == b[k - |a|] && (a + b)[k + 1] == b[k + 1 - |a|];
      } else if k + 1 < |a| {
        assert (a + b)[k] == a[k] && (a + b)[k + 1] == a[k + 1];
      } else {
        assert (a + b)[k] == a[|a| - 1];
      }
    }
  }

  /** The matches after the first are a match list that starts no earlier
      than the search resumes. */
  lemma MatchListTail(ms: seq<Match>, text: string)
    requires IsMatchList(ms, text) && |ms| > 0
    ensures IsMatchList(ms[1..], text)
    ensures |ms| > 1 ==> ms[1].index >= ms[0].index + ms[0].length
  {
    forall i, j | 0 <= i < j < |ms[1..]| && j == i + 1
      ensures ms[1..][j].index >= ResumeAt(ms[1..][i])
    {
      assert ms[1..][j] == ms[j + 1] && ms[1..][i] == ms[i + 1];
    }
    if |ms| > 1 {
      assert ms[1].index >= ResumeAt(ms[0]);
    }
  }

  /** What one match contributes: a plain segment for any gap since
      `last`, then the match itself, highlighted. */
  function Piece(text: string, last: nat, m: Match): (p: seq<Segment>)
    requires last <= m.index && m.index + m.length <= |text|
    ensures Concat(p) == text[last..m.index + m.length]
    ensures PlainSegmentsNonEmpty(p)
    ensures HighlightedTexts(p) == [MatchText(text, m)]
  {
    var gap := if m.index > last then [Segment(text[last..m.index], false)] else [];
    var hit := [Segment(MatchText(text, m), true)];
    ConcatAppend(gap, hit);
    HighlightedAppend(gap, hit);
    assert text[last..m.index + m.length] == text[last..m.index] + MatchText(text, m);
    gap + hit
  }

  /** A piece ends on its highlighted match, so it never ends plain. */
  lemma PieceShape(text: string, last: nat, m: Match)
    requires last <= m.index && m.index + m.length <= |text|
    ensures NoAdjacentPlain(Piece(text, last, m))
    ensures |Piece(text, last, m)| > 0 && Piece(text, last, m)[|Piece(text, last, m)| - 1].highlight
  {
  }

  /** The match of a piece starts at the match's index. */
  lemma PieceStarts(text: string, last: nat, m: Match)
    requires last <= m.index && m.index + m.length <= |text|
    ensures HighlightStarts(Piece(text, last, m), last) == [m.index]
  {
    var gap := if m.index > last then [Segment(text[last..m.index], false)] else [];
    var hit := [Segment(MatchText(text, m), true)];
    assert Piece(text, last, m) == gap + hit;
    StartsAppend(gap, hit, last);
  }

  /** Gluing a piece to the segments after it keeps the start offsets. */
  lemma PieceThenRestStarts(text: string, last: nat, ms: seq<Match>, segs: seq<Segment>, p: seq<Segment>, rest: seq<Segment>)
    requires |ms| > 0 && last <= ms[0].index && ms[0].index + ms[0].length <= |text|
    requires segs == p + rest
    requires Concat(p) == text[last..ms[0].index + ms[0].length]
    requires HighlightStarts(p, last) == [ms[0].index]
    requires HighlightStarts(rest, ms[0].index + ms[0].length) == MatchIndices(ms[1..])
    ensures HighlightStarts(segs, last) == MatchIndices(ms)
  {
    StartsAppend(p, rest, last);
  }

  /** The loop of `highlightText` from position `last` on: a plain segment
      for any gap before the next match, the match itself highlighted, and
      after the last match a plain segment for any remaining text. */
  function SegmentsFrom(text: string, ms: seq<Match>, last: nat): (segs: seq<Segment>)
    requires last <= |text|
    requires IsMatchList(ms, text)
    requires |ms| > 0 ==> ms[0].index >= last
    ensures Concat(segs) == text[last..]
    ensures HighlightedTexts(segs) == MatchTexts(text, ms)
    decreases |ms|
  {
    if |ms| == 0 then
      if last < |text| then [Segment(text[last..], false)] else []
    else
      var m := ms[0];
      var p := Piece(text, last, m);
      MatchListTail(ms, text);
      var rest := SegmentsFrom(text, ms[1..], m.index + m.length);
      ConcatAppend(p, rest);
      HighlightedAppend(p, rest);
      assert text[last..] == text[last..m.index + m.length] + text[m.index + m.length..];
      p + rest
  }

  /** One turn of the loop: the first match's piece, then the rest. */
  lemma SegmentsFromStep(text: string, ms: seq<Match>, last: nat)
    requires last <= |text|
    requires IsMatchList(ms, text)
    requires |ms| > 0 && ms[0].index >= last
    ensures IsMatchList(ms[1..], text)
    ensures |ms| > 1 ==> ms[1].index >= ms[0].index + ms[0].length
    ensures SegmentsFrom(text, ms, last)
      == Piece(text, last, ms[0]) + SegmentsFrom(text, ms[1..], ms[0].index + ms[0].length)
  {
    MatchListTail(ms, text);
  }

  /** One turn of the loop keeps plain segments non-empty and apart. */
  lemma PlainStep(text: string, ms: seq<Match>, last: nat)
    requires last <= |text|
    requires IsMatchList(ms, text)
    requires |ms| > 0 && ms[0].index >= last
    requires IsMatchList(ms[1..], text)
    requires |ms| > 1 ==> ms[1].index >= ms[0].index + ms[0].length
    requires PlainSegmentsNonEmpty(SegmentsFrom(text, ms[1..], ms[0].index + ms[0].length))
    requires NoAdjacentPlain(SegmentsFrom(text, ms[1..], ms[0].index + ms[0].length))
    ensures PlainSegmentsNonEmpty(SegmentsFrom(text, ms, last))
    ensures NoAdjacentPlain(SegmentsFrom(text, ms, last))
  {
    var p := Piece(text, last, ms[0]);
    var rest := SegmentsFrom(text, ms[1..], ms[0].index + ms[0].length);
    SegmentsFromStep(text, ms, last);
    PieceShape(text, last, ms[0]);
    PlainAppend(p, rest);
    AdjacentAppend(p, rest);
  }

  /** The loop's plain segments are never empty and never meet. */
  lemma {:induction false} SegmentsFromPlain(text: string, ms: seq<Match>, last: nat)
    requires last <= |text|
    requires IsMatchList(ms, text)
    requires |ms| > 0 ==> ms[0].index >= last
    ensures PlainSegmentsNonEmpty(SegmentsFrom(text, ms, last))
    ensures NoAdjacentPlain(SegmentsFrom(text, ms, last))
    decreases |ms|
  {
    if |ms| > 0 {
      MatchListTail(ms, text);
      SegmentsFromPlain(text, ms[1..], ms[0].index + ms[0].length);
      PlainStep(text, ms, last);
    }
  }

  /** One turn of the loop keeps the start offsets: if the rest starts its
      highlights at the remaining matches, the whole does at all of them. */
  lemma StartsStep(text: string, ms: seq<Match>, last: nat)
    requires last <= |text|
    requires IsMatchList(ms, text)
    requires |ms| > 0 && ms[0].index >= last
    requires IsMatchList(ms[1..], text)
    requires |ms| > 1 ==> ms[1].index >= ms[0].index + ms[0].length
    requires HighlightStarts(SegmentsFrom(text, ms[1..], ms[0].index + ms[0].length), ms[0].index + ms[0].length)
      == MatchIndices(ms[1..])
    ensures HighlightStarts(SegmentsFrom(text, ms, last), last) == MatchIndices(ms)
  {
    var p := Piece(text, last, ms[0]);
    var rest := SegmentsFrom(text, ms[1..], ms[0].index + ms[0].length);
    SegmentsFromStep(text, ms, last);
    PieceStarts(text, last, ms[0]);
    PieceThenRestStarts(text, last, ms, SegmentsFrom(text, ms, last), p, rest);
  }

  /** The loop's highlighted segments start at the matches' indices. */
  lemma {:induction false} SegmentsFromStarts(text: string, ms: seq<Match>, last: nat)
    requires last <= |text|
    requires IsMatchList(ms, text)
    requires |ms| > 0 ==> ms[0].index >= last
    ensures HighlightStarts(SegmentsFrom(text, ms, last), last) == MatchIndices(ms)
    decreases |ms|
  {
    if |ms| > 0 {
      MatchListTail(ms, text);
      SegmentsFromStarts(text, ms[1..], ms[0].index + ms[0].length);
      StartsStep(text, ms, last);
    }
  }

  /** `highlightText`: the segments glue back to exactly the input text,
      no plain segment is empty and no gap is cut in two, and the
      highlighted segments are exactly the matches in order, each starting
      where its match starts. Together these leave one possible cut. */
  function HighlightText(text: string, ms: seq<Match>): (segs: seq<Segment>)
    requires IsMatchList(ms, text)
    ensures Concat(segs) == text
    ensures PlainSegmentsNonEmpty(segs)
    ensures NoAdjacentPlain(segs)
    ensures HighlightedTexts(segs) == MatchTexts(text, ms)
    ensures HighlightStarts(segs, 0) == MatchIndices(ms)
    ensures |HighlightedTexts(segs)| == |ms|
  {
    SegmentsFromPlain(text, ms, 0);
    SegmentsFromStarts(text, ms, 0);
    SegmentsFrom(text, ms, 0)
  }

  /** What the effect stores after the pattern or paragraph changes. */
  datatype View = View(segments: seq<Segment>, matchCount: nat, error: Option<string>)

  /** The effect: a pattern that compiles gives its segments, their count
      of highlighted ones and no error; one that does not compile gives a
      single plain segment holding the whole text, a count of 0, and the
      error message. */
  function Recompute(text: string, compiled: Result<seq<Match>, string>): (v: View)
    requires compiled.Success? ==> IsMatchList(compiled.value, text)
    ensures compiled.Success? ==>
      && Concat(v.segments) == text
      && PlainSegmentsNonEmpty(v.segments)
      && NoAdjacentPlain(v.segments)
      && HighlightedTexts(v.segments) == MatchTexts(text, compiled.value)
      && HighlightStarts(v.segments, 0) == MatchIndices(compiled.value)
      && v.matchCount == |compiled.value|
      && v.error.None?
    ensures compiled.Failure? ==>
      v == View([Segment(text, false)], 0, Some(compiled.error))
  {
    match compiled
    case Success(ms) =>
      var segs := HighlightText(text, ms);
      View(segs, |HighlightedTexts(segs)|, None)
    case Failure(msg) => View([Segment(text, false)], 0, Some(msg))
  }
}

=== FILE: image_generation.dfy ===
/** The text-to-image page (app/projects/image_generation/content.tsx):
    validation of the prompt and token, the request it sends, and the
    prompt history kept after a successful generation. The HTTP request is
    not modelled: its outcome is a parameter. */
module ImageGeneration {
  import opened Wrappers
  import opened Text

  const ValidationMessage: string := "Enter a prompt and HuggingFace token."
  const Model: string := "stabilityai/stable-diffusion-xl-base-1.0"
  const HistoryLimit: nat := 5

  datatype Generator = Generator(
    prompt: string,
    token: string,
    loading: bool,
    imageUrl: Option<string>,
    error: Option<string>,
    history: seq<string>)

  /** What is posted: the prompt as typed, the model, and the token. */
  datatype Request = Request(prompt: string, model: string, token: string)

  /** `!s.trim()`: empty or whitespace only. */
  predicate Blank(s: string) {
    Trim(s) == []
  }

  /** The Generate button is disabled while a request runs or when either
      field is blank. */
  predicate ButtonDisabled(g: Generator) {
    g.loading || Blank(g.prompt) || Blank(g.token)
  }

  /** First half of `handleGenerate`: a blank prompt or token sets the
      validation error and sends nothing; otherwise loading starts, the
      error clears and the request is sent. */
  function StartGenerate(g: Generator): (r: (Generator, Option<Request>))
    ensures Blank(g.prompt) || Blank(g.token) ==>
      r.1.None? && r.0 == g.(error := Some(ValidationMessage))
    ensures !Blank(g.prompt) && !Blank(g.token) ==>
      && r.1 == Some(Request(g.prompt, Model, g.token))
      && r.0 == g.(loading := true, error := None)
    ensures AllSpace(g.prompt) ==> r.1.None?
  {
    if Blank(g.prompt) || Blank(g.token) then (g.(error := Some(ValidationMessage)), None)
    else (g.(loading := true, error := None), Some(Request(g.prompt, Model, g.token)))
  }

  /** An enabled button always leads to a request. */
  lemma EnabledButtonSends(g: Generator)
    requires !ButtonDisabled(g)
    ensures StartGenerate(g).1.Some?
  {
  }

  /** No prompt occurs twice. */
  predicate NoDuplicates(h: seq<string>) {
    forall i, j :: 0 <= i < j < |h| ==> h[i] != h[j]
  }

  /** The history update: a prompt already in the history changes
      nothing; a new one goes to the front, followed by at most four of
      the previous entries. */
  function RecordPrompt(h: seq<string>, p: string): (r: seq<string>)
    ensures p in h ==> r == h
    ensures p !in h ==> |r| >= 1 && r[0] == p && r[1..] == h[..if |h| < 4 then |h| else 4]
    ensures p !in h ==> |r| <= HistoryLimit
    ensures p in r
    ensures NoDuplicates(h) ==> NoDuplicates(r)
  {
    if p in h then h
    else
      var r := [p] + h[..if |h| < 4 then |h| else 4];
      assert forall k :: 1 <= k < |r| ==> r[k] in h;
      r
  }

  /** A history never grows past five entries. */
  lemma HistoryBounded(h: seq<string>, p: string)
    requires |h| <= HistoryLimit
    ensures |RecordPrompt(h, p)| <= HistoryLimit
  {
  }

  /** Second half of `handleGenerate`: success shows the image and records
      the prompt; failure shows the message and leaves the history alone.
      Loading ends either way. */
  function FinishGenerate(g: Generator, outcome: Result<string, string>): (r: Generator)
    ensures !r.loading
    ensures r.prompt == g.prompt && r.token == g.token
    ensures outcome.Success? ==>
      r.imageUrl == Some(outcome.value) && r.history == RecordPrompt(g.history, g.prompt) && r.error == g.error
    ensures outcome.Failure? ==>
      r.history == g.history && r.error == Some(outcome.error) && r.imageUrl == g.imageUrl
  {
    match outcome
    case Success(url) => g.(loading := false, imageUrl := Some(url), history := RecordPrompt(g.history, g.prompt))
    case Failure(msg) => g.(loading := false, error := Some(msg))
  }
}

=== FILE: media_player.dfy ===
/** The media player page (app/projects/media_player/content.tsx): time
    formatting, the video test on a track's URL, the progress and slider
    values, the volume and mute logic, and what each control asks the
    player to do. The player itself (a media element behind a
    publish-subscribe store) is not modelled: its state is an input and
    each control's effect on it is returned as a `Command`. Times and
    volumes are exact reals. */
module MediaPlayer {
  import opened Wrappers
  import opened Text

  /** Volume restored by unmuting when the saved volume is 0. */
  const DefaultUnmuteVolume: real := 0.7

  /** Seconds skipped by the arrow keys. */
  const SeekStep: real := 5.0

  // -----------------------------------------------------------------------
  // `pad` and `fmt`

  /** `String(n).padStart(2, '0')` for a whole number: at least two
      digits, reading back as `n`. */
  function Pad(n: nat): (r: string)
    ensures |r| >= 2
    ensures forall k :: 0 <= k < |r| ==> IsDigit(r[k])
    ensures ParseNat(r) == n
    ensures n < 100 <==> |r| == 2
  {
    var digits := NatToString(n);
    ParseNatToString(n);
    if n < 10 then
      var r := ['0', digits[0]];
      assert r[..1] == ['0'] && ['0'][..0] == [];
      r
    else
      assert n < 100 ==> |NatToString(n / 10)| == 1;
      assert |digits| == 2 ==> n / 10 < 10;
      digits
  }

  lemma FloorShift(x: real, k: int)
    ensures (x + k as real).Floor == x.Floor + k
  {
  }

  /** Whole minutes and the seconds left over, of a non-negative time. */
  function ClockParts(s: real): (p: (nat, nat))
    requires s >= 0.0
    ensures p.1 < 60
    ensures p.0 * 60 + p.1 == s.Floor
  {
    var m := (s / 60.0).Floor;
    var rem := s - 60.0 * m as real;
    FloorShift(rem, 60 * m);
    (m, rem.Floor)
  }

  /** `fmt`: minutes and seconds, each padded to two digits, joined by a
      colon. */
  function Fmt(s: real): (r: string)
    requires s >= 0.0
    ensures exists m: nat, sec: nat :: sec < 60 && m * 60 + sec == s.Floor && r == Pad(m) + ":" + Pad(sec)
  {
    var p := ClockParts(s);
    Pad(p.0) + ":" + Pad(p.1)
  }

  /** Reads "mm:ss" back as whole seconds; the reference reading of `Fmt`. */
  function ParseClock(t: string): Option<nat> {
    var parts := Split(t, ':');
    if |parts| == 2 && (forall k :: 0 <= k < |parts[0]| ==> IsDigit(parts[0][k]))
      && (forall k :: 0 <= k < |parts[1]| ==> IsDigit(parts[1][k]))
    then Some(ParseNat(parts[0]) * 60 + ParseNat(parts[1]))
    else None
  }

  /** The displayed time reads back as the whole seconds of the time. */
  lemma FmtRoundTrip(s: real)
    requires s >= 0.0
    ensures ParseClock(Fmt(s)) == Some(s.Floor)
  {
    var p := ClockParts(s);
    var a := Pad(p.0);
    var b := Pad(p.1);
    assert Fmt(s) == Join([a, b], [':']);
    SplitJoin([a, b], ':');
  }

  // -----------------------------------------------------------------------
  // `isVideoUrl`

  /** `/\.(mp4|webm|mov|avi)$/i`: the URL ends in one of the four video
      extensions, in any letter case. */
  predicate IsVideoUrl(url: string)
    ensures IsVideoUrl(url) ==> |url| >= 4
    ensures EndsWith(url, ".mp4") || EndsWith(url, ".MOV") ==> IsVideoUrl(url)
  {
    var u := ToLower(url);
    assert EndsWith(url, ".mp4") ==> u[|u| - 4..] == ".mp4";
    assert EndsWith(url, ".MOV") ==> u[|u| - 4..] == ".mov";
    EndsWith(u, ".mp4") || EndsWith(u, ".webm") || EndsWith(u, ".mov") || EndsWith(u, ".avi")
  }

  lemma LowerUpper(c: char)
    ensures LowerChar(UpperChar(c)) == LowerChar(c)
  {
  }

  /** The test ignores letter case: upper-casing the URL changes nothing. */
  lemma IsVideoUrlIgnoresCase(url: string)
    ensures IsVideoUrl(ToUpper(url)) == IsVideoUrl(url)
  {
    forall k | 0 <= k < |url| ensures ToLower(ToUpper(url))[k] == ToLower(url)[k] {
      LowerUpper(url[k]);
    }
    assert ToLower(ToUpper(url)) == ToLower(url);
  }

  // -----------------------------------------------------------------------
  // Progress and sliders

  lemma MulPositive(a: real, b: real)
    requires a > 0.0 && b > 0.0
    ensures a * b > 0.0
  {
  }

  /** A share of a positive whole is non-negative when the share is, and
      at most 1 when the share is at most the whole. */
  lemma QuotientInUnit(x: real, d: real)
    requires d > 0.0
    ensures 0.0 <= x ==> 0.0 <= x / d
    ensures x <= d ==> x / d <= 1.0
  {
    var q := x / d;
    assert q * d == x;
    if q > 1.0 {
      MulPositive(q - 1.0, d);
    }
    if q < 0.0 {
      MulPositive(-q, d);
    }
  }

  /** Fraction of the track played; 0 while the duration is unknown. */
  function Progress(currentTime: real, duration: real): (r: real)
    ensures duration <= 0.0 ==> r == 0.0
    ensures duration > 0.0 ==> r * duration == currentTime
    ensures duration > 0.0 && 0.0 <= currentTime <= duration ==> 0.0 <= r <= 1.0
  {
    if duration > 0.0 then
      QuotientInUnit(currentTime, duration);
      currentTime / duration
    else 0.0
  }

  /** `Math.max(0, Math.min(1, x))`: the slider position of the mouse. */
  function Clamp01(x: real): (r: real)
    ensures 0.0 <= r <= 1.0
    ensures 0.0 <= x <= 1.0 ==> r == x
    ensures x < 0.0 ==> r == 0.0
    ensures x > 1.0 ==> r == 1.0
  {
    if x < 0.0 then 0.0 else if x > 1.0 then 1.0 else x
  }

  /** What the page asks the player to do. */
  datatype Command = NoOp | Play | Pause | PlayTrack(index: nat) | Seek(to: real)

  /** Dragging the scrubber to position `v` seeks to that fraction of the
      track. */
  function HandleSeek(duration: real, v: real): (c: Command)
    ensures c.Seek? && c.to == duration * v
    ensures 0.0 <= v <= 1.0 && duration >= 0.0 ==> 0.0 <= c.to <= duration
  {
    Seek(duration * v)
  }

  // -----------------------------------------------------------------------
  // Volume and mute

  /** `volume`, `muted`, the saved volume `prevVol`, and the last volume
      handed to the player. */
  datatype Audio = Audio(volume: real, muted: bool, prevVol: real, output: real)

  /** `handleVolume`: the new volume is shown and handed to the player, and
      the player counts as muted exactly when it is 0. */
  function HandleVolume(a: Audio, v: real): (r: Audio)
    ensures r.volume == v && r.output == v
    ensures r.muted <==> v == 0.0
    ensures r.prevVol == a.prevVol
  {
    Audio(v, v == 0.0, a.prevVol, v)
  }

  /** `toggleMute`: muting saves the volume and silences the player;
      unmuting restores the saved volume, or 0.7 when the saved volume is
      0. */
  function ToggleMute(a: Audio): (r: Audio)
    ensures r.muted == !a.muted
    ensures !a.muted ==> r.volume == 0.0 && r.output == 0.0 && r.prevVol == a.volume
    ensures a.muted ==> r.prevVol == a.prevVol && r.output == r.volume
    ensures a.muted && a.prevVol != 0.0 ==> r.volume == a.prevVol
    ensures a.muted && a.prevVol == 0.0 ==> r.volume == DefaultUnmuteVolume
  {
    if a.muted then
      var restore := if a.prevVol != 0.0 then a.prevVol else DefaultUnmuteVolume;
      Audio(restore, false, a.prevVol, restore)
    else
      Audio(0.0, true, a.volume, 0.0)
  }

  /** Muting and unmuting gives back the volume the player had, unless it
      was 0, in which case it comes back at 0.7. */
  lemma MuteUnmute(a: Audio)
    requires !a.muted
    ensures ToggleMute(ToggleMute(a)).volume == (if a.volume != 0.0 then a.volume else DefaultUnmuteVolume)
    ensures !ToggleMute(ToggleMute(a)).muted
  {
  }

  // -----------------------------------------------------------------------
  // Track navigation and keys

  /** `prevTrack`: does nothing on the first track, otherwise plays the one
      before. */
  function PrevTrack(current: nat): (c: Command)
    ensures current == 0 ==> c == NoOp
    ensures current > 0 ==> c == PlayTrack(current - 1)
  {
    if current > 0 then PlayTrack(current - 1) else NoOp
  }

  /** `nextTrack`: does nothing on the last track, otherwise plays the next
      one. */
  function NextTrack(current: nat, count: nat): (c: Command)
    ensures current + 1 >= count ==> c == NoOp
    ensures current + 1 < count ==> c == PlayTrack(current + 1) && c.index < count
  {
    if current < count - 1 then PlayTrack(current + 1) else NoOp
  }

  /** From a track other than the first, going back and then forward
      returns to it. */
  lemma PrevThenNext(current: nat, count: nat)
    requires 0 < current < count
    ensures NextTrack(PrevTrack(current).index, count) == PlayTrack(current)
  {
  }

  datatype Key = Space | ArrowRight | ArrowLeft | OtherKey

  /** The keyboard handler: nothing while typing in an input; space
      toggles playback; the arrows seek five seconds, never past the end
      or before the start. */
  function KeyCommand(key: Key, inInput: bool, playing: bool, currentTime: real, duration: real): (c: Command)
    ensures inInput || key == OtherKey ==> c == NoOp
    ensures !inInput && key == Space ==> c == (if playing then Pause else Play)
    ensures !inInput && key == ArrowRight ==>
      c.Seek? && c.to <= duration && c.to <= currentTime + SeekStep
      && (c.to == duration || c.to == currentTime + SeekStep)
    ensures !inInput && key == ArrowLeft ==>
      c.Seek? && c.to >= 0.0 && c.to >= currentTime - SeekStep
      && (c.to == 0.0 || c.to == currentTime - SeekStep)
    ensures c.Seek? && 0.0 <= currentTime <= duration ==> 0.0 <= c.to <= duration
  {
    if inInput then NoOp
    else match key
      case Space => if playing then Pause else Play
      case ArrowRight => Seek(if currentTime + SeekStep < duration then currentTime + SeekStep else duration)
      case ArrowLeft => Seek(if currentTime - SeekStep > 0.0 then currentTime - SeekStep else 0.0)
      case OtherKey => NoOp
  }

  /** Five seconds forward and then five seconds back returns to the same
      moment, as long as the step forward did not hit the end. */
  lemma SeekForwardThenBack(playing: bool, currentTime: real, duration: real)
    requires 0.0 <= currentTime && currentTime + SeekStep <= duration
    ensures KeyCommand(ArrowLeft, false, playing, KeyCommand(ArrowRight, false, playing, currentTime, duration).to, duration)
      == Seek(currentTime)
  {
  }

  /** A click on playlist row `i`: the active row toggles playback, any
      other row starts its track. */
  function RowClick(i: nat, current: nat, playing: bool): (c: Command)
    ensures i == current ==> c == (if playing then Pause else Play)
    ensures i != current ==> c == PlayTrack(i)
  {
    if i == current then (if playing then Pause else Play) else PlayTrack(i)
  }
}

=== FILE: profile.dfy ===
/** The years-spent figure on the profile page (app/profile/content.tsx,
    `getYearsSpent`). Parsing the start date and reading the clock are not
    modelled: both dates arrive as a year and a zero-based month, as
    `getFullYear` and `getMonth` return them.

    As written, the helper takes the difference of the years and subtracts
    one whenever the months are more than six apart, in either direction.
    The comment beside it says that more than six months count as a full
    year, so the evidently intended figure is the elapsed time in whole
    years with a remainder of more than six months rounded up.
    `YearsSpentAsWritten` models the code; `YearsSpent` is the intended
    figure. */
module Profile {

  /** A calendar month: `getFullYear()` and `getMonth()` (0 = January). */
  datatype YearMonth = YearMonth(year: int, month: int)

  predicate Valid(d: YearMonth) {
    0 <= d.month < 12
  }

  function Abs(x: int): (r: int)
    ensures r >= 0 && (r == x || r == -x)
  {
    if x < 0 then -x else x
  }

  /** `getYearsSpent` as written. */
  function YearsSpentAsWritten(start: YearMonth, now: YearMonth): (r: int)
    ensures r == now.year - start.year || r == now.year - start.year - 1
    ensures r == now.year - start.year - 1 <==> Abs(now.month - start.month) > 6
    ensures start.month == now.month ==> r == now.year - start.year
  {
    var yearsSpent := now.year - start.year;
    var monthDifference := Abs(now.month - start.month);
    if monthDifference > 6 then yearsSpent - 1 else yearsSpent
  }

  /** The month test does not look at the direction: `k` months after the
      start month and `k` months before it give the same figure. */
  lemma AsWrittenIgnoresDirection(start: YearMonth, year: int, k: int)
    ensures YearsSpentAsWritten(start, YearMonth(year, start.month + k))
         == YearsSpentAsWritten(start, YearMonth(year, start.month - k))
  {
  }

  /** Months elapsed from `start` to `now`. */
  function ElapsedMonths(start: YearMonth, now: YearMonth): int {
    12 * (now.year - start.year) + (now.month - start.month)
  }

  /** The intended figure: elapsed whole years, a remainder of more than
      six months counting as one more year. The result is the one number
      of years whose span of months (from six months short of it to six
      months past it) holds the elapsed time. */
  function YearsSpent(start: YearMonth, now: YearMonth): (r: int)
    ensures 12 * r - 5 <= ElapsedMonths(start, now) <= 12 * r + 6
  {
    var m := ElapsedMonths(start, now);
    if m % 12 > 6 then m / 12 + 1 else m / 12
  }

  /** The intended figure never decreases as time goes on, and is never
      negative once the start has passed. */
  lemma YearsSpentMonotone(start: YearMonth, now: YearMonth, later: YearMonth)
    requires ElapsedMonths(start, now) <= ElapsedMonths(start, later)
    ensures YearsSpent(start, now) <= YearsSpent(start, later)
    ensures ElapsedMonths(start, now) >= 0 ==> YearsSpent(start, now) >= 0
  {
    var a := YearsSpent(start, now);
    var b := YearsSpent(start, later);
    assert 12 * a - 5 <= 12 * b + 6;
  }

  /** Where the two agree: when the current month is at most six months
      after the start month, from one to five months before it, or more
      than six months before it. */
  lemma AgreementRegion(start: YearMonth, now: YearMonth)
    requires Valid(start) && Valid(now)
    requires -5 <= now.month - start.month <= 6 || now.month - start.month < -6
    ensures YearsSpentAsWritten(start, now) == YearsSpent(start, now)
  {
    var y := now.year - start.year;
    var d := now.month - start.month;
    var m := ElapsedMonths(start, now);
    if d >= 0 {
      assert m == 12 * y + d;
      assert m / 12 == y && m % 12 == d;
    } else {
      assert m == 12 * (y - 1) + (12 + d);
      assert m / 12 == y - 1 && m % 12 == 12 + d;
    }
  }

  /** The inputs that show the discrepancy. Started in January 2022: in
      December 2022 the code reports -1 years, where eleven months make one
      year; started in February 2021, in November 2023 (two years and nine
      months) it reports 1 instead of 3; started in July 2021, in January
      2023 (one year and six months) it reports 2 instead of 1. */
  lemma AsWrittenCounterexamples()
    ensures YearsSpentAsWritten(YearMonth(2022, 0), YearMonth(2022, 11)) == -1
    ensures YearsSpent(YearMonth(2022, 0), YearMonth(2022, 11)) == 1
    ensures YearsSpentAsWritten(YearMonth(2021, 1), YearMonth(2023, 10)) == 1
    ensures YearsSpent(YearMonth(2021, 1), YearMonth(2023, 10)) == 3
    ensures YearsSpentAsWritten(YearMonth(2021, 6), YearMonth(2023, 0)) == 2
    ensures YearsSpent(YearMonth(2021, 6), YearMonth(2023, 0)) == 1
  {
  }

  /** The figure as written can go down as time goes on: started in
      January 2022, it is 0 in July 2022 and -1 a month later. */
  lemma AsWrittenNotMonotone()
    ensures ElapsedMonths(YearMonth(2022, 0), YearMonth(2022, 6))
          < ElapsedMonths(YearMonth(2022, 0), YearMonth(2022, 7))
    ensures YearsSpentAsWritten(YearMonth(2022, 0), YearMonth(2022, 6))
          > YearsSpentAsWritten(YearMonth(2022, 0), YearMonth(2022, 7))
  {
  }
}

=== FILE: segmentation.dfy ===
/** The segmentation endpoint's payload handling (api/segmentation/app.py).
    The base64 codec, the image library, the colour conversion, the
    segmentation model and the figure renderer are opaque to this code and
    are passed in as functions; what is modelled is the string handling
    around them, the order in which mask annotations are drawn, the overlay
    layers, and how failures turn into results. */
module Segmentation {
  import opened Wrappers
  import opened Text
  import Sorting

  type Byte = x: int | 0 <= x < 256

  /** The data-URI scheme tag of section 3 of RFC 2397 for a base64 PNG. */
  const DataUriPrefix: string := "data:image/png;base64,"

  /** What `process_image` returns when the payload cannot be decoded. */
  const ErrorSentinel: string := "Error processing image"

  /** Opacity of every mask overlay. */
  const OverlayAlpha: real := 0.35

  /** The base64 alphabet of section 4 of RFC 4648, and its pad character. */
  predicate IsBase64Char(c: char) {
    ('A' <= c <= 'Z') || ('a' <= c <= 'z') || ('0' <= c <= '9') || c == '+' || c == '/' || c == '='
  }

  /** Text an RFC 4648 encoder produces: alphabet characters only, in
      whole 4-character quanta. */
  predicate IsEncoderOutput(t: string) {
    |t| % 4 == 0 && forall k :: 0 <= k < |t| ==> IsBase64Char(t[k])
  }

  // -----------------------------------------------------------------------
  // Decoding side: `base64_to_image`

  /** Removes the data-URI prefix only when the string starts with exactly
      that prefix; anything else is returned unchanged. */
  function StripDataUriPrefix(s: string): (r: string)
    ensures StartsWith(s, DataUriPrefix) ==> s == DataUriPrefix + r
    ensures !StartsWith(s, DataUriPrefix) ==> r == s
  {
    if StartsWith(s, DataUriPrefix) then s[|DataUriPrefix|..] else s
  }

  /** Appends '=' until the length is a multiple of 4. */
  function PadToQuantum(t: string): (r: string)
    ensures |r| % 4 == 0
    ensures |t| <= |r| < |t| + 4
    ensures r[..|t|] == t
    ensures forall k :: |t| <= k < |r| ==> r[k] == '='
  {
    var missing := |t| % 4;
    if missing != 0 then t + Repeat('=', 4 - missing) else t
  }

  /** The normalisation `base64_to_image` applies before decoding: prefix
      removal, then whitespace stripping, then padding. The result is the
      stripped payload followed by fewer than four '=' characters, with a
      length that is a multiple of 4. */
  function NormalizeBase64(s: string): (r: string)
    ensures |r| % 4 == 0
    ensures var core := Trim(StripDataUriPrefix(s));
      |core| <= |r| < |core| + 4 && r[..|core|] == core
      && forall k :: |core| <= k < |r| ==> r[k] == '='
  {
    PadToQuantum(Trim(StripDataUriPrefix(s)))
  }

  /** An unprefixed, already stripped string whose length is a multiple of
      4 is left untouched, so normalising it again changes nothing. */
  lemma NormalizeFixpoint(s: string)
    requires !StartsWith(s, DataUriPrefix)
    requires IsTrimmed(s)
    requires |s| % 4 == 0
    ensures NormalizeBase64(s) == s
  {
    TrimOfTrimmed(s);
  }

  /** Whitespace is stripped only after the prefix test, so a space in
      front of the prefix keeps the prefix in the normalised text. */
  lemma LeadingSpaceBlocksPrefix(body: string)
    ensures StartsWith(NormalizeBase64(" " + DataUriPrefix + body), DataUriPrefix)
  {
    var s := " " + DataUriPrefix + body;
    assert !StartsWith(s, DataUriPrefix) by {
      assert s[..|DataUriPrefix|][0] == s[0] == ' ' != DataUriPrefix[0];
    }
    TrimKeepsWord(DataUriPrefix, body);
    var core := Trim(s);
    var r := NormalizeBase64(s);
    assert r[..|core|] == core;
    assert r[..|DataUriPrefix|] == core[..|DataUriPrefix|];
  }

  /** Trimming a space, a word that neither starts nor ends with
      whitespace, and anything after it keeps the word at the front. */
  lemma TrimKeepsWord(w: string, body: string)
    requires |w| > 0 && !IsSpace(w[0]) && !IsSpace(w[|w| - 1])
    ensures StartsWith(Trim(" " + w + body), w)
  {
    var s := " " + w + body;
    var u := w + body;
    assert s[1..] == u;
    var a := LeadingSpaces(s);
    assert a == 1 by {
      assert s[1] == w[0];
    }
    var b := TrailingSpaces(u);
    assert b <= |body| by {
      TrailingSpacesAfter(w, body);
    }
    var core := Trim(s);
    assert core == u[..|u| - b];
    assert core[..|w|] == w;
  }

  /** Text produced by the encoding side, prefix included, normalises back
      to exactly the encoder's output: the two halves agree. */
  lemma EncodedPayloadNormalizes(t: string)
    requires IsEncoderOutput(t)
    ensures NormalizeBase64(DataUriPrefix + t) == t
  {
    var s := DataUriPrefix + t;
    assert StartsWith(s, DataUriPrefix);
    assert StripDataUriPrefix(s) == t;
    assert IsTrimmed(t) by {
      if |t| > 0 {
        assert IsBase64Char(t[0]) && IsBase64Char(t[|t| - 1]);
      }
    }
    TrimOfTrimmed(t);
  }

  /** `base64_to_image`: a failure of the decoder or of the image loader is
      caught and becomes `None`. */
  function Base64ToImage<Img>(
    s: string,
    b64decode: string -> Option<seq<Byte>>,
    openImage: seq<Byte> -> Option<Img>
  ): (r: Option<Img>)
    ensures b64decode(NormalizeBase64(s)).None? ==> r.None?
    ensures r.Some? ==> openImage(b64decode(NormalizeBase64(s)).value) == r
    ensures b64decode(NormalizeBase64(s)).Some? ==> r == openImage(b64decode(NormalizeBase64(s)).value)
  {
    match b64decode(NormalizeBase64(s))
    case None => None
    case Some(bytes) => openImage(bytes)
  }

  // -----------------------------------------------------------------------
  // Rendering side: `show_anns` and `image_to_base64`

  /** One mask annotation produced by the model. */
  datatype Annotation = Annotation(area: int, segmentation: seq<seq<bool>>)

  /** A colour with channels in [0, 1). */
  datatype Rgb = Rgb(r: real, g: real, b: real)

  /** One overlay drawn over the image: a uniform colour with a per-pixel
      opacity. */
  datatype Layer = Layer(color: Rgb, alpha: seq<seq<real>>)

  function AreaOf(a: Annotation): int {
    a.area
  }

  /** The draw order: every annotation exactly once, largest area first. */
  function DrawOrder(anns: seq<Annotation>): (r: seq<Annotation>)
    ensures multiset(r) == multiset(anns)
    ensures forall i, j :: 0 <= i < j < |r| ==> r[i].area >= r[j].area
  {
    Sorting.SortDesc(anns, AreaOf)
  }

  /** Opacity grid of one mask: `OverlayAlpha` where the mask is set and 0
      elsewhere, with the mask's shape. */
  function AlphaMask(m: seq<seq<bool>>): (r: seq<seq<real>>)
    ensures |r| == |m|
    ensures forall y :: 0 <= y < |m| ==> |r[y]| == |m[y]|
    ensures forall y, x :: 0 <= y < |m| && 0 <= x < |m[y]| ==>
      r[y][x] == (if m[y][x] then OverlayAlpha else 0.0)
  {
    seq(|m|, y requires 0 <= y < |m| =>
      seq(|m[y]|, x requires 0 <= x < |m[y]| => if m[y][x] then OverlayAlpha else 0.0))
  }

  /** `show_anns`: nothing for an empty list; otherwise one layer per
      annotation in draw order, coloured by the i-th random draw. */
  function ShowAnns(anns: seq<Annotation>, palette: nat -> Rgb): (r: seq<Layer>)
    ensures |anns| == 0 ==> r == []
    ensures |r| == |anns|
    ensures forall i :: 0 <= i < |r| ==>
      r[i] == Layer(palette(i), AlphaMask(DrawOrder(anns)[i].segmentation))
  {
    if |anns| == 0 then []
    else
      var order := DrawOrder(anns);
      seq(|order|, i requires 0 <= i < |order| => Layer(palette(i), AlphaMask(order[i].segmentation)))
  }

  /** `image_to_base64`: renders the image with its overlays to PNG bytes
      and wraps the base64 text in a data URI; a rendering failure becomes
      `None`. */
  function ImageToBase64<Img>(
    image: Img,
    anns: seq<Annotation>,
    palette: nat -> Rgb,
    renderPng: (Img, seq<Layer>) -> Option<seq<Byte>>,
    b64encode: seq<Byte> -> string
  ): (r: Option<string>)
    ensures r.None? <==> renderPng(image, ShowAnns(anns, palette)).None?
    ensures r.Some? ==>
      && StartsWith(r.value, DataUriPrefix)
      && r.value[|DataUriPrefix|..] == b64encode(renderPng(image, ShowAnns(anns, palette)).value)
  {
    match renderPng(image, ShowAnns(anns, palette))
    case None => None
    case Some(png) =>
      var uri := DataUriPrefix + b64encode(png);
      assert uri[..|DataUriPrefix|] == DataUriPrefix;
      Some(uri)
  }

  /** `process_image`: a payload that fails to decode yields the error
      sentinel; otherwise the image goes through the colour conversion and
      the model, and the rendered result is returned as a data URI (or
      `None` when rendering failed). */
  function ProcessImage<Img>(
    payload: string,
    b64decode: string -> Option<seq<Byte>>,
    openImage: seq<Byte> -> Option<Img>,
    toBgr: Img -> Img,
    generateMasks: Img -> seq<Annotation>,
    palette: nat -> Rgb,
    renderPng: (Img, seq<Layer>) -> Option<seq<Byte>>,
    b64encode: seq<Byte> -> string
  ): (r: Option<string>)
    ensures Base64ToImage(payload, b64decode, openImage).None? <==> r == Some(ErrorSentinel)
    ensures r.Some? && r.value != ErrorSentinel ==> StartsWith(r.value, DataUriPrefix)
    ensures Base64ToImage(payload, b64decode, openImage).Some? ==>
      var bgr := toBgr(Base64ToImage(payload, b64decode, openImage).value);
      var png := renderPng(bgr, ShowAnns(generateMasks(bgr), palette));
      && (r.None? <==> png.None?)
      && (r.Some? ==> r.value == DataUriPrefix + b64encode(png.value))
  {
    match Base64ToImage(payload, b64decode, openImage)
    case None => Some(ErrorSentinel)
    case Some(img) =>
      var bgr := toBgr(img);
      var out := ImageToBase64(bgr, generateMasks(bgr), palette, renderPng, b64encode);
      assert out.Some? ==> out.value[0] == DataUriPrefix[0] != ErrorSentinel[0];
      out
  }
}

=== FILE: sequences.dfy ===
/** Order-preserving filtering (`Array.prototype.filter`) and the
    subsequence relation it establishes. */
module Sequences {

  /** `s` is `t` with some elements dropped and the rest in order: each
      element of `s` is found in `t` after the previous one. */
  predicate IsSubsequence<T(==)>(s: seq<T>, t: seq<T>) {
    if |s| == 0 then true
    else if |t| == 0 then false
    else if s[0] == t[0] then IsSubsequence(s[1..], t[1..])
    else IsSubsequence(s, t[1..])
  }

  /** Skipping the head of `t` keeps a subsequence of its tail a
      subsequence of `t`. */
  lemma {:induction false} RestSubsequence<T>(s: seq<T>, t: seq<T>)
    requires |t| > 0 && IsSubsequence(s, t[1..])
    ensures IsSubsequence(s, t)
    decreases |t|, 0
  {
    if |s| > 0 && s[0] == t[0] {
      SubsequenceTail(s, t[1..]);
    }
  }

  /** Dropping the first element of a subsequence leaves a subsequence. */
  lemma {:induction false} SubsequenceTail<T>(s: seq<T>, u: seq<T>)
    requires |s| > 0 && IsSubsequence(s, u)
    ensures IsSubsequence(s[1..], u)
    decreases |u|, 1
  {
    if s[0] == u[0] {
      RestSubsequence(s[1..], u);
    } else {
      SubsequenceTail(s, u[1..]);
      RestSubsequence(s[1..], u);
    }
  }

  /** `s.filter(keep)`: only elements that pass, and every element that
      passes; FilterCount adds that each is kept as often as it occurs. */
  function Filter<T>(s: seq<T>, keep: T -> bool): (r: seq<T>)
    ensures forall k :: 0 <= k < |r| ==> keep(r[k]) && r[k] in s
    ensures forall k :: 0 <= k < |s| && keep(s[k]) ==> s[k] in r
    ensures |r| <= |s|
    ensures multiset(r) <= multiset(s)
  {
    if |s| == 0 then []
    else
      var rest := Filter(s[1..], keep);
      assert s == [s[0]] + s[1..];
      if keep(s[0]) then [s[0]] + rest else rest
  }

  /** Filtering a list with a first element: that element if it passes,
      then the filter of the rest. */
  lemma FilterCons<T>(x: T, s: seq<T>, keep: T -> bool)
    ensures Filter([x] + s, keep) == (if keep(x) then [x] else []) + Filter(s, keep)
  {
    assert ([x] + s)[0] == x && ([x] + s)[1..] == s;
  }

  /** The filter keeps every passing element exactly as often as it occurs
      and drops every other one. */
  lemma {:induction false} FilterCount<T(!new)>(s: seq<T>, keep: T -> bool)
    ensures forall v :: multiset(Filter(s, keep))[v] == if keep(v) then multiset(s)[v] else 0
  {
    if |s| > 0 {
      FilterCount(s[1..], keep);
      assert s == [s[0]] + s[1..];
      var rest := Filter(s[1..], keep);
      var head: seq<T> := if keep(s[0]) then [s[0]] else [];
      assert Filter(s, keep) == head + rest;
      assert multiset(s) == multiset([s[0]]) + multiset(s[1..]);
      assert multiset(head + rest) == multiset(head) + multiset(rest);
    }
  }

  /** The filter keeps the order of the kept elements. */
  lemma {:induction false} FilterIsSubsequence<T>(s: seq<T>, keep: T -> bool)
    ensures IsSubsequence(Filter(s, keep), s)
  {
    if |s| > 0 {
      var rest := Filter(s[1..], keep);
      FilterIsSubsequence(s[1..], keep);
      if keep(s[0]) {
        assert ([s[0]] + rest)[1..] == rest;
      } else {
        RestSubsequence(rest, s);
      }
    }
  }

  /** A filter that every element passes keeps the whole sequence. */
  lemma {:induction false} FilterAll<T>(s: seq<T>, keep: T -> bool)
    requires forall k :: 0 <= k < |s| ==> keep(s[k])
    ensures Filter(s, keep) == s
  {
    if |s| > 0 {
      FilterAll(s[1..], keep);
      assert s == [s[0]] + s[1..];
    }
  }

  /** A filter that no element passes keeps nothing. */
  lemma {:induction false} FilterNone<T>(s: seq<T>, keep: T -> bool)
    requires forall k :: 0 <= k < |s| ==> !keep(s[k])
    ensures Filter(s, keep) == []
  {
    if |s| > 0 {
      FilterNone(s[1..], keep);
    }
  }
}

=== FILE: snowflakes.dfy ===
/** The snowflake explorer (app/projects/snowflakes/content.tsx): the
    table of temperatures with a photograph for each humidity level, the
    snapping of the slider's temperature to the nearest photographed one,
    and the image key that restarts the fade-in animation. */
module Snowflakes {
  import opened Wrappers
  import opened Text
  import Sorting

  /** The slider's range, in whole degrees Celsius. */
  const SliderMin: int := -30
  const SliderMax: int := 0

  /** Temperatures photographed at each humidity level; `None` for a level
      the table does not list. */
  function AvailableTemperatures(humidity: int): (r: Option<seq<int>>)
    ensures 1 <= humidity <= 3 <==> r.Some?
    ensures r.Some? ==> |r.value| > 0
    ensures r.Some? ==> forall k :: 0 <= k < |r.value| ==> SliderMin <= r.value[k] <= SliderMax
  {
    if humidity == 1 then Some([-2, -3, -4, -6, -7, -15, -24, -26, -28])
    else if humidity == 2 then Some([-2, -5, -10, -16, -17, -18, -26])
    else if humidity == 3 then Some([-5, -13, -14])
    else None
  }

  function Abs(x: int): nat {
    if x < 0 then -x else x
  }

  function Negate(t: int): int {
    -t
  }

  /** `sort((a, b) => a - b)`: the same temperatures, ascending. */
  function SortAscending(s: seq<int>): (r: seq<int>)
    ensures multiset(r) == multiset(s)
    ensures |r| == |s|
    ensures forall i, j :: 0 <= i < j < |r| ==> r[i] <= r[j]
  {
    var r := Sorting.SortDesc(s, Negate);
    assert forall i, j :: 0 <= i < j < |r| ==> Negate(r[i]) >= Negate(r[j]);
    r
  }

  /** The loop of `getClosestTemperature` over an ascending list: the
      current best is replaced only on a strictly smaller distance. */
  method ScanClosest(target: int, sorted: seq<int>) returns (closest: int)
    requires |sorted| > 0
    requires forall i, j :: 0 <= i < j < |sorted| ==> sorted[i] <= sorted[j]
    ensures closest in sorted
    ensures forall k :: 0 <= k < |sorted| ==> Abs(target - closest) <= Abs(target - sorted[k])
    ensures forall k :: 0 <= k < |sorted| && Abs(target - sorted[k]) == Abs(target - closest) ==> closest <= sorted[k]
  {
    closest := sorted[0];
    var minDiff := Abs(target - closest);
    ghost var at := 0;
    var i := 1;
    while i < |sorted|
      invariant 1 <= i <= |sorted|
      invariant 0 <= at < i && sorted[at] == closest
      invariant minDiff == Abs(target - closest)
      invariant forall k :: 0 <= k < i ==> minDiff <= Abs(target - sorted[k])
      invariant forall k :: 0 <= k < i && Abs(target - sorted[k]) == minDiff ==> closest <= sorted[k]
    {
      var diff := Abs(target - sorted[i]);
      if diff < minDiff {
        closest := sorted[i];
        minDiff := diff;
        at := i;
      }
      i := i + 1;
    }
  }

  /** `getClosestTemperature`: the result is in the list, no listed
      temperature is strictly closer, and among equally close ones it is
      the smallest; a listed target is returned as is. An empty list gives
      `None`, where `getClosestTemperature` returns `undefined`. */
  method ClosestTemperature(target: int, temps: seq<int>) returns (r: Option<int>)
    ensures r.None? <==> temps == []
    ensures r.Some? ==> r.value in temps
    ensures r.Some? ==> forall t :: t in temps ==> Abs(target - r.value) <= Abs(target - t)
    ensures r.Some? ==> forall t :: t in temps && Abs(target - t) == Abs(target - r.value) ==> r.value <= t
    ensures target in temps ==> r == Some(target)
  {
    if |temps| == 0 {
      return None;
    }
    var sorted := SortAscending(temps);
    var closest := ScanClosest(target, sorted);
    ClosestOverList(target, temps, sorted, closest);
    r := Some(closest);
  }

  /** What the scan proves about the sorted copy holds of the original
      list, which has the same elements. */
  lemma ClosestOverList(target: int, temps: seq<int>, sorted: seq<int>, closest: int)
    requires multiset(temps) == multiset(sorted)
    requires closest in sorted
    requires forall k :: 0 <= k < |sorted| ==> Abs(target - closest) <= Abs(target - sorted[k])
    requires forall k :: 0 <= k < |sorted| && Abs(target - sorted[k]) == Abs(target - closest) ==> closest <= sorted[k]
    ensures closest in temps
    ensures forall t :: t in temps ==> Abs(target - closest) <= Abs(target - t)
    ensures forall t :: t in temps && Abs(target - t) == Abs(target - closest) ==> closest <= t
  {
    SameElements(temps, sorted);
    forall t | t in temps ensures Abs(target - closest) <= Abs(target - t) {
      var k :| 0 <= k < |sorted| && sorted[k] == t;
    }
    forall t | t in temps && Abs(target - t) == Abs(target - closest) ensures closest <= t {
      var k :| 0 <= k < |sorted| && sorted[k] == t;
    }
  }

  lemma SameElements(a: seq<int>, b: seq<int>)
    requires multiset(a) == multiset(b)
    ensures forall t :: t in a <==> t in b
  {
    forall t ensures t in a <==> t in b {
      assert t in a <==> t in multiset(a);
      assert t in b <==> t in multiset(b);
    }
  }

  /** `${n}` for an integer: a minus sign in front of a negative number. */
  function IntToString(n: int): (r: string)
    ensures |r| >= 1
    ensures n < 0 <==> r[0] == '-'
    ensures n >= 0 ==> r == NatToString(n)
    ensures n < 0 ==> r[1..] == NatToString(-n)
  {
    if n < 0 then "-" + NatToString(-n) else NatToString(n)
  }

  /** A listed temperature that is nearest to the target and the lowest
      among the equally near ones is unique, so the contract of
      ClosestTemperature and SnapEffect pins the snapped temperature. */
  lemma ClosestIsUnique(target: int, temps: seq<int>, a: int, b: int)
    requires a in temps && b in temps
    requires forall t :: t in temps ==> Abs(target - a) <= Abs(target - t)
    requires forall t :: t in temps ==> Abs(target - b) <= Abs(target - t)
    requires forall t :: t in temps && Abs(target - t) == Abs(target - a) ==> a <= t
    requires forall t :: t in temps && Abs(target - t) == Abs(target - b) ==> b <= t
    ensures a == b
  {
  }

  const ImageDir: string := "/snowflakes/images/snowflake_"

  /** Path of the photograph for a humidity level and a temperature: the
      directory and file stem, the humidity, an underscore, the temperature
      and the extension. */
  function ImagePath(humidity: int, temperature: int): (r: string)
    ensures |r| > |ImageDir| + 4
    ensures StartsWith(r, ImageDir) && EndsWith(r, ".jpg")
  {
    var r := ImageDir + IntToString(humidity) + "_" + IntToString(temperature) + ".jpg";
    assert r[..|ImageDir|] == ImageDir;
    assert r[|r| - 4..] == ".jpg";
    r
  }

  /** Distinct integers have distinct numerals: the sign agrees, and so
      do the digits after it. */
  lemma IntToStringInjective(a: int, b: int)
    requires IntToString(a) == IntToString(b)
    ensures a == b
  {
    var s := IntToString(a);
    if a < 0 {
      assert b < 0 by { assert s[0] == '-'; }
      NatToStringInjective(-a, -b);
    } else {
      assert b >= 0 by { assert s[0] != '-'; }
      NatToStringInjective(a, b);
    }
  }

  /** At one humidity, two temperatures share a photograph path exactly
      when they are equal, so the path changes exactly when the snapped
      temperature does. */
  lemma ImagePathInjective(humidity: int, t1: int, t2: int)
    ensures ImagePath(humidity, t1) == ImagePath(humidity, t2) <==> t1 == t2
  {
    if ImagePath(humidity, t1) == ImagePath(humidity, t2) {
      var head := ImageDir + IntToString(humidity) + "_";
      var a := IntToString(t1);
      var b := IntToString(t2);
      assert head + a + ".jpg" == ImagePath(humidity, t1);
      assert head + b + ".jpg" == ImagePath(humidity, t2);
      assert |a| == |b|;
      assert a == (head + a + ".jpg")[|head|..|head| + |a|];
      assert b == (head + b + ".jpg")[|head|..|head| + |b|];
      IntToStringInjective(t1, t2);
    }
  }

  datatype Explorer = Explorer(humidity: int, temperature: int, imageKey: string, prevImagePath: string)

  /** The effect that runs after the humidity or temperature changes: the
      temperature snaps to the closest photographed one, and the image key
      (path plus the current time `stamp`) changes exactly when the path
      of the photograph changes. */
  method SnapEffect(e: Explorer, stamp: string) returns (r: Explorer)
    requires 1 <= e.humidity <= 3
    ensures r.humidity == e.humidity
    ensures r.temperature in AvailableTemperatures(e.humidity).value
    ensures forall t :: t in AvailableTemperatures(e.humidity).value ==>
      Abs(e.temperature - r.temperature) <= Abs(e.temperature - t)
    ensures forall t ::
      t in AvailableTemperatures(e.humidity).value && Abs(e.temperature - t) == Abs(e.temperature - r.temperature)
      ==> r.temperature <= t
    ensures r.prevImagePath == ImagePath(e.humidity, r.temperature)
    ensures r.prevImagePath != e.prevImagePath ==> r.imageKey == r.prevImagePath + stamp
    ensures r.prevImagePath == e.prevImagePath ==> r.imageKey == e.imageKey
    ensures (e.temperature in AvailableTemperatures(e.humidity).value
      && e.prevImagePath == ImagePath(e.humidity, e.temperature)) ==> r == e
  {
    var temps := AvailableTemperatures(e.humidity).value;
    var snapped := ClosestTemperature(e.temperature, temps);
    var t := snapped.value;
    var path := ImagePath(e.humidity, t);
    if e.prevImagePath != path {
      r := Explorer(e.humidity, t, path + stamp, path);
    } else {
      r := Explorer(e.humidity, t, e.imageKey, e.prevImagePath);
    }
  }

  /** Clicking humidity circle `index` (top to bottom: levels 3, 2, 1). */
  function HumidityOfCircle(index: nat): (h: int)
    requires index < 3
    ensures 1 <= h <= 3
    ensures AvailableTemperatures(h).Some?
    ensures h + index == 3
  {
    3 - index
  }
}

=== FILE: sorting.dfy ===
/** Stable sorting by a numeric key, largest key first. This is what
    JavaScript's `Array.prototype.sort((a, b) => key(b) - key(a))` and
    Python's `sorted(xs, key=key, reverse=True)` compute: both sorts are
    stable, so elements with equal keys keep their input order. */
module Sorting {

  /** Keys never increase from left to right. */
  predicate SortedDesc<T>(s: seq<T>, key: T -> int) {
    forall i, j :: 0 <= i < j < |s| ==> key(s[i]) >= key(s[j])
  }

  /** Inserts `x` in front of the first element whose key is not larger
      than `x`'s, so `x` stays ahead of later elements with an equal key. */
  function Insert<T>(x: T, s: seq<T>, key: T -> int): (r: seq<T>)
    requires SortedDesc(s, key)
    ensures SortedDesc(r, key)
    ensures multiset(r) == multiset(s) + multiset{x}
    ensures |r| == |s| + 1
  {
    if |s| == 0 || key(x) >= key(s[0]) then [x] + s
    else
      var tail := Insert(x, s[1..], key);
      assert s == [s[0]] + s[1..];
      assert forall k :: 0 <= k < |tail| ==> key(s[0]) >= key(tail[k]) by {
        forall k | 0 <= k < |tail| ensures key(s[0]) >= key(tail[k]) {
          assert tail[k] in multiset(tail);
          assert tail[k] == x || tail[k] in multiset(s[1..]);
        }
      }
      [s[0]] + tail
  }

  /** Stable insertion sort, largest key first. The result is a
      permutation of the input ordered by non-increasing key. */
  function SortDesc<T>(s: seq<T>, key: T -> int): (r: seq<T>)
    ensures SortedDesc(r, key)
    ensures multiset(r) == multiset(s)
    ensures |r| == |s|
  {
    if |s| == 0 then []
    else
      assert s == [s[0]] + s[1..];
      Insert(s[0], SortDesc(s[1..], key), key)
  }
}

=== FILE: text.dfy ===
/** String helpers shared by the model: whitespace trimming, prefix and
    suffix tests, ASCII case mapping, substring search, decimal rendering
    of naturals, joining and splitting. Strings are `seq<char>`. */
module Text {

  /** The ASCII whitespace set removed by Python's `str.strip()` and
      JavaScript's `String.prototype.trim()`. */
  predicate IsSpace(c: char) {
    c == ' ' || c == '\t' || c == '\n' || c == '\r' || c == '\U{000B}' || c == '\U{000C}'
  }

  predicate AllSpace(s: string) {
    forall k :: 0 <= k < |s| ==> IsSpace(s[k])
  }

  /** Neither end of `s` is whitespace. */
  predicate IsTrimmed(s: string) {
    |s| == 0 || (!IsSpace(s[0]) && !IsSpace(s[|s| - 1]))
  }

  /** Number of whitespace characters at the start of `s`. */
  function LeadingSpaces(s: string): (n: nat)
    ensures n <= |s|
    ensures AllSpace(s[..n])
    ensures n == |s| || !IsSpace(s[n])
  {
    if |s| == 0 || !IsSpace(s[0]) then 0
    else
      var m := LeadingSpaces(s[1..]);
      assert s[..m + 1] == [s[0]] + s[1..][..m];
      m + 1
  }

  /** Number of whitespace characters at the end of `s`. */
  function TrailingSpaces(s: string): (n: nat)
    ensures n <= |s|
    ensures AllSpace(s[|s| - n..])
    ensures n == |s| || !IsSpace(s[|s| - n - 1])
  {
    if |s| == 0 || !IsSpace(s[|s| - 1]) then 0
    else
      var init := s[..|s| - 1];
      var m := TrailingSpaces(init);
      assert s[|s| - (m + 1)..] == init[|init| - m..] + [s[|s| - 1]];
      m + 1
  }

  /** Trailing whitespace never reaches back past a non-space character. */
  lemma {:induction false} TrailingSpacesAfter(p: string, q: string)
    requires |p| > 0 && !IsSpace(p[|p| - 1])
    ensures TrailingSpaces(p + q) == TrailingSpaces(q)
  {
    if |q| > 0 && IsSpace(q[|q| - 1]) {
      assert (p + q)[..|p + q| - 1] == p + q[..|q| - 1];
      TrailingSpacesAfter(p, q[..|q| - 1]);
    }
  }

  /** Removes leading and trailing whitespace. The result is what remains
      of `s` after cutting an all-whitespace prefix and suffix, and it has
      no whitespace at either end. */
  function Trim(s: string): (r: string)
    ensures IsTrimmed(r)
    ensures exists a :: 0 <= a <= |s| - |r| && IsTrimCut(s, r, a)
    ensures r == [] <==> AllSpace(s)
  {
    var a := LeadingSpaces(s);
    var b := TrailingSpaces(s[a..]);
    TrimParts(s, a, b);
    s[a..|s| - b]
  }

  /** The facts behind `Trim`, for the cut between the leading and the
      trailing whitespace. */
  lemma TrimParts(s: string, a: nat, b: nat)
    requires a <= |s| && AllSpace(s[..a]) && (a == |s| || !IsSpace(s[a]))
    requires b <= |s| - a && AllSpace(s[a..][|s| - a - b..])
    requires b == |s| - a || !IsSpace(s[a..][|s| - a - b - 1])
    ensures a <= |s| - b
    ensures IsTrimmed(s[a..|s| - b])
    ensures IsTrimCut(s, s[a..|s| - b], a)
    ensures s[a..|s| - b] == [] <==> AllSpace(s)
  {
    var t := s[a..];
    var n := |s| - a - b;
    assert |t| == |s| - a;
    var r := s[a..|s| - b];
    assert |r| == n;
    forall k | |s| - b <= k < |s|
      ensures IsSpace(s[k])
    {
      assert s[k] == t[|t| - b..][k - (|s| - b)];
    }
    assert AllSpace(s[a + |r|..]);
    if n > 0 {
      assert r[0] == s[a];
      assert r[n - 1] == t[|t| - b - 1];
    }
    forall k | 0 <= k < n
      ensures r[k] == t[..n][k]
    {
      assert r[k] == s[a + k];
    }
    assert r == t[..n];
    TrimEmptyIffAllSpace(s, a, b);
  }

  lemma TrimEmptyIffAllSpace(s: string, a: nat, b: nat)
    requires a <= |s| && b <= |s| - a
    requires AllSpace(s[..a]) && (a == |s| || !IsSpace(s[a]))
    requires AllSpace(s[a..][|s| - a - b..])
    ensures s[a..][..|s| - a - b] == [] <==> AllSpace(s)
  {
    var t := s[a..];
    if |s| - a - b == 0 {
      assert s == s[..a] + t[|t| - b..];
      forall k | 0 <= k < |s| ensures IsSpace(s[k]) {
        assert s[k] == (s[..a] + t[|t| - b..])[k];
      }
    }
  }

  /** `r` is `s` with the all-whitespace prefix of length `a` and some
      all-whitespace suffix removed. */
  predicate IsTrimCut(s: string, r: string, a: int)
    requires 0 <= a <= |s| - |r|
  {
    AllSpace(s[..a]) && s[a..a + |r|] == r && AllSpace(s[a + |r|..])
  }

  /** Trimming a string with no whitespace at its ends changes nothing. */
  lemma TrimOfTrimmed(s: string)
    requires IsTrimmed(s)
    ensures Trim(s) == s
  {
    if |s| > 0 {
      assert LeadingSpaces(s) == 0;
      assert TrailingSpaces(s) == 0;
    }
  }

  lemma TrimIdempotent(s: string)
    ensures Trim(Trim(s)) == Trim(s)
  {
    TrimOfTrimmed(Trim(s));
  }

  predicate StartsWith(s: string, p: string) {
    |p| <= |s| && s[..|p|] == p
  }

  predicate EndsWith(s: string, p: string) {
    |p| <= |s| && s[|s| - |p|..] == p
  }

  /** `n` copies of `c`. */
  function Repeat(c: char, n: nat): (r: string)
    ensures |r| == n
    ensures forall k :: 0 <= k < n ==> r[k] == c
  {
    if n == 0 then [] else [c] + Repeat(c, n - 1)
  }

  /** ASCII case mapping (`toLowerCase`/`toUpperCase` restricted to A-Z). */
  function LowerChar(c: char): char {
    if 'A' <= c <= 'Z' then (c as int + 32) as char else c
  }

  function UpperChar(c: char): char {
    if 'a' <= c <= 'z' then (c as int - 32) as char else c
  }

  function ToLower(s: string): (r: string)
    ensures |r| == |s|
    ensures forall k :: 0 <= k < |s| ==> r[k] == LowerChar(s[k])
  {
    if |s| == 0 then [] else [LowerChar(s[0])] + ToLower(s[1..])
  }

  function ToUpper(s: string): (r: string)
    ensures |r| == |s|
    ensures forall k :: 0 <= k < |s| ==> r[k] == UpperChar(s[k])
  {
    if |s| == 0 then [] else [UpperChar(s[0])] + ToUpper(s[1..])
  }

  /** `sub` occurs in `s` starting at position `i`. */
  predicate OccursAt(s: string, sub: string, i: int) {
    0 <= i && i + |sub| <= |s| && s[i..i + |sub|] == sub
  }

  /** JavaScript `s.includes(sub)`. */
  predicate Contains(s: string, sub: string) {
    exists i :: 0 <= i <= |s| - |sub| && OccursAt(s, sub, i)
  }

  // ---------------------------------------------------------------------
  // Decimal rendering of naturals (JavaScript `String(n)` for integers >= 0)

  predicate IsDigit(c: char) {
    '0' <= c <= '9'
  }

  function DigitChar(d: nat): (c: char)
    requires d < 10
    ensures IsDigit(c)
  {
    ('0' as int + d) as char
  }

  function DigitValue(c: char): (d: nat)
    requires IsDigit(c)
    ensures d < 10
  {
    c as int - '0' as int
  }

  /** Shortest decimal numeral of `n`: digits only, at least one, and no
      leading zero unless the number is zero itself. */
  function NatToString(n: nat): (r: string)
    ensures |r| >= 1
    ensures forall k :: 0 <= k < |r| ==> IsDigit(r[k])
    ensures r[0] == '0' ==> n == 0
    ensures n < 10 <==> |r| == 1
  {
    if n < 10 then [DigitChar(n)]
    else NatToString(n / 10) + [DigitChar(n % 10)]
  }

  /** Value of a numeral; the reference reading of `NatToString`. */
  function ParseNat(s: string): nat
    requires forall k :: 0 <= k < |s| ==> IsDigit(s[k])
  {
    if |s| == 0 then 0
    else ParseNat(s[..|s| - 1]) * 10 + DigitValue(s[|s| - 1])
  }

  /** Reading back the rendered numeral yields the number. */
  lemma {:induction false} ParseNatToString(n: nat)
    ensures ParseNat(NatToString(n)) == n
  {
    if n >= 10 {
      var r := NatToString(n);
      assert r[..|r| - 1] == NatToString(n / 10);
      ParseNatToString(n / 10);
    }
  }

  /** Distinct naturals have distinct numerals. */
  lemma NatToStringInjective(m: nat, n: nat)
    requires NatToString(m) == NatToString(n)
    ensures m == n
  {
    ParseNatToString(m);
    ParseNatToString(n);
  }

  /** Left-pads with '0' to at least `width` characters (`padStart`). */
  function PadStart(s: string, width: nat, fill: char): (r: string)
    ensures |r| == if |s| >= width then |s| else width
    ensures r[|r| - |s|..] == s
    ensures forall k :: 0 <= k < |r| - |s| ==> r[k] == fill
  {
    if |s| >= width then s else Repeat(fill, width - |s|) + s
  }

  // ---------------------------------------------------------------------
  // Joining and splitting

  /** `parts.join(sep)`. */
  function Join(parts: seq<string>, sep: string): string {
    if |parts| == 0 then []
    else if |parts| == 1 then parts[0]
    else parts[0] + sep + Join(parts[1..], sep)
  }

  /** Joining a list with a first part: the part alone, or the part, the
      separator and the join of the rest. */
  lemma JoinCons(c: string, parts: seq<string>, sep: string)
    ensures Join([c] + parts, sep) == if parts == [] then c else c + sep + Join(parts, sep)
  {
    assert ([c] + parts)[0] == c && ([c] + parts)[1..] == parts;
  }

  /** A join starts with its first part. */
  lemma JoinFirst(parts: seq<string>, sep: string)
    requires |parts| > 0
    ensures |Join(parts, sep)| >= |parts[0]|
    ensures Join(parts, sep)[..|parts[0]|] == parts[0]
  {
  }

  /** Every part occurs in the joined string. */
  lemma {:induction false} JoinContainsPart(parts: seq<string>, sep: string, i: nat)
    requires i < |parts|
    ensures Contains(Join(parts, sep), parts[i])
    decreases |parts|
  {
    var j := Join(parts, sep);
    if i == 0 {
      if |parts| > 1 {
        assert j == parts[0] + (sep + Join(parts[1..], sep));
      }
      assert j[0..|parts[0]|] == parts[0];
      assert OccursAt(j, parts[0], 0);
    } else {
      JoinContainsPart(parts[1..], sep, i - 1);
      var rest := Join(parts[1..], sep);
      var k :| 0 <= k <= |rest| - |parts[i]| && OccursAt(rest, parts[i], k);
      var pre := parts[0] + sep;
      assert j == pre + rest;
      assert (pre + rest)[|pre| + k..|pre| + k + |parts[i]|] == rest[k..k + |parts[i]|];
      assert OccursAt(j, parts[i], |pre| + k);
    }
  }

  /** `s.split(c)` for a one-character separator: always at least one piece,
      and no piece contains the separator. */
  function Split(s: string, c: char): (r: seq<string>)
    ensures |r| >= 1
    ensures forall i, k :: 0 <= i < |r| && 0 <= k < |r[i]| ==> r[i][k] != c
  {
    if |s| == 0 then [[]]
    else
      var rest := Split(s[1..], c);
      if s[0] == c then [[]] + rest
      else [[s[0]] + rest[0]] + rest[1..]
  }

  /** Splitting and re-joining with the same separator gives back `s`. */
  lemma {:induction false} JoinSplit(s: string, c: char)
    ensures Join(Split(s, c), [c]) == s
  {
    if |s| > 0 {
      var rest := Split(s[1..], c);
      JoinSplit(s[1..], c);
      if s[0] == c {
        assert Split(s, c) == [[]] + rest;
        assert ([[]] + rest)[1..] == rest;
      } else {
        var r := Split(s, c);
        assert r == [[s[0]] + rest[0]] + rest[1..];
        if |rest| == 1 {
          assert r == [[s[0]] + rest[0]];
        } else {
          assert r[1..] == rest[1..];
          assert Join(rest, [c]) == rest[0] + [c] + Join(rest[1..], [c]);
        }
      }
    }
  }

  /** Splitting a join of separator-free pieces recovers the pieces. */
  lemma {:induction false} SplitJoin(parts: seq<string>, c: char)
    requires |parts| >= 1
    requires forall i, k :: 0 <= i < |parts| && 0 <= k < |parts[i]| ==> parts[i][k] != c
    ensures Split(Join(parts, [c]), c) == parts
  {
    if |parts| == 1 {
      SplitFree(parts[0], c);
    } else {
      var rest := Join(parts[1..], [c]);
      assert Join(parts, [c]) == parts[0] + [c] + rest;
      SplitJoin(parts[1..], c);
      SplitCons(parts[0], rest, c);
      assert parts == [parts[0]] + parts[1..];
    }
  }

  lemma {:induction false} SplitFree(a: string, c: char)
    requires forall k :: 0 <= k < |a| ==> a[k] != c
    ensures Split(a, c) == [a]
  {
    if |a| > 0 {
      SplitFree(a[1..], c);
      assert [a[0]] + a[1..] == a;
    }
  }

  lemma {:induction false} SplitCons(a: string, b: string, c: char)
    requires forall k :: 0 <= k < |a| ==> a[k] != c
    ensures Split(a + [c] + b, c) == [a] + Split(b, c)
  {
    if |a| == 0 {
      assert a + [c] + b == [c] + b;
      assert ([c] + b)[1..] == b;
    } else {
      var s := a + [c] + b;
      assert s[1..] == a[1..] + [c] + b;
      SplitCons(a[1..], b, c);
      assert [a[0]] + a[1..] == a;
    }
  }
}

=== FILE: theme.dfy ===
/** The colour theme (context/ThemeContext.tsx): the provider's state,
    its mount effect that adopts a stored theme, the toggle that persists
    the new theme, and the guard of `useThemeContext`. Local storage is the
    optional value of the `theme` key; the document's `data-theme`
    attribute is an optional theme. */
module ThemeContext {
  import opened Wrappers

  datatype Theme = Light | Dark

  const GuardMessage: string := "useThemeContext must be used within a ThemeProvider"

  /** The string each theme is stored and rendered as. */
  function Name(t: Theme): (s: string)
    ensures s == "light" || s == "dark"
  {
    match t
    case Light => "light"
    case Dark => "dark"
  }

  datatype Provider = Provider(theme: Theme, stored: Option<string>, dataTheme: Option<Theme>)

  /** The first render: light, whatever is stored. */
  function Initial(stored: Option<string>): (p: Provider)
    ensures p.theme == Light && p.stored == stored && p.dataTheme.None?
  {
    Provider(Light, stored, None)
  }

  /** The value the mount effect adopts: a stored "light" or "dark", or
      light for anything else. */
  function Preferred(stored: Option<string>): (t: Theme)
    ensures t == Dark <==> stored == Some("dark")
    ensures stored.Some? && (stored.value == "light" || stored.value == "dark") ==> Name(t) == stored.value
  {
    if stored == Some("dark") then Dark else Light
  }

  /** The mount effect: the preferred theme is adopted and written to the
      document; storage is untouched. */
  function Mount(p: Provider): (r: Provider)
    ensures r.theme == Preferred(p.stored) && r.dataTheme == Some(r.theme) && r.stored == p.stored
  {
    var t := Preferred(p.stored);
    p.(theme := t, dataTheme := Some(t))
  }

  /** `toggleTheme`: the other theme, stored and written to the document. */
  function Toggle(p: Provider): (r: Provider)
    ensures r.theme != p.theme
    ensures r.stored == Some(Name(r.theme)) && r.dataTheme == Some(r.theme)
  {
    var t := if p.theme == Light then Dark else Light;
    Provider(t, Some(Name(t)), Some(t))
  }

  /** Toggling twice gives back the original theme. */
  lemma ToggleTwice(p: Provider)
    ensures Toggle(Toggle(p)).theme == p.theme
  {
  }

  /** A toggled theme survives a reload: the next page's mount adopts it. */
  lemma ToggleSurvivesReload(p: Provider)
    ensures Mount(Initial(Toggle(p).stored)).theme == Toggle(p).theme
  {
  }

  /** `useThemeContext`: the provider's value, or the error it throws when
      rendered outside a provider. */
  function UseThemeContext(context: Option<Provider>): (r: Result<Provider, string>)
    ensures r.Failure? <==> context.None?
    ensures r.Failure? ==> r.error == GuardMessage
    ensures r.Success? ==> Some(r.value) == context
  {
    match context
    case None => Failure(GuardMessage)
    case Some(p) => Success(p)
  }
}

=== FILE: wrappers.dfy ===
/** Failure-carrying datatypes shared by every module of the model.
    `None` stands for JavaScript's `undefined`/`null` and Python's `None`;
    `Failure` carries the message of a caught exception. */
module Wrappers {

  datatype Option<+T> = None | Some(value: T) {

    /** The value inside `Some`, or `default` when absent. */
    function GetOr(default: T): T {
      match this
      case Some(v) => v
      case None => default
    }
  }

  datatype Result<+R, +E> = Success(value: R) | Failure(error: E)
}
